=== FILE: README.md ===
# Design-token pipeline, modelled in Dafny

The pipeline turns a design tool's colour variables into a design-token system and then into code artifacts, in three stages:

1. **Audit.**
   - It picks a token source: a saved MCP export file, the Figma REST variables API, or a local `design-tokens.json` snapshot.
   - It normalises the chosen source into one `{"colors", "typography", "effects"}` shape.
   - It builds a fixed proposed token tree whose few input-dependent leaves come from the source's colours and first typography entry.
2. **Refactor.** From the design tokens and the proposed tree it derives:
   - accessibility fixes that turn translucent eight-digit colours into the solid colour they show on white;
   - a dark palette, made by inverting the numeric steps of every light ramp that has a 500;
   - the flat list of `name / value / type` tokens used for syncing.
3. **Code sync.** From the flat list and the dark palette it emits:
   - a W3C design-tokens document;
   - CSS custom properties with a dark block;
   - a Tailwind theme of `var(--…)` references;
   - a Figma variables payload split into colour, number and string collections.

The model is pure Dafny:

- JSON values are a datatype. Python dicts are ordered association lists: a read takes the first entry, and an assignment replaces in place or appends.
- Every Python exception the code can raise becomes an `Err` of a `Result`.
- Files, environment variables and HTTP become function parameters.

Modules, in dependency order:

| module | file | what it holds |
|---|---|---|
| `Wrappers` | wrappers.dfy | `Option`, `Result`, the exception classes |
| `Dict` | dict.dfy | dict reads, assignment, bulk assignment (last write wins) |
| `Json` | json.dfy | JSON values, truthiness, nested lookup |
| `Text` | text.dfy | the string built-ins the code uses (`replace`, `split`, `lstrip`, `int(_, 16)`, `float`) |
| `ColorCodec` | color_codec.dfy | hex colours ⇄ channel records and byte tuples, overlay on white |
| `Normalizer` | normalizer.dfy | the MCP and REST payload normalisers |
| `Resolver` | resolver.dfy | file id extraction and the source priority |
| `TokenBuilder` | token_builder.dfy | the proposed token tree |
| `Refactor` | refactor.dfy | accessibility fixes, dark inversion, flattening and type tags |
| `Pipeline` | pipeline.dfy | what the refactor step makes of a tree the builder produced |
| `CodeSync` | code_sync.dfy | `nested_set`, the dark list, W3C, CSS, Tailwind and Figma outputs |

Some behaviours of the code worth knowing before reading the model:

- **Type tags** come from string prefixes of the dotted name, not from its first segment. A `shadow` token is a number, and a `font` prefix overrides every other test.
- **Ramps without a 500:** a role whose ramp has no 500 is not skipped. It becomes an empty dict in the dark palette.
- **Source order:**
  - The snapshot is read first, and a failure to read it aborts the run.
  - The MCP candidates are the explicit path, the environment path, `<file>__<node with ':' as '-'>.json`, `<file>__<node>.json` and `latest.json`.
  - The REST API is asked only when a token is given.
- **W3C font overrides** (`size`, `family`, `weight`) apply only when a token's raw type is literally `font`. The refactor step always tags such tokens `typography`, so for its output the overrides never fire.
- **Numeric Figma values:** every `px` is removed, not only a trailing unit.
- **Hex colour patterns:** both patterns use Python's `$`, which also accepts one trailing line feed. The primary-colour fallback accepts six-digit colours only.

## Model

| member | source | states |
|---|---|---|
| ColorCodec.RoundHalfEven | run_pipeline.py:200 | the rounded value is within one half of the input, and an exact tie goes to the even integer |
| ColorCodec.Channel | run_pipeline.py:200-202 | a channel within 0-1 scales to a byte within 0-255 |
| ColorCodec.ChannelOfByte | generate_code_sync_outputs.py:38-40 | a byte divided by 255 and scaled back by `int(round(x * 255))` is the same byte |
| ColorCodec.ToFloat | run_pipeline.py:200-203 | numbers convert unchanged; null, lists and dicts raise `TypeError` |
| ColorCodec.RgbaDictToHex | run_pipeline.py:199-207 | a non-dict raises; when all channels are within 0-1 the result is lowercase hex, nine characters exactly when alpha is below 1 and seven otherwise |
| ColorCodec.RgbaDefaults | run_pipeline.py:200-203 | missing channels default to opaque black, `#000000` |
| ColorCodec.Hex6Text | run_pipeline.py:24 | the six-digit pattern holds exactly for `#` and six hex digits, optionally followed by one line feed |
| ColorCodec.IsHexColor | run_pipeline.py:140-141 | an accepted value is a string of seven to ten characters, `#` and six hex digits first; every strict six- or eight-digit colour is accepted |
| ColorCodec.HexToFigmaRgba | generate_code_sync_outputs.py:33-45 | alpha is 1 unless exactly eight digits remain after stripping and expanding |
| ColorCodec.FigmaRgbaOfStrict | generate_code_sync_outputs.py:33-45 | a strict six- or eight-digit colour converts byte by byte over 255, every channel lies within 0-1, and six digits are opaque |
| ColorCodec.FigmaRoundTrip | generate_code_sync_outputs.py:33-45 | converting a strict colour to a channel record and back gives the colour in lowercase, without its alpha pair when that pair is `ff` |
| ColorCodec.HexToRgb | generate_refactor_outputs.py:9-15 | three bytes for six digits, four for eight, and black for any other length |
| ColorCodec.RgbToHex | generate_refactor_outputs.py:17-18 | the text starts with `#`; three bytes give seven characters, lowercase hex digits after the `#`, and an accepted hex colour |
| ColorCodec.RgbRoundTrip | generate_refactor_outputs.py:9-18 | three bytes written by `rgb_to_hex` read back by `hex_to_rgb` are the same bytes |
| ColorCodec.RgbOfStrict | generate_refactor_outputs.py:9-18 | a six-digit colour reads as its three bytes and writes back as itself in lowercase |
| ColorCodec.RgbaOfStrict | generate_refactor_outputs.py:13-14 | an eight-digit colour reads as four bytes, alpha last |
| ColorCodec.OverlayChannel | generate_refactor_outputs.py:20-26 | full alpha keeps the channel, zero alpha gives 255, and otherwise the result lies between the channel and 255 |
| ColorCodec.OverlayOnWhite | generate_refactor_outputs.py:20-26 | for bytes and an alpha byte, the result is a seven-character hex colour that reads back as the three blended channels, each no darker than the original |
| ColorCodec.OverlayExtremes | generate_refactor_outputs.py:20-26 | an opaque colour on white is itself and a transparent one is `#ffffff` |
| Normalizer.InferColorName | run_pipeline.py:149-151 | the name keeps its length, loses every dot, and keeps every other character |
| Normalizer.HexPairSound | run_pipeline.py:169-173 | every flat-map colour comes from an entry with a hex-colour value, under that entry's renamed key |
| Normalizer.HexPairComplete | run_pipeline.py:169-173 | every flat-map entry with a hex-colour value is written under its renamed key |
| Normalizer.FlatVariablesPresent | run_pipeline.py:169-173 | a name is present in the flat-map result exactly when some hex-colour entry is renamed to it |
| Normalizer.FlatVariablesValue | run_pipeline.py:169-173 | every kept value is a hex colour taken unchanged from an entry renamed to its key |
| Normalizer.ModeHexAgrees | run_pipeline.py:184-193 | the inline channel conversion of a collection variable gives the same text as `rgba_dict_to_hex` |
| Normalizer.ExportedVariableColor | run_pipeline.py:177-193 | a non-dict variable raises; one without a truthy name, a non-empty mode dict or channels in its first mode contributes nothing; otherwise it contributes `rgba_dict_to_hex` of the first mode's value under the renamed name, and it raises exactly when that conversion fails or the name is not a string |
| Normalizer.ParseMcpPayload | run_pipeline.py:154-196 | a payload with a `colors` dict passes through; otherwise the result is the normalised shape holding the flat-map colours, then the collection colours, last write winning; a non-dict fails |
| Normalizer.CollectionsOverwrite | run_pipeline.py:169-193 | a name written by a collection takes the collections' last value, and any other name keeps the flat map's last value |
| Normalizer.FlatOnly | run_pipeline.py:154-173 | a payload holding only a flat `variables` dict normalises to its hex-colour entries, renamed, last write winning |
| Normalizer.FlatMapExample | run_pipeline.py:169-173 | a non-colour entry is dropped and a dotted name becomes a slashed name |
| Normalizer.KeyOf | run_pipeline.py:232 | lists and dicts, and only they, are unhashable as dict keys |
| Normalizer.ModeIndexPairs | run_pipeline.py:225-232 | the index holds exactly the entries of the recorded collections (a dict with a truthy `id` and a truthy `defaultModeId`), fails exactly when a recorded `id` is a list or dict, and every default mode in it is truthy |
| Normalizer.ModeIndexEntry | run_pipeline.py:225-232 | a collection that is not recorded contributes nothing; a recorded one contributes its hashed `id` and its `defaultModeId`, failing exactly when the `id` is a list or dict |
| Normalizer.DefaultModes | run_pipeline.py:218-233 | the index builds exactly when no recorded collection of `meta.variableCollections` or the top-level list has a list or dict `id` |
| Normalizer.DefaultModeSound | run_pipeline.py:218-233 | every id in the index maps to the default mode of some recorded collection with that id |
| Normalizer.DefaultModeComplete | run_pipeline.py:218-233 | every recorded collection's id is in the index |
| Normalizer.ToListOrValues | run_pipeline.py:210-215 | a list is kept, a dict gives its values in order, and anything else gives nothing |
| Normalizer.TopLevelCollectionsWin | run_pipeline.py:218-233 | a top-level collection entry overrides the `meta` entry for the same id |
| Normalizer.PickVariableValue | run_pipeline.py:236-243 | without a non-empty mode dict there is no value; a list or dict collection id raises; with no index entry for the collection or a falsy default, the first mode's value; a list or dict default raises `TypeError`; a string default present among the modes picks that mode, and any other default the first mode |
| Normalizer.PickPreferred | run_pipeline.py:236-243 | the collection's default mode wins when it is among the modes, and the first mode wins otherwise |
| Normalizer.RestVariableColor | run_pipeline.py:255-266 | a non-dict or unnamed variable contributes nothing and a picking error propagates; a `COLOR` variable whose picked value is a dict contributes `rgba_dict_to_hex` of it, a conversion error propagating; otherwise a hex-string value contributes itself lowercased, and any other value nothing; a colour is keyed by the variable's own name |
| Normalizer.RestPairs | run_pipeline.py:254-266 | the loop over the variables succeeds exactly when every variable resolves without error, and writes at most one colour per variable |
| Normalizer.RestPairsAppend | run_pipeline.py:254-266 | processing two variable lists in turn performs the assignments of both, in order |
| Normalizer.ParseRestPayload | run_pipeline.py:246-268 | a non-dict raises `AttributeError`; a dict parses exactly when the mode index builds and the loop over the variables succeeds; a result has the normalised shape |
| Normalizer.RestColorSound | run_pipeline.py:246-268 | every colour of the result is what some variable of the payload resolves to, under its own name |
| Normalizer.RestColorComplete | run_pipeline.py:246-268 | every variable that resolves to a colour leaves a colour under its name |
| Normalizer.TopLevelVariablesWin | run_pipeline.py:248-266 | a top-level variable overwrites a `meta.variables` colour of the same name |
| Resolver.FindDesign | run_pipeline.py:15 | the search finds the leftmost `/design/<segment>/` match at or after the start, or reports that there is none |
| Resolver.ExtractFileId | run_pipeline.py:15-16 | the id is the segment of the leftmost match, or `unknown-file` when nothing matches |
| Resolver.FileIdOfMatch | run_pipeline.py:15-16 | any match yields a non-empty, slash-free id taken from a match no further right |
| Resolver.DesignUrlId | run_pipeline.py:15-16 | a URL starting with `/design/<id>/`, for any non-empty slash-free id, yields that id |
| Resolver.FileIdFallbackExample | run_pipeline.py:16 | a `/file/` URL has no id |
| Resolver.ExtractFigmaParts | run_pipeline.py:14-19 | the first part is the file id, and without a `node-id` query the node is empty |
| Resolver.McpCandidates | run_pipeline.py:302-316 | the explicit path comes first when given, then the environment path when set, then `<file>__<node with ':' as '-'>.json`, `<file>__<node>.json` and `latest.json` under `2_figma-mcp-snapshot` |
| Resolver.McpAttempt | run_pipeline.py:319-328 | a file is used exactly when it exists, normalises without error, and has non-empty colours |
| Resolver.LoadMcpTokens | run_pipeline.py:299-330 | the result is the first usable candidate together with its path, and there is none only when no candidate is usable |
| Resolver.FetchRest | run_pipeline.py:271-296 | a result comes from the first endpoint whose payload normalises to non-empty colours, every earlier endpoint having failed or given none, and is tagged `figma-rest-api:` plus that endpoint; there is no result exactly when every endpoint is passed over; a normalisation error escapes from the first endpoint not passed over |
| Resolver.ResolveSource | run_pipeline.py:333-359 | a snapshot read failure aborts, and a result's source is MCP, the snapshot, or, only with a token, a REST endpoint |
| Resolver.McpWins | run_pipeline.py:349-350 | a usable MCP file is chosen regardless of the API: the result is exactly the first usable candidate's document and path under the `figma-mcp-variables` tag |
| Resolver.RestWins | run_pipeline.py:349-355 | without a usable MCP file, with a token, the first REST result is chosen, with the API base as its path |
| Resolver.NoTokenNoFetch | run_pipeline.py:351 | without a token the result does not depend on the API |
| Resolver.SnapshotFallback | run_pipeline.py:356-359 | for any URL and query that parse, when every file and fetch fails the snapshot is used, with its provenance |
| Resolver.SnapshotWhenNoMcpNoRest | run_pipeline.py:349-359 | with no usable MCP file, and either no token or a REST loop that gives nothing, the snapshot is used, with its provenance |
| Resolver.RestErrorAborts | run_pipeline.py:285-296 | with a token and no usable MCP file, an exception while normalising a REST payload aborts the run with that exception, although a snapshot is loaded |
| Resolver.NoFilesNoMcp | run_pipeline.py:318-330 | when no file can be read no MCP candidate is used |
| Resolver.NoAnswersNoRest | run_pipeline.py:285-298 | when the API never answers the REST loop gives nothing |
| TokenBuilder.FirstHex | run_pipeline.py:22-26 | the first six-digit hex value in map order, lowercased, or the fallback when there is none |
| TokenBuilder.FirstHexNonEmpty | run_pipeline.py:32 | the primary-colour fallback is always a `#` colour of at least seven characters |
| TokenBuilder.FamilyOf | run_pipeline.py:34-37 | an empty typography map gives `SF Pro`, and a failure happens exactly when the first typography entry is not a dict |
| TokenBuilder.BuildProposedTokens | run_pipeline.py:29-137 | the build succeeds exactly on accepted inputs, fails only with `AttributeError`, and returns a dict whose only key is `tokens` |
| TokenBuilder.BuildNeverFails | run_pipeline.py:29-37 | a dict whose colours and typography entries are dicts always builds |
| TokenBuilder.OverrideLeaf | run_pipeline.py:69-80 | each colour override leaf holds the colour stored under its key, or its default when the key is absent |
| TokenBuilder.PrimaryLeaf | run_pipeline.py:32 | the 500 step is `Primary` when truthy, else `Action/01Primary` when truthy, else the first six-digit colour |
| TokenBuilder.FamilyLeaf | run_pipeline.py:34-37 | the base family is the first typography entry's `family`, or `SF Pro` |
| TokenBuilder.PresentEmptyWins | run_pipeline.py:70 | an override key present with an empty value keeps the empty value |
| TokenBuilder.PrimaryEmptySkipped | run_pipeline.py:32 | an empty `Primary` is skipped |
| TokenBuilder.EmptyInputDefaults | run_pipeline.py:29-137 | an empty document yields `#007fff`, `SF Pro` and every override's default |
| TokenBuilder.FirstHexExample | run_pipeline.py:22-26 | eight-digit colours are skipped, and the pick is lowercased |
| Refactor.Len | generate_refactor_outputs.py:39 | strings, lists and dicts have a length, and every other value raises |
| Refactor.FixFor | generate_refactor_outputs.py:38-47 | a fix is made exactly for a nine-character `#` string that reads as four bytes, and carries the legacy name and value |
| Refactor.FixesFor | generate_refactor_outputs.py:38-47 | the loop fails exactly when some colour's fix fails; otherwise there is one fix per translucent colour, in map order, each being that colour's fix |
| Refactor.AccessibilityFixes | generate_refactor_outputs.py:37-47 | a non-dict document or `colors` raises `AttributeError`; otherwise there is one fix per translucent colour, in map order, each being that colour's fix |
| Refactor.FixesSucceed | generate_refactor_outputs.py:38-47 | colour maps of strings whose translucent entries are well-formed never fail |
| Refactor.FixOfStrict | generate_refactor_outputs.py:20-47 | the solid colour blends each byte with white by the alpha byte; opaque gives the colour itself and transparent gives white |
| Refactor.OpaquePrefix | generate_refactor_outputs.py:9-18 | the first three bytes of an eight-digit colour, written back, are its six-digit prefix in lowercase |
| Refactor.InvertStep | generate_refactor_outputs.py:62-64 | 50 goes to 900, 500 stays, and every other step `n` goes to `950 - n` |
| Refactor.InvertInvolution | generate_refactor_outputs.py:62-64 | inverting twice returns the step, except 450, which lands on 500 |
| Refactor.Has500 | generate_refactor_outputs.py:59 | on a dict the test is key membership, and scalars raise `TypeError` |
| Refactor.ValueOf | generate_refactor_outputs.py:66 | a dict gives its `value`, a dict without one raises `KeyError`, and a non-dict raises `TypeError` |
| Refactor.DarkStep | generate_refactor_outputs.py:61-76 | a numeric step takes the inverted step's value when the ramp has it, or else its own, and names the inverted step; a non-numeric step passes through |
| Refactor.DarkSteps | generate_refactor_outputs.py:60-76 | the steps keep their keys and order, each being its own dark step |
| Refactor.DarkRole | generate_refactor_outputs.py:57-76 | a failing 500 test propagates; a role without a 500 becomes an empty dict; a non-dict role with a 500 raises; a dict role with a 500 becomes the dict of its dark steps, keeping every step key, and fails exactly when they fail |
| Refactor.DarkRoles | generate_refactor_outputs.py:56-76 | the roles keep their keys and order, each being its dark role |
| Refactor.DarkCategories | generate_refactor_outputs.py:54-76 | the categories keep their keys and order, each holding its dark roles |
| Refactor.DarkModeTokens | generate_refactor_outputs.py:34-79 | a non-dict document, `tokens` or `color` raises `AttributeError`; otherwise the document is exactly `{"color": …}` holding the dark categories of the colour tree, and it fails exactly when they fail |
| Refactor.FlatSyncTokens | generate_refactor_outputs.py:140-150 | the token list is the flattened `tokens` tree, each entry tagged by its name |
| Refactor.FlattenAppend | generate_refactor_outputs.py:130-138 | flattening distributes over the entries of a dict, in order |
| Refactor.FlattenUnder | generate_refactor_outputs.py:130-138 | below a non-empty parent every flat name starts with the parent and a dot |
| Refactor.FlattenSkips | generate_refactor_outputs.py:134-137 | a non-dict value and an empty dict contribute nothing |
| Refactor.TypeTag | generate_refactor_outputs.py:143-144 | the tag is one of `typography`, `color`, `number`, `string`; it is `typography` exactly for a `font` prefix, `color` exactly for a `color` prefix without one, and `number` exactly for a `spacing`, `radius`, `z`, `shadow` or `motion.duration` prefix without either; everything else is `string` |
| Refactor.TypeTagOfPrefix | generate_refactor_outputs.py:143-144 | a name extending a prefix that settles every test has that prefix's tag |
| Pipeline.RampInversion | generate_refactor_outputs.py:56-76 | a ten-step ramp with a 500 swaps 50 and 900, keeps 500, and keeps each other step's own value, since its inverted step does not exist |
| Pipeline.NeutralRoles | generate_refactor_outputs.py:57-59 | each step of a ramp taken as a role lacks a 500 and becomes an empty dict |
| Pipeline.BuilderDarkMode | generate_refactor_outputs.py:53-79 | the dark palette of any built tree is the inverted brand ramp plus ten empty neutral roles |
| Pipeline.BuilderFlat | generate_refactor_outputs.py:130-138 | the built `tokens` tree flattens to its sections' groups, in section order |
| Pipeline.FlatShape | generate_refactor_outputs.py:130-138 | every built tree flattens to the same 61 names in the same order |
| Pipeline.BuilderSyncTokens | generate_refactor_outputs.py:140-150 | the sync list of a built tree is its flat tokens, tagged |
| Pipeline.GroupTags | generate_refactor_outputs.py:143-144 | every token of a built group carries that group's tag: shadow is a number, and the background, text, border, icon and easing groups are strings |
| CodeSync.NestedSet | generate_code_sync_outputs.py:7-10 | an empty path raises; after success the path leads to the value and no other top-level key changes |
| CodeSync.NestedSetFails | generate_code_sync_outputs.py:7-10 | the assignment fails exactly when the path is empty or passes through a non-dict |
| CodeSync.NestedSetKeys | generate_code_sync_outputs.py:7-10 | the key order is kept, and a missing first key is appended |
| CodeSync.NestedSetElsewhere | generate_code_sync_outputs.py:7-10 | any path diverging from the assigned one reads the same as before |
| CodeSync.DarkFlattenAgrees | generate_code_sync_outputs.py:20-30 | below a prefix the dark flattener gives the same names and values as the refactor flattener |
| CodeSync.DarkColorNames | generate_code_sync_outputs.py:20-30 | every flattened dark name starts with `color.` and has a value |
| CodeSync.DarkEntryOf | generate_code_sync_outputs.py:209 | an entry is read exactly from a dict with a string name, and keeps its value when it has one |
| CodeSync.DarkEntries | generate_code_sync_outputs.py:209 | the list is read entry by entry and fails only when some entry does |
| CodeSync.DarkList | generate_code_sync_outputs.py:74-77 | a non-dict raises; a truthy token list is read entry by entry; with a falsy or missing token list and a `color` key, the list is the `color` tree flattened under `color`; with a falsy `tokens` and no `color`, the list is empty exactly for an empty list, string or dict |
| CodeSync.DarkListOfRefactor | generate_code_sync_outputs.py:74-77 | the refactor step's dark palette yields the flattened `color` tree |
| CodeSync.Display | generate_code_sync_outputs.py:248 | a string displays as itself and an integral number as its decimal digits |
| CodeSync.W3cTypeMapped | generate_code_sync_outputs.py:100-101 | a raw type other than `font` goes through the type mapping |
| CodeSync.W3cFontPriority | generate_code_sync_outputs.py:103-109 | for raw type `font`, weight beats family, which beats size |
| CodeSync.KindKept | generate_code_sync_outputs.py:100-101 | each of the four refactor tags is its own W3C type |
| CodeSync.W3cTypeOfTag | generate_code_sync_outputs.py:96-111 | a token tagged by the refactor step keeps its tag as its W3C type |
| CodeSync.SetAllReaches | generate_code_sync_outputs.py:96-111 | after all assignments a path leads to its leaf when no later path diverges from it |
| CodeSync.W3cDocument | generate_code_sync_outputs.py:113-116 | the document carries the schema URL and has exactly the keys `$schema` and `tokens` |
| CodeSync.W3cReachable | generate_code_sync_outputs.py:96-116 | a token's path under `tokens` leads to its `$value` and `$type` leaf unless a later token diverges from it |
| CodeSync.VarNameInverse | generate_code_sync_outputs.py:124 | a name without hyphens is recovered from its CSS variable name |
| CodeSync.Valued | generate_code_sync_outputs.py:132-134 | the dark entries with a value, and only those, are declared |
| CodeSync.ValuedAppend | generate_code_sync_outputs.py:130-142 | the declarations follow the dark list's order and multiplicity: those of a prefix come before those of the rest |
| CodeSync.CssLines | generate_code_sync_outputs.py:122-144 | the root block declares every token in order; when there is a dark list, the media-query and `.dark` header and closing lines sit at fixed positions and both dark blocks declare its valued entries between them |
| CodeSync.TailwindStep | generate_code_sync_outputs.py:156-172 | an unthemed token changes nothing; a themed one fails exactly when `nested_set` in its section fails, and otherwise is reachable there as its variable reference while every other section is unchanged |
| CodeSync.ThemedTokens | generate_code_sync_outputs.py:159-172 | a token is themed exactly when its first segment selects a Tailwind section |
| CodeSync.TailwindDrops | generate_code_sync_outputs.py:156-172 | the theme depends only on the themed tokens |
| CodeSync.DarkValueLast | generate_code_sync_outputs.py:209-218 | the last dark entry with a token's name decides the dark value: that entry's value, or the light value when the entry has none |
| CodeSync.DarkValueAbsent | generate_code_sync_outputs.py:218 | without a dark entry the light value is used |
| CodeSync.Place | generate_code_sync_outputs.py:211-250 | a colour token is dropped exactly when its light or dark value fails to convert, a number token exactly when its `px`-stripped text does not parse, and every other token becomes the STRING variable of its displayed value; a placed variable is in its category's collection under the slashed name and with the collection's type |
| CodeSync.Gather | generate_code_sync_outputs.py:211-250 | every placed variable ends up in its collection, and no more variables than tokens |
| CodeSync.GatherSound | generate_code_sync_outputs.py:211-250 | every variable in a collection was placed there |
| CodeSync.GatherOrder | generate_code_sync_outputs.py:211-250 | each collection is exactly the variables placed there, in token order and as often as they are placed |
| CodeSync.GatherAppend | generate_code_sync_outputs.py:211-250 | the collections of a token list are those of a prefix followed by those of the rest |
| CodeSync.FigmaColorToken | generate_code_sync_outputs.py:215-230 | a strict hex colour without a dark entry has the same record in both modes, and a six-digit one converts back to itself in lowercase |
| CodeSync.FigmaDarkToken | generate_code_sync_outputs.py:215-230 | a strict dark colour supplies the dark mode record |
| CodeSync.FigmaPixelToken | generate_code_sync_outputs.py:231-242 | a number token `<digits>px` becomes a FLOAT of those digits' value |
| CodeSync.NumberNotColor | generate_code_sync_outputs.py:214-231 | the number categories and colour categories are disjoint |

## Left out

- File, environment and network I/O, `argparse`, subprocesses and timestamps are outside the model. Reads and fetches are parameters that give parsed JSON or nothing.
- `parse_qs`: the query of a URL comes already decoded, as a list of key and values pairs.
- IEEE floating point: channels and numbers are exact reals. Python's `round` and `int` are modelled exactly on reals, but rounding errors of binary floats are not.
- Num(real) erases Python's int/float distinction, so `1` and `1.0` are one value.
- CodeSync.Display: a non-integral number displays as its exact decimal expansion cut at seventeen fraction digits, not Python's shortest `repr`, and an integral float prints without `.0`. Lists and dicts follow the `repr` layout only roughly.
- Text.ParseFloat: only optional sign, digits and an optional fraction are accepted. Exponents, `inf`/`nan`, underscores and surrounding whitespace are not.
- Text.IsDigits: only ASCII digits count. Python's `isdigit` also accepts other Unicode digits such as `²`, for which the later `int(step)` raises, while the model passes such a step through unchanged.
- Text.IntBase16Pair: only ASCII hex digits and ASCII whitespace are recognised. Python's `int(_, 16)` also accepts Unicode whitespace and other Unicode decimal digits.
- Normalizer.Named: a truthy numeric or boolean REST variable name is skipped, where Python would store a colour under a non-string key.
- CodeSync.DarkList: a `tokens` entry that is neither a list nor falsy fails when read rather than at the first iteration.
- CodeSync.TailwindStep: the JSON text and indentation of the Tailwind file are not modelled, only the theme dicts it prints.
- CodeSync.PayloadJson: the Figma payload is built as JSON values, but the file's text and indentation are not modelled.
- The W3C, CSS and Figma inputs are typed records (`FlatToken`, `DarkEntry`) with a string name, so a token without a name or with a non-string name is not modelled. A `FlatToken` also always has a value and a string `type` (an empty one standing for a missing type), so a sync token without `value`, where Python raises `KeyError`, or with a non-string `type` is not modelled either.
- The report writers of both pipelines (run_pipeline.py:361-427, run_flow_test.py:140-173) write Markdown and JSON files only.
- The variant and auto-layout fix lists (generate_refactor_outputs.py:82-128) are constants written to files.
- run_flow_test.py duplicates `extract_figma_parts`, `first_hex` and `build_proposed_tokens`; one model serves both.
- generate_token_preview.py, generate.js, confluence_api.py, audit-reports/mcp_pencil_client.py and the generated `tailwind.theme.js` are not part of this model: they render previews, talk to other services or are outputs.

=== FILE: code_sync.dfy ===
/** The code-sync emitters of `generate_code_sync_outputs.py`: the W3C
    design-tokens document, CSS custom properties, the Tailwind theme
    extension and the design tool's variable-sync payload, all computed from
    the flat token list of the refactor stage and the dark-mode list. */
module CodeSync {
  import opened Wrappers
  import opened Dict
  import opened Json
  import opened Text
  import opened ColorCodec
  import opened Refactor

  // ---------------------------------------------------------------------------
  // nested_set

  /** `nested_set(d, keys, v)`: every key but the last is `setdefault(key, {})`,
      which keeps an existing value and appends an empty dict for a missing
      key; the last key is assigned. An empty path has no last key
      (`IndexError`); a non-dict on the way has no `setdefault`
      (`AttributeError`) or, in last position, no item assignment (`TypeError`). */
  function NestedSet(fs: Fields, keys: seq<string>, v: Value): (r: Result<Fields>)
    ensures keys == [] ==> r == Err(IndexError)
    ensures r.Ok? ==> Lookup(Obj(r.value), keys) == Some(v)
    ensures r.Ok? ==> forall k :: k != keys[0] ==> Get(r.value, k) == Get(fs, k)
    decreases |keys|
  {
    if keys == [] then Err(IndexError)
    else if |keys| == 1 then Ok(Put(fs, keys[0], v))
    else
      match GetOr(fs, keys[0], Obj([]))
      case Obj(child) =>
        var child' :- NestedSet(child, keys[1..], v);
        Ok(Put(fs, keys[0], Obj(child')))
      case _ => Err(if |keys| == 2 then TypeError else AttributeError)
  }

  /** Some proper prefix of `keys` already leads to a value that is not a dict. */
  predicate Blocked(fs: Fields, keys: seq<string>) {
    exists i :: 1 <= i < |keys| && Stuck(Lookup(Obj(fs), keys[..i]))
  }

  predicate Stuck(o: Option<Value>) {
    o.Some? && !o.value.Obj?
  }

  /** `nested_set` fails exactly when the path is empty or runs into a non-dict
      before its last key. */
  lemma {:induction false} NestedSetFails(fs: Fields, keys: seq<string>, v: Value)
    ensures NestedSet(fs, keys, v).Err? <==> keys == [] || Blocked(fs, keys)
    decreases |keys|
  {
    if |keys| == 1 {
      assert !Blocked(fs, keys);
    } else if |keys| > 1 {
      assert Lookup(Obj(fs), keys[..1]) == Get(fs, keys[0]) by {
        assert keys[..1][1..] == [];
      }
      match Get(fs, keys[0])
      case None =>
        NestedSetFails([], keys[1..], v);
        MissingStep(fs, keys, v);
      case Some(child) =>
        if child.Obj? {
          NestedSetFails(child.fields, keys[1..], v);
          ChildStep(fs, keys, v, child.fields);
        } else {
          assert Stuck(Lookup(Obj(fs), keys[..1]));
        }
    }
  }

  /** A missing first key: the rest of the path is set in a fresh dict. */
  lemma MissingStep(fs: Fields, keys: seq<string>, v: Value)
    requires |keys| > 1 && Get(fs, keys[0]).None?
    requires NestedSet([], keys[1..], v).Err? <==> Blocked([], keys[1..])
    ensures NestedSet(fs, keys, v).Err? <==> Blocked(fs, keys)
  {
    assert GetOr(fs, keys[0], Obj([])) == Obj([]);
    forall i | 1 <= i < |keys|
      ensures !Stuck(Lookup(Obj(fs), keys[..i]))
    {
      assert keys[..i][0] == keys[0];
    }
    forall i | 1 <= i < |keys[1..]|
      ensures !Stuck(Lookup(Obj([]), keys[1..][..i]))
    {
      assert keys[1..][..i] != [];
    }
  }

  /** A dict under the first key: the path is blocked below it exactly when the
      rest of the path is blocked inside it. */
  lemma ChildStep(fs: Fields, keys: seq<string>, v: Value, child: Fields)
    requires |keys| > 1 && Get(fs, keys[0]) == Some(Obj(child))
    requires NestedSet(child, keys[1..], v).Err? <==> Blocked(child, keys[1..])
    ensures NestedSet(fs, keys, v).Err? <==> Blocked(fs, keys)
  {
    assert GetOr(fs, keys[0], Obj([])) == Obj(child);
    if Blocked(child, keys[1..]) {
      var i :| 1 <= i < |keys[1..]| && Stuck(Lookup(Obj(child), keys[1..][..i]));
      LookupBelow(fs, keys, child, i + 1);
      assert Stuck(Lookup(Obj(fs), keys[..i + 1]));
    }
    if Blocked(fs, keys) {
      var i :| 1 <= i < |keys| && Stuck(Lookup(Obj(fs), keys[..i]));
      if i == 1 {
        LookupFirst(fs, keys);
      } else {
        LookupBelow(fs, keys, child, i);
      }
      assert Stuck(Lookup(Obj(child), keys[1..][..i - 1]));
    }
  }

  /** The first key of a path reads the dict's own entry. */
  lemma LookupFirst(fs: Fields, keys: seq<string>)
    requires keys != []
    ensures Lookup(Obj(fs), keys[..1]) == Get(fs, keys[0])
  {
    assert keys[..1][1..] == [];
  }

  /** A longer prefix of the path reads through the dict under its first key. */
  lemma LookupBelow(fs: Fields, keys: seq<string>, child: Fields, i: nat)
    requires 2 <= i <= |keys| && Get(fs, keys[0]) == Some(Obj(child))
    ensures Lookup(Obj(fs), keys[..i]) == Lookup(Obj(child), keys[1..][..i - 1])
  {
    assert keys[..i][0] == keys[0];
    assert keys[..i][1..] == keys[1..][..i - 1];
  }

  /** The top-level key order is kept; a missing first key is appended. */
  lemma NestedSetKeys(fs: Fields, keys: seq<string>, v: Value)
    requires NestedSet(fs, keys, v).Ok?
    ensures keys[0] in Keys(fs) ==> Keys(NestedSet(fs, keys, v).value) == Keys(fs)
    ensures keys[0] !in Keys(fs) ==> Keys(NestedSet(fs, keys, v).value) == Keys(fs) + [keys[0]]
  {
    if |keys| == 1 {
      PutKeys(fs, keys[0], v);
    } else {
      var child := GetOr(fs, keys[0], Obj([]));
      PutKeys(fs, keys[0], Obj(NestedSet(child.fields, keys[1..], v).value));
    }
  }

  /** Two paths part ways at some position both of them reach. */
  predicate Diverge(p: seq<string>, q: seq<string>) {
    exists j :: 0 <= j < |p| && j < |q| && p[j] != q[j]
  }

  /** Everything whose path parts ways with `keys` is left as it was. */
  lemma {:induction false} NestedSetElsewhere(fs: Fields, keys: seq<string>, v: Value, p: seq<string>)
    requires NestedSet(fs, keys, v).Ok? && Diverge(p, keys)
    ensures Lookup(Obj(NestedSet(fs, keys, v).value), p) == Lookup(Obj(fs), p)
    decreases |keys|
  {
    var r := NestedSet(fs, keys, v).value;
    if p[0] != keys[0] {
      assert Get(r, p[0]) == Get(fs, p[0]);
    } else {
      var j :| 0 <= j < |p| && j < |keys| && p[j] != keys[j];
      assert j > 0 && |keys| > 1;
      var child := GetOr(fs, keys[0], Obj([]));
      assert p[1..][j - 1] != keys[1..][j - 1];
      NestedSetElsewhere(child.fields, keys[1..], v, p[1..]);
      if keys[0] !in Keys(fs) {
        assert Lookup(Obj([]), p[1..]) == None;
      }
    }
  }

  // ---------------------------------------------------------------------------
  // The dark-mode list

  /** One entry of the dark list; entries read from a `tokens` list may lack a value. */
  datatype DarkEntry = DarkEntry(name: string, value: Option<Value>)

  /** `flatten_dark_mode_color` over a dict's entries: a dict with `"value"`
      becomes one entry named `prefix.key`, any other dict is descended into,
      and every other value contributes nothing. */
  function DarkFlatten(fs: Fields, prefix: string): (ds: seq<DarkEntry>)
    decreases fs
  {
    if fs == [] then []
    else
      var k := fs[0].0;
      var v := fs[0].1;
      assert v < fs[0] by { assert fs[0] == (k, v); }
      var name := prefix + "." + k;
      var here := if !v.Obj? then []
                  else match Get(v.fields, "value")
                    case Some(x) => [DarkEntry(name, Some(x))]
                    case None => DarkFlatten(v.fields, name);
      here + DarkFlatten(fs[1..], prefix)
  }

  /** The flat pairs of the refactor flattener as dark entries. */
  function AsDark(flat: Fields): (ds: seq<DarkEntry>)
    ensures |ds| == |flat|
    ensures forall i :: 0 <= i < |flat| ==> ds[i] == DarkEntry(flat[i].0, Some(flat[i].1))
  {
    seq(|flat|, i requires 0 <= i < |flat| => DarkEntry(flat[i].0, Some(flat[i].1)))
  }

  /** The dark-mode flattener is the refactor flattener under a non-empty prefix:
      same entries, same order, every one with a value. */
  lemma {:induction false} DarkFlattenAgrees(fs: Fields, prefix: string)
    requires prefix != ""
    ensures DarkFlatten(fs, prefix) == AsDark(FlattenDict(fs, prefix))
    decreases fs
  {
    if fs != [] {
      var k := fs[0].0;
      var v := fs[0].1;
      assert v < fs[0] by { assert fs[0] == (k, v); }
      var name := prefix + "." + k;
      assert DottedKey(prefix, k) == name;
      DarkFlattenAgrees(fs[1..], prefix);
      if v.Obj? && Get(v.fields, "value").None? {
        DarkFlattenAgrees(v.fields, name);
      }
      var here := if !v.Obj? then []
                  else match Get(v.fields, "value")
                    case Some(x) => [(name, x)]
                    case None => FlattenDict(v.fields, name);
      var dark := if !v.Obj? then []
                  else match Get(v.fields, "value")
                    case Some(x) => [DarkEntry(name, Some(x))]
                    case None => DarkFlatten(v.fields, name);
      assert DarkFlatten(fs, prefix) == dark + DarkFlatten(fs[1..], prefix);
      assert FlattenDict(fs, prefix) == here + FlattenDict(fs[1..], prefix);
      assert dark == AsDark(here);
      AsDarkAppend(here, FlattenDict(fs[1..], prefix));
    }
  }

  lemma AsDarkAppend(a: Fields, b: Fields)
    ensures AsDark(a + b) == AsDark(a) + AsDark(b)
  {
    var l, r := AsDark(a + b), AsDark(a) + AsDark(b);
    assert forall i :: 0 <= i < |l| ==> l[i] == r[i];
  }

  /** Every dark entry of the colour tree is named `color.<path>` and carries a value. */
  lemma DarkColorNames(fs: Fields)
    ensures forall i :: 0 <= i < |DarkFlatten(fs, "color")| ==>
      StartsWith(DarkFlatten(fs, "color")[i].name, "color.") && DarkFlatten(fs, "color")[i].value.Some?
  {
    DarkFlattenAgrees(fs, "color");
    FlattenUnder(fs, "color");
  }

  /** One item of a dark file's `tokens` list, as `dt["name"]` and `"value" in dt` read it. */
  function DarkEntryOf(item: Value): (r: Result<DarkEntry>)
    ensures r.Ok? <==> item.Obj? && Get(item.fields, "name").Some? && Get(item.fields, "name").value.Str?
    ensures r.Ok? ==> r.value.value == Get(item.fields, "value")
  {
    match item
    case Obj(f) =>
      var name := Get(f, "name");
      if name.None? then Err(KeyError)
      else if name.value.Str? then Ok(DarkEntry(name.value.s, Get(f, "value")))
      else Err(AttributeError)
    case _ => Err(TypeError)
  }

  function DarkEntries(items: seq<Value>): (r: Result<seq<DarkEntry>>)
    ensures r.Ok? ==> |r.value| == |items| && forall i :: 0 <= i < |items| ==> DarkEntryOf(items[i]) == Ok(r.value[i])
    ensures r.Err? ==> exists i :: 0 <= i < |items| && DarkEntryOf(items[i]).Err?
  {
    if items == [] then Ok([])
    else
      var e :- DarkEntryOf(items[0]);
      var rest :- DarkEntries(items[1..]);
      Ok([e] + rest)
  }

  /** The dark list: the dark file's `tokens` when truthy, else the flattened
      `color` tree when the file has a `color` key, else the falsy `tokens`
      value itself (an empty string or dict iterates as nothing; `None`, a
      boolean or a number cannot be iterated). */
  function DarkList(dark: Value): (r: Result<seq<DarkEntry>>)
    ensures !dark.Obj? ==> r == Err(AttributeError)
    ensures dark.Obj? && !Truthy(GetOr(dark.fields, "tokens", Arr([]))) && "color" in Keys(dark.fields) ==>
      var color := GetOr(dark.fields, "color", Obj([]));
      r == Ok(if color.Obj? then AsDark(FlattenDict(color.fields, "color")) else [])
    ensures dark.Obj? ==>
      var tokens := GetOr(dark.fields, "tokens", Arr([]));
      && (tokens.Arr? && Truthy(tokens) ==> r == DarkEntries(tokens.items))
      && (!Truthy(tokens) && "color" !in Keys(dark.fields) ==>
            (r == Ok([]) <==> tokens == Arr([]) || tokens == Str("") || tokens == Obj([])))
  {
    if !dark.Obj? then Err(AttributeError)
    else
      var tokens := GetOr(dark.fields, "tokens", Arr([]));
      if !Truthy(tokens) && "color" in Keys(dark.fields) then
        var color := GetOr(dark.fields, "color", Obj([]));
        DarkFlattenAgrees(if color.Obj? then color.fields else [], "color");
        Ok(if color.Obj? then DarkFlatten(color.fields, "color") else [])
      else
        match tokens
        case Arr(items) => DarkEntries(items)
        case _ => if tokens == Str("") || tokens == Obj([]) then Ok([]) else Err(TypeError)
  }

  /** The dark file the refactor stage writes has only a `color` key, so its
      dark list is the flattened colour tree. */
  lemma DarkListOfRefactor(proposedData: Value)
    requires DarkModeTokens(proposedData).Ok?
    ensures var dark := DarkModeTokens(proposedData).value;
      DarkList(dark) == Ok(AsDark(FlattenDict(dark.fields[0].1.fields, "color")))
  {
    var dark := DarkModeTokens(proposedData).value;
    assert |dark.fields| == 1 && dark.fields[0].0 == "color";
    assert Get(dark.fields, "color") == Some(dark.fields[0].1);
  }

  // ---------------------------------------------------------------------------
  // str() of a JSON value

  /** `str(v)` as an f-string or `str()` renders it: strings verbatim, Python's
      spellings of `None` and the booleans, numbers in decimal, and containers
      in Python's `repr` layout. */
  function Display(v: Value): (s: string)
    ensures v.Str? ==> s == v.s
    ensures v.Num? && v.n == v.n.Floor as real ==> s == IntToString(v.n.Floor)
    decreases v, 1
  {
    match v
    case Null => "None"
    case Bool(b) => if b then "True" else "False"
    case Num(n) => NumText(n)
    case Str(s) => s
    case Arr(items) => "[" + JoinWith(seq(|items|, i requires 0 <= i < |items| => Repr(items[i])), ", ") + "]"
    case Obj(fs) => "{" + JoinWith(seq(|fs|, i requires 0 <= i < |fs| => ReprPair(v, i)), ", ") + "}"
  }

  function ReprPair(v: Value, i: nat): string
    requires v.Obj? && i < |v.fields|
    decreases v, 0
  {
    var f := v.fields[i];
    assert f.1 < f < v by { assert f == (f.0, f.1); }
    "'" + f.0 + "': " + Repr(f.1)
  }

  /** `repr(v)` inside a container: strings are quoted. */
  function Repr(v: Value): string
    decreases v, 2
  {
    if v.Str? then "'" + v.s + "'" else Display(v)
  }

  /** A number in decimal: an integral value without a point, any other value
      with up to seventeen fraction digits. */
  function NumText(n: real): string {
    if n == n.Floor as real then IntToString(n.Floor)
    else if n < 0.0 then "-" + PositiveText(-n)
    else PositiveText(n)
  }

  function PositiveText(n: real): string
    requires n >= 0.0
  {
    var whole := n.Floor;
    var digits := FractionDigits(n - whole as real, 17);
    IntToString(whole) + (if digits == "" then "" else "." + digits)
  }

  function FractionDigits(x: real, fuel: nat): string
    requires 0.0 <= x < 1.0
    decreases fuel
  {
    if x == 0.0 || fuel == 0 then ""
    else
      var d := (x * 10.0).Floor;
      [HexDigitChar(d)] + FractionDigits(x * 10.0 - d as real, fuel - 1)
  }

  /** `sep.join(parts)` for a string separator. */
  function JoinWith(parts: seq<string>, sep: string): string {
    if parts == [] then ""
    else if |parts| == 1 then parts[0]
    else parts[0] + sep + JoinWith(parts[1..], sep)
  }

  // ---------------------------------------------------------------------------
  // W3C design-tokens document

  const SchemaUrl := "https://design-tokens.github.io/community-group/format/"

  /** The W3C type of each raw type the emitter knows; any other raw type is kept. */
  const TypeMapping: seq<(string, string)> := [
    ("color", "color"), ("spacing", "dimension"), ("radius", "dimension"), ("size", "dimension"),
    ("fontFamily", "fontFamily"), ("fontWeight", "fontWeight"), ("lineHeight", "number"),
    ("letterSpacing", "dimension"), ("shadow", "shadow"), ("duration", "duration"),
    ("easing", "cubicBezier"), ("z", "number")]

  /** The raw type: the token's `type` when non-empty, else its first name segment. */
  function RawType(kind: string, parts: seq<string>): string
    requires parts != []
  {
    if kind != "" then kind else parts[0]
  }

  /** `type_mapping.get(raw, raw)`. */
  function Mapped(raw: string): string {
    GetOr(TypeMapping, raw, raw)
  }

  /** `$type` of a token: the mapped raw type, overridden for raw type `font` by
      the three segment checks in turn (`size`, then `family`, then `weight`). */
  function W3cType(kind: string, parts: seq<string>): string
    requires parts != []
  {
    var raw := RawType(kind, parts);
    var mapped := Mapped(raw);
    if raw != "font" then mapped
    else
      var afterSize := if "size" in parts then "dimension" else mapped;
      var afterFamily := if "family" in parts then "fontFamily" else afterSize;
      if "weight" in parts then "fontWeight" else afterFamily
  }

  /** Every raw type other than `font` is just mapped. */
  lemma W3cTypeMapped(kind: string, parts: seq<string>)
    requires parts != [] && RawType(kind, parts) != "font"
    ensures W3cType(kind, parts) == Mapped(RawType(kind, parts))
  {
  }

  /** For raw type `font` the last override that fires wins: `weight` beats
      `family`, which beats `size`; with none of them the type stays `font`. */
  lemma W3cFontPriority(kind: string, parts: seq<string>)
    requires parts != [] && RawType(kind, parts) == "font"
    ensures W3cType(kind, parts) ==
      if "weight" in parts then "fontWeight"
      else if "family" in parts then "fontFamily"
      else if "size" in parts then "dimension"
      else "font"
  {
    assert Mapped("font") == "font" by {
      MissingKey(TypeMapping, "font", 1);
    }
  }

  /** A raw type that is neither empty nor `font` and that the mapping keeps
      is the W3C type as it stands. */
  lemma KindKept(kind: string, parts: seq<string>)
    requires parts != [] && kind in ["typography", "color", "number", "string"]
    ensures W3cType(kind, parts) == kind
  {
    assert kind != "" && kind != "font" by {
      assert |kind| >= 5 && kind[0] != 'f';
    }
    assert RawType(kind, parts) == kind;
    W3cTypeMapped(kind, parts);
    MappedTag(kind);
  }

  /** A key that differs from every key of `m` in length or in its `j`-th character is missing from `m`. */
  lemma {:induction false} MissingKey(m: seq<(string, string)>, k: string, j: nat)
    requires j < |k|
    requires forall i :: 0 <= i < |m| ==> |m[i].0| != |k| || (j < |m[i].0| && m[i].0[j] != k[j])
    ensures Get(m, k) == None
  {
    if m != [] {
      assert m[0].0 != k by {
        if |m[0].0| == |k| {
          assert m[0].0[j] != k[j];
        }
      }
      MissingKey(m[1..], k, j);
    }
  }

  /** The tags the refactor stage gives are mapped to themselves. */
  lemma MappedTag(tag: string)
    requires tag in ["typography", "color", "number", "string"]
    ensures Mapped(tag) == tag
  {
    if tag == "color" {
      assert TypeMapping[0] == ("color", "color");
    } else if tag == "typography" {
      MissingKey(TypeMapping, "typography", 0);
    } else if tag == "number" {
      MissingKey(TypeMapping, "number", 0);
    } else {
      MissingKey(TypeMapping, "string", 1);
    }
  }

  lemma TagKinds(name: string)
    ensures TypeTag(name) in ["typography", "color", "number", "string"]
  {
  }

  /** Tokens tagged by the refactor stage keep their tag as W3C type: the tags
      are never empty and never `font`, so the font overrides cannot fire and a
      `font.size` token stays `typography` rather than becoming `dimension`. */
  lemma W3cTypeOfTag(name: string)
    ensures W3cType(TypeTag(name), Split(name, '.')) == TypeTag(name)
  {
    TagKinds(name);
    KindKept(TypeTag(name), Split(name, '.'));
  }

  /** The leaf a token becomes in the W3C document. */
  function W3cLeaf(t: FlatToken): Value {
    Obj([("$value", t.value), ("$type", Str(W3cType(t.kind, Split(t.name, '.'))))])
  }

  /** The name segments a token is stored under. */
  function Path(t: FlatToken): (p: seq<string>)
    ensures p != []
  {
    Split(t.name, '.')
  }

  /** `nested_set` of each value at its path, in order. */
  function SetAll(acc: Fields, paths: seq<seq<string>>, leaves: seq<Value>): Result<Fields>
    requires |paths| == |leaves|
    decreases |paths|
  {
    if paths == [] then Ok(acc)
    else
      var acc' :- NestedSet(acc, paths[0], leaves[0]);
      SetAll(acc', paths[1..], leaves[1..])
  }

  /** Paths that part ways with every written path are left alone. */
  lemma {:induction false} SetAllKeeps(acc: Fields, paths: seq<seq<string>>, leaves: seq<Value>, p: seq<string>)
    requires |paths| == |leaves| && SetAll(acc, paths, leaves).Ok?
    requires forall j :: 0 <= j < |paths| ==> Diverge(p, paths[j])
    ensures Lookup(Obj(SetAll(acc, paths, leaves).value), p) == Lookup(Obj(acc), p)
    decreases |paths|
  {
    if paths != [] {
      var acc' := NestedSet(acc, paths[0], leaves[0]).value;
      NestedSetElsewhere(acc, paths[0], leaves[0], p);
      SetAllKeeps(acc', paths[1..], leaves[1..], p);
    }
  }

  /** A value is found at its path at the end unless a later path runs into
      it: every later path that parts ways with it leaves it in place. */
  lemma {:induction false} SetAllReaches(acc: Fields, paths: seq<seq<string>>, leaves: seq<Value>, i: nat)
    requires |paths| == |leaves| && SetAll(acc, paths, leaves).Ok? && i < |paths|
    requires forall j :: i < j < |paths| ==> Diverge(paths[i], paths[j])
    ensures Lookup(Obj(SetAll(acc, paths, leaves).value), paths[i]) == Some(leaves[i])
    decreases |paths|
  {
    var acc' := NestedSet(acc, paths[0], leaves[0]).value;
    if i == 0 {
      SetAllKeeps(acc', paths[1..], leaves[1..], paths[0]);
    } else {
      SetAllReaches(acc', paths[1..], leaves[1..], i - 1);
    }
  }

  function Paths(ts: seq<FlatToken>): (ps: seq<seq<string>>)
    ensures |ps| == |ts| && forall i :: 0 <= i < |ts| ==> ps[i] == Path(ts[i])
  {
    seq(|ts|, i requires 0 <= i < |ts| => Path(ts[i]))
  }

  function W3cLeaves(ts: seq<FlatToken>): (ls: seq<Value>)
    ensures |ls| == |ts| && forall i :: 0 <= i < |ts| ==> ls[i] == W3cLeaf(ts[i])
  {
    seq(|ts|, i requires 0 <= i < |ts| => W3cLeaf(ts[i]))
  }

  /** `tokens.w3c.json`: the schema link and the token tree. */
  function W3cDocument(ts: seq<FlatToken>): (r: Result<Value>)
    ensures r.Ok? ==> Lookup(r.value, ["$schema"]) == Some(Str(SchemaUrl))
    ensures r.Ok? ==> Keys(r.value.fields) == ["$schema", "tokens"]
  {
    var tree :- SetAll([], Paths(ts), W3cLeaves(ts));
    var fs := [("$schema", Str(SchemaUrl)), ("tokens", Obj(tree))];
    assert Get(fs, "$schema") == Some(Str(SchemaUrl));
    assert ["$schema"][1..] == [];
    Ok(Obj(fs))
  }

  /** The document keeps the token tree under `tokens`. */
  lemma W3cDocumentTree(ts: seq<FlatToken>, p: seq<string>)
    requires W3cDocument(ts).Ok?
    ensures Lookup(W3cDocument(ts).value, ["tokens"] + p) == Lookup(Obj(SetAll([], Paths(ts), W3cLeaves(ts)).value), p)
  {
    var doc := W3cDocument(ts).value;
    assert Get(doc.fields, "tokens") == Some(Obj(SetAll([], Paths(ts), W3cLeaves(ts)).value));
    assert (["tokens"] + p)[1..] == p;
  }

  /** Each token is found as `{"$value", "$type"}` under `tokens` at its dotted
      path, unless a later token's path runs into it. */
  lemma W3cReachable(ts: seq<FlatToken>, i: nat)
    requires W3cDocument(ts).Ok? && i < |ts|
    requires forall j :: i < j < |ts| ==> Diverge(Path(ts[i]), Path(ts[j]))
    ensures Lookup(W3cDocument(ts).value, ["tokens"] + Path(ts[i])) == Some(W3cLeaf(ts[i]))
  {
    var paths, leaves := Paths(ts), W3cLeaves(ts);
    assert forall j :: i < j < |paths| ==> Diverge(paths[i], paths[j]);
    SetAllReaches([], paths, leaves, i);
    W3cDocumentTree(ts, paths[i]);
  }

  // ---------------------------------------------------------------------------
  // CSS custom properties

  /** `--` and the dotted name with every `.` turned into `-`. */
  function VarName(name: string): string {
    "--" + ReplaceChar(name, '.', '-')
  }

  /** A name without `-` is recovered from its custom-property name. */
  lemma VarNameInverse(name: string)
    requires '-' !in name
    ensures ReplaceChar(VarName(name)[2..], '-', '.') == name
  {
    var r := ReplaceChar(VarName(name)[2..], '-', '.');
    assert |r| == |name|;
    forall i | 0 <= i < |name|
      ensures r[i] == name[i]
    {
      assert VarName(name)[2..][i] == ReplaceChar(name, '.', '-')[i];
    }
  }

  /** A declaration line: `<indent><var>: <str(value)>;`. */
  function Declaration(indent: string, name: string, value: Value): string {
    indent + VarName(name) + ": " + Display(value) + ";"
  }

  /** The dark entries that carry a value, with their values. */
  function Valued(ds: seq<DarkEntry>): (vs: Fields)
    ensures |vs| <= |ds|
    ensures forall i :: 0 <= i < |ds| && ds[i].value.Some? ==> (ds[i].name, ds[i].value.value) in vs
    ensures forall p :: p in vs ==> DarkEntry(p.0, Some(p.1)) in ds
  {
    if ds == [] then []
    else
      var rest := Valued(ds[1..]);
      assert forall e :: e in ds[1..] ==> e in ds;
      assert forall i :: 0 < i < |ds| ==> ds[i] == ds[1..][i - 1];
      if ds[0].value.Some? then
        var vs := [(ds[0].name, ds[0].value.value)] + rest;
        assert forall p :: p in vs ==> p == vs[0] || p in rest;
        vs
      else rest
  }

  /** Declaration order follows the dark list: the entries of `a` come first,
      then those of `b`, each as often as it occurs. */
  lemma ValuedAppend(a: seq<DarkEntry>, b: seq<DarkEntry>)
    ensures Valued(a + b) == Valued(a) + Valued(b)
  {
    var part := (e: DarkEntry) => if e.value.Some? then [(e.name, e.value.value)] else [];
    forall ds | ds != [] ensures Valued(ds) == part(ds[0]) + Valued(ds[1..]) {
      ValuedHead(ds);
    }
    ConsAppend(Valued, part, a, b);
  }

  /** The first entry's declaration, if it has a value, comes first. */
  lemma ValuedHead(ds: seq<DarkEntry>)
    requires ds != []
    ensures Valued(ds) == (if ds[0].value.Some? then [(ds[0].name, ds[0].value.value)] else []) + Valued(ds[1..])
  {
  }

  /** The declarations of one dark block: one per dark entry with a value, in order. */
  function DarkDeclarations(ds: seq<DarkEntry>, indent: string): (ls: seq<string>)
    ensures |ls| == |Valued(ds)|
    ensures forall i :: 0 <= i < |ls| ==> ls[i] == Declaration(indent, Valued(ds)[i].0, Valued(ds)[i].1)
  {
    var vs := Valued(ds);
    seq(|vs|, i requires 0 <= i < |vs| => Declaration(indent, vs[i].0, vs[i].1))
  }

  /** The lines of `variables.css`: the `:root` block, then the media-query and
      `.dark` blocks only when the dark list is non-empty. */
  function CssLines(ts: seq<FlatToken>, ds: seq<DarkEntry>): (ls: seq<string>)
    ensures |ls| == |ts| + 2 + (if ds == [] then 0 else 6 + 2 * |Valued(ds)|)
    ensures ls[0] == ":root {" && ls[|ts| + 1] == "}\n"
    ensures forall i :: 0 <= i < |ts| ==> ls[i + 1] == Declaration("  ", ts[i].name, ts[i].value)
    ensures ds != [] ==> var n, k := |ts| + 2, |Valued(ds)|;
      && ls[n] == "@media (prefers-color-scheme: dark) {" && ls[n + 1] == "  :root {"
      && ls[n + 2 + k] == "  }" && ls[n + 3 + k] == "}\n"
      && ls[n + 4 + k] == ".dark {" && ls[n + 5 + 2 * k] == "}\n"
    ensures ds != [] ==> forall i :: 0 <= i < |Valued(ds)| ==>
      ls[|ts| + 4 + i] == Declaration("    ", Valued(ds)[i].0, Valued(ds)[i].1) &&
      ls[|ts| + 7 + |Valued(ds)| + i] == Declaration("  ", Valued(ds)[i].0, Valued(ds)[i].1)
  {
    var root := RootBlock(ts);
    if ds == [] then root
    else
      var dark := DarkBlocks(ds);
      var ls := root + dark;
      assert ls[..|root|] == root && ls[|root|..] == dark;
      ls
  }

  /** The `:root` block of the light values. */
  function RootBlock(ts: seq<FlatToken>): (ls: seq<string>)
    ensures |ls| == |ts| + 2
    ensures ls[0] == ":root {" && ls[|ts| + 1] == "}\n"
    ensures forall i :: 0 <= i < |ts| ==> ls[i + 1] == Declaration("  ", ts[i].name, ts[i].value)
  {
    [":root {"] + RootDeclarations(ts) + ["}\n"]
  }

  /** The media-query block and the `.dark` block of a non-empty dark list. */
  function DarkBlocks(ds: seq<DarkEntry>): (ls: seq<string>)
    ensures |ls| == 6 + 2 * |Valued(ds)|
    ensures var k := |Valued(ds)|;
      && ls[0] == "@media (prefers-color-scheme: dark) {" && ls[1] == "  :root {"
      && ls[2 + k] == "  }" && ls[3 + k] == "}\n" && ls[4 + k] == ".dark {" && ls[5 + 2 * k] == "}\n"
    ensures forall i :: 0 <= i < |Valued(ds)| ==>
      ls[2 + i] == Declaration("    ", Valued(ds)[i].0, Valued(ds)[i].1) &&
      ls[5 + |Valued(ds)| + i] == Declaration("  ", Valued(ds)[i].0, Valued(ds)[i].1)
  {
    var media := MediaBlock(ds);
    var dark := DarkClassBlock(ds);
    var ls := media + dark;
    assert forall i :: 0 <= i < |media| ==> ls[i] == media[i];
    assert forall i :: 0 <= i < |dark| ==> ls[|media| + i] == dark[i];
    ls
  }

  /** `@media (prefers-color-scheme: dark)` around a nested `:root` block. */
  function MediaBlock(ds: seq<DarkEntry>): (ls: seq<string>)
    ensures |ls| == 4 + |Valued(ds)|
    ensures ls[0] == "@media (prefers-color-scheme: dark) {" && ls[1] == "  :root {"
    ensures ls[2 + |Valued(ds)|] == "  }" && ls[3 + |Valued(ds)|] == "}\n"
    ensures forall i :: 0 <= i < |Valued(ds)| ==> ls[2 + i] == Declaration("    ", Valued(ds)[i].0, Valued(ds)[i].1)
  {
    var decls := DarkDeclarations(ds, "    ");
    var ls := ["@media (prefers-color-scheme: dark) {", "  :root {"] + decls + ["  }", "}\n"];
    assert forall i :: 0 <= i < |decls| ==> ls[2 + i] == decls[i];
    ls
  }

  /** The `.dark` class block. */
  function DarkClassBlock(ds: seq<DarkEntry>): (ls: seq<string>)
    ensures |ls| == 2 + |Valued(ds)|
    ensures ls[0] == ".dark {" && ls[1 + |Valued(ds)|] == "}\n"
    ensures forall i :: 0 <= i < |Valued(ds)| ==> ls[1 + i] == Declaration("  ", Valued(ds)[i].0, Valued(ds)[i].1)
  {
    var decls := DarkDeclarations(ds, "  ");
    var ls := [".dark {"] + decls + ["}\n"];
    assert forall i :: 0 <= i < |decls| ==> ls[1 + i] == decls[i];
    ls
  }

  function RootDeclarations(ts: seq<FlatToken>): (ls: seq<string>)
    ensures |ls| == |ts|
    ensures forall i :: 0 <= i < |ts| ==> ls[i] == Declaration("  ", ts[i].name, ts[i].value)
  {
    seq(|ts|, i requires 0 <= i < |ts| => Declaration("  ", ts[i].name, ts[i].value))
  }

  /** The text of `variables.css`: the lines joined by newlines. */
  function CssText(ts: seq<FlatToken>, ds: seq<DarkEntry>): string {
    Join(CssLines(ts, ds), '\n')
  }

  // ---------------------------------------------------------------------------
  // Tailwind theme extension

  /** The nested dicts the theme collects: colours, spacing, radii, shadows and fonts. */
  datatype Theme = Theme(colors: Fields, spacing: Fields, radius: Fields, shadows: Fields, fonts: Fields)

  /** `var(--<dashed name>)`. */
  function VarRef(name: string): Value {
    Str("var(" + VarName(name) + ")")
  }

  /** The tokens the theme takes up (or fails on): colour, spacing, radius and
      shadow tokens, and font tokens whose second segment is `family` or `size`
      or that have no second segment at all. */
  predicate Themed(parts: seq<string>)
    requires parts != []
  {
    parts[0] in ["color", "spacing", "radius", "shadow"] ||
    (parts[0] == "font" && (|parts| < 2 || parts[1] in ["family", "size"]))
  }

  /** The dict of the theme a first segment goes to. */
  function Section(th: Theme, category: string): Fields {
    if category == "color" then th.colors
    else if category == "spacing" then th.spacing
    else if category == "radius" then th.radius
    else if category == "shadow" then th.shadows
    else th.fonts
  }

  /** The theme with the dict of one category replaced. */
  function WithSection(th: Theme, category: string, d: Fields): (r: Theme)
    requires category in ["color", "spacing", "radius", "shadow", "font"]
    ensures Section(r, category) == d
    ensures forall c :: c in ["color", "spacing", "radius", "shadow", "font"] && c != category ==>
      Section(r, c) == Section(th, c)
  {
    if category == "color" then th.(colors := d)
    else if category == "spacing" then th.(spacing := d)
    else if category == "radius" then th.(radius := d)
    else if category == "shadow" then th.(shadows := d)
    else th.(fonts := d)
  }

  /** One token of the theme loop: `nested_set` of its reference under the
      rest of its name in the dict of its first segment; `font.family.*` and
      `font.size.*` go under `family` and `size` of the font dict. A name
      without a second segment has nothing to set (`IndexError`), and any
      other token leaves the theme as it is. */
  function TailwindStep(th: Theme, t: FlatToken): (r: Result<Theme>)
    ensures !Themed(Path(t)) ==> r == Ok(th)
    ensures Themed(Path(t)) ==> (r.Err? <==> NestedSet(Section(th, Path(t)[0]), Path(t)[1..], VarRef(t.name)).Err?)
    ensures r.Ok? && Themed(Path(t)) ==>
      Lookup(Obj(Section(r.value, Path(t)[0])), Path(t)[1..]) == Some(VarRef(t.name))
    ensures r.Ok? ==> forall c :: c in ["color", "spacing", "radius", "shadow", "font"] && c != Path(t)[0] ==>
      Section(r.value, c) == Section(th, c)
  {
    var parts := Path(t);
    if !Themed(parts) then Ok(th)
    else
      var d :- NestedSet(Section(th, parts[0]), parts[1..], VarRef(t.name));
      Ok(WithSection(th, parts[0], d))
  }

  /** The theme loop over the token list, from a given theme. */
  function TailwindFrom(th: Theme, ts: seq<FlatToken>): Result<Theme>
    decreases |ts|
  {
    if ts == [] then Ok(th)
    else
      var th' :- TailwindStep(th, ts[0]);
      TailwindFrom(th', ts[1..])
  }

  function TailwindTheme(ts: seq<FlatToken>): Result<Theme> {
    TailwindFrom(Theme([], [], [], [], []), ts)
  }

  /** The tokens the theme takes up, in order. */
  function ThemedTokens(ts: seq<FlatToken>): (ks: seq<FlatToken>)
    ensures forall t :: t in ks <==> t in ts && Themed(Path(t))
  {
    if ts == [] then []
    else
      var rest := ThemedTokens(ts[1..]);
      assert ts == [ts[0]] + ts[1..];
      if Themed(Path(ts[0])) then [ts[0]] + rest else rest
  }

  /** Everything outside the five groups is dropped: background, text, border,
      z-index, motion and icon tokens, and `font.weight`, change nothing. */
  lemma {:induction false} TailwindDrops(th: Theme, ts: seq<FlatToken>)
    ensures TailwindFrom(th, ts) == TailwindFrom(th, ThemedTokens(ts))
    decreases |ts|
  {
    if ts != [] {
      if Themed(Path(ts[0])) {
        match TailwindStep(th, ts[0])
        case Ok(th') => TailwindDrops(th', ts[1..]);
        case Err(_) =>
      } else {
        TailwindDrops(th, ts[1..]);
      }
    }
  }

  /** The object written into `theme.extend`. */
  function TailwindJson(th: Theme): Value {
    Obj([("colors", Obj(th.colors)), ("spacing", Obj(th.spacing)), ("borderRadius", Obj(th.radius)),
         ("boxShadow", Obj(th.shadows)), ("fontFamily", GetOr(th.fonts, "family", Obj([]))),
         ("fontSize", GetOr(th.fonts, "size", Obj([])))])
  }

  // ---------------------------------------------------------------------------
  // Design-tool variable-sync payload

  datatype VarType = COLOR | FLOAT | STRING

  datatype Collection = Colors | Numbers | Strings

  /** A variable of the payload: slash-separated name, type and per-mode values. */
  datatype FigmaVariable = FigmaVariable(name: string, varType: VarType, valuesByMode: Fields)

  datatype Payload = Payload(colors: seq<FigmaVariable>, numbers: seq<FigmaVariable>, strings: seq<FigmaVariable>)

  const ColorCategories := ["color", "background", "border", "text", "icon"]
  const NumberCategories := ["spacing", "radius", "z"]

  /** The collection a first name segment sends a token to. */
  function CollectionOf(category: string): Collection {
    if category in ColorCategories then Colors
    else if category in NumberCategories then Numbers
    else Strings
  }

  function Members(p: Payload, c: Collection): seq<FigmaVariable> {
    match c
    case Colors => p.colors
    case Numbers => p.numbers
    case Strings => p.strings
  }

  /** The name with every `.` turned into `/`. */
  function FigmaName(name: string): string {
    ReplaceChar(name, '.', '/')
  }

  /** `hex_to_figma_rgba(v)`: only a string has `lstrip`. */
  function ColorOf(v: Value): Result<Rgba> {
    if v.Str? then HexToFigmaRgba(v.s) else Err(AttributeError)
  }

  /** `dark_mode_map.get(name, {}).get("value", light)`: the map keeps the last
      dark entry of each name, and that entry's value, if it has one, wins. */
  function DarkValue(ds: seq<DarkEntry>, name: string, light: Value): Value
    decreases |ds|
  {
    if ds == [] then light
    else if ds[|ds| - 1].name == name then ds[|ds| - 1].value.GetOr(light)
    else DarkValue(ds[..|ds| - 1], name, light)
  }

  /** Without a dark entry of the name the light value is used for dark mode too. */
  lemma {:induction false} DarkValueAbsent(ds: seq<DarkEntry>, name: string, light: Value)
    requires forall i :: 0 <= i < |ds| ==> ds[i].name != name
    ensures DarkValue(ds, name, light) == light
    decreases |ds|
  {
    if ds != [] {
      DarkValueAbsent(ds[..|ds| - 1], name, light);
    }
  }

  /** The last dark entry of the name decides: its value, or the light value
      when it has none. */
  lemma {:induction false} DarkValueLast(ds: seq<DarkEntry>, name: string, light: Value, i: nat)
    requires i < |ds| && ds[i].name == name
    requires forall j :: i < j < |ds| ==> ds[j].name != name
    ensures DarkValue(ds, name, light) == ds[i].value.GetOr(light)
    decreases |ds|
  {
    if i < |ds| - 1 {
      DarkValueLast(ds[..|ds| - 1], name, light, i);
    }
  }

  /** Where one token goes: a colour-like token becomes `COLOR` with its light
      and dark channel records, and is dropped when either fails to convert; a
      spacing, radius or z-index token becomes `FLOAT` after removing `px`, and
      is dropped when that does not parse; every other token becomes `STRING`. */
  function Place(t: FlatToken, ds: seq<DarkEntry>): (r: Option<(Collection, FigmaVariable)>)
    ensures r.None? ==> CollectionOf(Path(t)[0]) != Strings
    ensures Path(t)[0] in ColorCategories ==>
      (r.None? <==> ColorOf(t.value).Err? || ColorOf(DarkValue(ds, t.name, t.value)).Err?)
    ensures Path(t)[0] !in ColorCategories && Path(t)[0] in NumberCategories ==>
      (r.None? <==> ParseFloat(RemovePx(Display(t.value))).None?)
    ensures CollectionOf(Path(t)[0]) == Strings ==>
      r == Some((Strings, FigmaVariable(FigmaName(t.name), STRING, [("default_mode", Str(Display(t.value)))])))
    ensures r.Some? ==> r.value.0 == CollectionOf(Path(t)[0]) && r.value.1.name == FigmaName(t.name)
    ensures r.Some? ==> r.value.1.varType == (match r.value.0 case Colors => COLOR case Numbers => FLOAT case Strings => STRING)
  {
    var category := Path(t)[0];
    var name := FigmaName(t.name);
    if category in ColorCategories then
      var light := ColorOf(t.value);
      var dark := ColorOf(DarkValue(ds, t.name, t.value));
      if light.Ok? && dark.Ok? then
        Some((Colors, FigmaVariable(name, COLOR, [("light_mode_id", light.value.ToJson()), ("dark_mode_id", dark.value.ToJson())])))
      else None
    else if category in NumberCategories then
      match ParseFloat(RemovePx(Display(t.value)))
      case Some(x) => Some((Numbers, FigmaVariable(name, FLOAT, [("default_mode", Num(x))])))
      case None => None
    else Some((Strings, FigmaVariable(name, STRING, [("default_mode", Str(Display(t.value)))])))
  }

  /** Each token's placement, in token order. */
  function Placements(ts: seq<FlatToken>, ds: seq<DarkEntry>): (ps: seq<Option<(Collection, FigmaVariable)>>)
    ensures |ps| == |ts| && forall i :: 0 <= i < |ts| ==> ps[i] == Place(ts[i], ds)
  {
    seq(|ts|, i requires 0 <= i < |ts| => Place(ts[i], ds))
  }

  /** The appends of the token loop: each placed variable is appended to its
      collection, and every variable of a collection was placed there by some
      token. */
  function Gather(ps: seq<Option<(Collection, FigmaVariable)>>): (p: Payload)
    ensures |p.colors| + |p.numbers| + |p.strings| <= |ps|
    ensures forall i :: 0 <= i < |ps| && ps[i].Some? ==> ps[i].value.1 in Members(p, ps[i].value.0)
    decreases |ps|
  {
    if ps == [] then Payload([], [], [])
    else
      var rest := Gather(ps[1..]);
      if ps[0].None? then rest
      else
        var v := ps[0].value.1;
        match ps[0].value.0
        case Colors => rest.(colors := [v] + rest.colors)
        case Numbers => rest.(numbers := [v] + rest.numbers)
        case Strings => rest.(strings := [v] + rest.strings)
  }

  /** The variables placed in collection `c`, in placement order. */
  function PlacedIn(ps: seq<Option<(Collection, FigmaVariable)>>, c: Collection): seq<FigmaVariable>
    decreases |ps|
  {
    if ps == [] then []
    else (if ps[0].Some? && ps[0].value.0 == c then [ps[0].value.1] else []) + PlacedIn(ps[1..], c)
  }

  /** Placement order distributes over concatenation. */
  lemma PlacedInAppend(a: seq<Option<(Collection, FigmaVariable)>>, b: seq<Option<(Collection, FigmaVariable)>>, c: Collection)
    ensures PlacedIn(a + b, c) == PlacedIn(a, c) + PlacedIn(b, c)
  {
    var part := (p: Option<(Collection, FigmaVariable)>) => if p.Some? && p.value.0 == c then [p.value.1] else [];
    ConsAppend(ps => PlacedIn(ps, c), part, a, b);
  }

  /** Each collection holds exactly the variables placed there, in token order
      and as often as they are placed. */
  lemma {:induction false} GatherOrder(ps: seq<Option<(Collection, FigmaVariable)>>, c: Collection)
    ensures Members(Gather(ps), c) == PlacedIn(ps, c)
    decreases |ps|
  {
    if ps != [] {
      GatherOrder(ps[1..], c);
      GatherHead(ps, c);
    }
  }

  /** One step of the loop: the first placement goes in front of its collection. */
  lemma GatherHead(ps: seq<Option<(Collection, FigmaVariable)>>, c: Collection)
    requires ps != []
    ensures Members(Gather(ps), c) ==
      (if ps[0].Some? && ps[0].value.0 == c then [ps[0].value.1] else []) + Members(Gather(ps[1..]), c)
  {
    var rest := Gather(ps[1..]);
    if ps[0].Some? {
      var v := ps[0].value.1;
      match ps[0].value.0
      case Colors => assert Gather(ps) == rest.(colors := [v] + rest.colors);
      case Numbers => assert Gather(ps) == rest.(numbers := [v] + rest.numbers);
      case Strings => assert Gather(ps) == rest.(strings := [v] + rest.strings);
    }
  }

  /** The collections of two runs of the loop concatenate. */
  lemma GatherAppend(a: seq<Option<(Collection, FigmaVariable)>>, b: seq<Option<(Collection, FigmaVariable)>>, c: Collection)
    ensures Members(Gather(a + b), c) == Members(Gather(a), c) + Members(Gather(b), c)
  {
    GatherOrder(a + b, c);
    GatherOrder(a, c);
    GatherOrder(b, c);
    PlacedInAppend(a, b, c);
  }

  /** Every variable of a collection was placed there by some token. */
  lemma {:induction false} GatherSound(ps: seq<Option<(Collection, FigmaVariable)>>, c: Collection, v: FigmaVariable)
    requires v in Members(Gather(ps), c)
    ensures Some((c, v)) in ps
    decreases |ps|
  {
    var rest := Gather(ps[1..]);
    if ps[0].None? || v in Members(rest, c) {
      GatherSound(ps[1..], c, v);
      assert forall x :: x in ps[1..] ==> x in ps;
    }
  }

  /** The three collections' variables, as the token loop appends them. */
  function FigmaPayload(ts: seq<FlatToken>, ds: seq<DarkEntry>): Payload {
    Gather(Placements(ts, ds))
  }

  function VariableJson(v: FigmaVariable): Value {
    Obj([("name", Str(v.name)),
         ("type", Str(match v.varType case COLOR => "COLOR" case FLOAT => "FLOAT" case STRING => "STRING")),
         ("valuesByMode", Obj(v.valuesByMode))])
  }

  function VariablesJson(vs: seq<FigmaVariable>): Value {
    Arr(seq(|vs|, i requires 0 <= i < |vs| => VariableJson(vs[i])))
  }

  /** `figma-api-payload.json`: the three collections with their fixed modes. */
  function PayloadJson(p: Payload): Value {
    var single := Obj([("Value", Str("default_mode"))]);
    Obj([("collections", Obj([
      ("colors", Obj([("modes", Obj([("Light", Str("light_mode_id")), ("Dark", Str("dark_mode_id"))])),
                      ("variables", VariablesJson(p.colors))])),
      ("numbers", Obj([("modes", single), ("variables", VariablesJson(p.numbers))])),
      ("strings", Obj([("modes", single), ("variables", VariablesJson(p.strings))]))]))])
  }

  /** A colour-like token whose light and dark values both convert goes to
      the colour collection with both records. */
  lemma PlaceColor(t: FlatToken, ds: seq<DarkEntry>, light: Rgba, dark: Rgba)
    requires Path(t)[0] in ColorCategories
    requires ColorOf(t.value) == Ok(light) && ColorOf(DarkValue(ds, t.name, t.value)) == Ok(dark)
    ensures Place(t, ds) == Some((Colors, FigmaVariable(FigmaName(t.name), COLOR,
      [("light_mode_id", light.ToJson()), ("dark_mode_id", dark.ToJson())])))
  {
  }

  /** A colour-like token holding a strict hex colour, with no dark entry of
      its name, is sent with the same record in both modes, and that record
      reads back as the colour in lowercase when it has six digits. */
  lemma FigmaColorToken(t: FlatToken, ds: seq<DarkEntry>, h: string)
    requires Path(t)[0] in ColorCategories && t.value == Str(h) && StrictHexColor(h)
    requires forall i :: 0 <= i < |ds| ==> ds[i].name != t.name
    ensures HexToFigmaRgba(h).Ok?
    ensures var c := HexToFigmaRgba(h).value;
      Place(t, ds) == Some((Colors, FigmaVariable(FigmaName(t.name), COLOR,
        [("light_mode_id", c.ToJson()), ("dark_mode_id", c.ToJson())])))
    ensures |h| == 7 ==> RgbaDictToHex(HexToFigmaRgba(h).value.ToJson()) == Ok(Lower(h))
  {
    FigmaRoundTrip(h);
    var c := HexToFigmaRgba(h).value;
    DarkValueAbsent(ds, t.name, t.value);
    PlaceColor(t, ds, c, c);
  }

  /** The dark record comes from the last dark entry of the token's name. */
  lemma FigmaDarkToken(t: FlatToken, ds: seq<DarkEntry>, i: nat, h: string, dh: string)
    requires Path(t)[0] in ColorCategories && t.value == Str(h) && StrictHexColor(h)
    requires i < |ds| && ds[i] == DarkEntry(t.name, Some(Str(dh))) && StrictHexColor(dh)
    requires forall j :: i < j < |ds| ==> ds[j].name != t.name
    ensures HexToFigmaRgba(h).Ok? && HexToFigmaRgba(dh).Ok?
    ensures Place(t, ds) == Some((Colors, FigmaVariable(FigmaName(t.name), COLOR,
        [("light_mode_id", HexToFigmaRgba(h).value.ToJson()), ("dark_mode_id", HexToFigmaRgba(dh).value.ToJson())])))
  {
    assert HexToFigmaRgba(h).Ok? && HexToFigmaRgba(dh).Ok? by {
      FigmaRgbaOfStrict(h);
      FigmaRgbaOfStrict(dh);
    }
    var light, dark := HexToFigmaRgba(h).value, HexToFigmaRgba(dh).value;
    assert ColorOf(DarkValue(ds, t.name, t.value)) == Ok(dark) by {
      DarkValueLast(ds, t.name, t.value, i);
    }
    PlaceColor(t, ds, light, dark);
  }

  /** Removing `px` leaves text without a `p` alone. */
  lemma {:induction false} RemovePxPlain(s: string, tail: string)
    requires 'p' !in s
    ensures RemovePx(s + tail) == s + RemovePx(tail)
  {
    if s != [] {
      assert (s + tail)[0] == s[0];
      assert (s + tail)[1..] == s[1..] + tail;
      RemovePxPlain(s[1..], tail);
    } else {
      assert s + tail == tail;
    }
  }

  /** A spacing, radius or z-index token written as digits and `px` becomes a
      `FLOAT` of that many pixels. */
  lemma FigmaPixelToken(t: FlatToken, ds: seq<DarkEntry>, digits: string)
    requires Path(t)[0] in NumberCategories && t.value == Str(digits + "px") && IsDigits(digits)
    ensures Place(t, ds) == Some((Numbers, FigmaVariable(FigmaName(t.name), FLOAT,
      [("default_mode", Num(DecimalValue(digits) as real))])))
  {
    assert 'p' !in digits by {
      forall i | 0 <= i < |digits| ensures digits[i] != 'p' {
        assert IsDigit(digits[i]);
      }
    }
    RemovePxPlain(digits, "px");
    assert RemovePx("px") == "" by {
      assert "px"[2..] == "";
    }
    assert digits + "" == digits;
    assert !(Path(t)[0] in ColorCategories) by {
      NumberNotColor(Path(t)[0]);
    }
  }

  lemma NumberNotColor(category: string)
    requires category in NumberCategories
    ensures category !in ColorCategories
  {
  }
}

=== FILE: color_codec.dfy ===
/** The colour codec: hex colour strings, 0-1 channel records, 0-255 byte tuples,
    and compositing a translucent colour onto white. Channels are exact reals;
    Python's `round` is round-half-to-even and `int(x)` truncates toward zero.
    Nothing is clamped: out-of-range channels format as Python would format them. */
module ColorCodec {
  import opened Wrappers
  import opened Dict
  import opened Json
  import opened Text

  /** Python's `round(x)`: the nearest integer, ties going to the even one. */
  function RoundHalfEven(x: real): (r: int)
    ensures x - 0.5 <= r as real <= x + 0.5
    ensures (r as real - x == 0.5 || x - r as real == 0.5) ==> r % 2 == 0
  {
    var f := x.Floor;
    var d := x - f as real;
    if d < 0.5 then f
    else if d > 0.5 then f + 1
    else if f % 2 == 0 then f
    else f + 1
  }

  /** `int(x)` on a float: truncation toward zero. */
  function Trunc(x: real): (r: int)
    ensures 0.0 <= x ==> r as real <= x < r as real + 1.0
    ensures x < 0.0 ==> r as real - 1.0 < x <= r as real
  {
    if x >= 0.0 then x.Floor else -((-x).Floor)
  }

  /** `int(round(x * 255))`: a 0-1 channel scaled to a byte. */
  function Channel(x: real): (n: int)
    ensures 0.0 <= x <= 1.0 ==> 0 <= n <= 255
  {
    RoundHalfEven(x * 255.0)
  }

  /** A byte as a 0-1 channel: `n / 255.0`. */
  function Scale(n: int): real {
    n as real / 255.0
  }

  /** A byte divided by 255 scales back to the same byte. */
  lemma ChannelOfByte(n: int)
    requires 0 <= n <= 255
    ensures Channel(Scale(n)) == n
  {
    assert Scale(n) * 255.0 == n as real;
  }

  // ---------------------------------------------------------------------------
  // Recognising hex colours

  /** `#` followed by exactly six or exactly eight hex digits, either case. */
  predicate StrictHexColor(s: string) {
    (|s| == 7 || |s| == 9) && s[0] == '#' && forall i :: 1 <= i < |s| ==> IsHexDigit(s[i])
  }

  /** `re.match(r"^#[0-9a-fA-F]{6}([0-9a-fA-F]{2})?$", s)`. Python's `$` also
      matches just before a final line feed, so the pattern accepts a strict hex
      colour followed by one "\n" as well. */
  predicate HexColorText(s: string) {
    StrictHexColor(s) || (s != [] && s[|s| - 1] == '\n' && StrictHexColor(s[..|s| - 1]))
  }

  /** `is_hex_color(value)`: a string that matches the hex-colour pattern; any
      other JSON value is rejected without error. */
  predicate IsHexColor(v: Value): (b: bool)
    ensures b ==> v.Str? && 7 <= |v.s| <= 10 && v.s[0] == '#' && forall i :: 1 <= i < 7 ==> IsHexDigit(v.s[i])
    ensures v.Str? && StrictHexColor(v.s) ==> b
  {
    v.Str? && HexColorText(v.s)
  }

  /** `re.match(r"^#[0-9a-fA-F]{6}$", s)`: six digits only, with the same
      tolerance for one trailing line feed. */
  function Hex6Text(s: string): (b: bool)
    ensures b <==> (|s| == 7 || (|s| == 8 && s[7] == '\n')) && s[0] == '#' && AllHex(s[1..7])
  {
    |s| >= 7 && s[0] == '#' && AllHex(s[1..7]) && (s[7..] == "" || s[7..] == "\n")
  }

  // ---------------------------------------------------------------------------
  // Channel records to hex

  /** `float(v)` for a JSON value: numbers and booleans convert, strings are
      parsed, anything else raises. */
  function ToFloat(v: Value): (r: Result<real>)
    ensures v.Num? ==> r == Ok(v.n)
    ensures v.Null? || v.Arr? || v.Obj? ==> r == Err(TypeError)
  {
    match v
    case Num(n) => Ok(n)
    case Bool(b) => Ok(if b then 1.0 else 0.0)
    case Str(s) => (match ParseFloat(s) case Some(x) => Ok(x) case None => Err(ValueError))
    case _ => Err(TypeError)
  }

  /** `float(rgba.get(key, default))`. */
  function ChannelValue(fs: Fields, key: string, default: real): Result<real> {
    ToFloat(GetOr(fs, key, Num(default)))
  }

  /** A channel record whose four channels (after defaults) are all within 0-1. */
  predicate UnitChannels(rgba: Value) {
    rgba.Obj? &&
    var fs := rgba.fields;
    && InUnit(ChannelValue(fs, "r", 0.0))
    && InUnit(ChannelValue(fs, "g", 0.0))
    && InUnit(ChannelValue(fs, "b", 0.0))
    && InUnit(ChannelValue(fs, "a", 1.0))
  }

  predicate InUnit(c: Result<real>) {
    c.Ok? && 0.0 <= c.value <= 1.0
  }

  /** `rgba_dict_to_hex`: `#rrggbb` when alpha is at least 1, `#rrggbbaa` below it. */
  function RgbaDictToHex(rgba: Value): (r: Result<string>)
    ensures !rgba.Obj? ==> r == Err(AttributeError)
    ensures r.Ok? ==> |r.value| >= 7 && r.value[0] == '#'
    ensures UnitChannels(rgba) ==> r.Ok? && AllLowerHex(r.value[1..])
    ensures UnitChannels(rgba) ==>
      (|r.value| == 9 <==> ChannelValue(rgba.fields, "a", 1.0).value < 1.0) &&
      (|r.value| == 7 <==> ChannelValue(rgba.fields, "a", 1.0).value >= 1.0)
  {
    if !rgba.Obj? then Err(AttributeError)
    else
      var fs := rgba.fields;
      var red :- ChannelValue(fs, "r", 0.0);
      var green :- ChannelValue(fs, "g", 0.0);
      var blue :- ChannelValue(fs, "b", 0.0);
      var alpha :- ChannelValue(fs, "a", 1.0);
      Ok(FormatChannels(red, green, blue, alpha))
  }

  /** The hex text for four channels; the alpha pair appears only below 1. */
  function FormatChannels(red: real, green: real, blue: real, alpha: real): (s: string)
    ensures |s| >= 7 && s[0] == '#'
    ensures 0.0 <= red <= 1.0 && 0.0 <= green <= 1.0 && 0.0 <= blue <= 1.0 && 0.0 <= alpha <= 1.0 ==>
      AllLowerHex(s[1..]) && (|s| == 9 <==> alpha < 1.0) && (|s| == 7 <==> alpha >= 1.0)
  {
    var rgb := Hex2(red) + Hex2(green) + Hex2(blue);
    var digits := if alpha < 1.0 then rgb + Hex2(alpha) else rgb;
    var s := "#" + digits;
    assert s[0] == '#' && s[1..] == digits;
    AllLowerHexAppend(Hex2(red), Hex2(green));
    AllLowerHexAppend(Hex2(red) + Hex2(green), Hex2(blue));
    AllLowerHexAppend(rgb, Hex2(alpha));
    s
  }

  /** The hex text is the channel pairs in order, alpha last and only below 1. */
  lemma ChannelPairs(red: real, green: real, blue: real, alpha: real)
    ensures alpha < 1.0 ==> FormatChannels(red, green, blue, alpha) == "#" + Hex2(red) + Hex2(green) + Hex2(blue) + Hex2(alpha)
    ensures alpha >= 1.0 ==> FormatChannels(red, green, blue, alpha) == "#" + Hex2(red) + Hex2(green) + Hex2(blue)
  {
  }

  /** One channel as `format(int(round(x * 255)), "02x")`. */
  function Hex2(x: real): (s: string)
    ensures |s| >= 2
    ensures 0.0 <= x <= 1.0 ==> |s| == 2 && AllLowerHex(s)
  {
    FormatWidth(Channel(x));
    if 0.0 <= x <= 1.0 then FormatByte(Channel(x)); Format02x(Channel(x)) else Format02x(Channel(x))
  }

  /** Missing channels default to black and fully opaque. */
  lemma RgbaDefaults()
    ensures RgbaDictToHex(Obj([])) == Ok("#000000")
  {
    assert ChannelValue([], "r", 0.0) == Ok(0.0);
    assert ChannelValue([], "a", 1.0) == Ok(1.0);
    assert Channel(0.0) == 0;
    assert Hex2(0.0) == "00";
    assert FormatChannels(0.0, 0.0, 0.0, 1.0) == "#000000";
  }

  // ---------------------------------------------------------------------------
  // Hex to channel records

  /** A 0-1 colour record as sent to the design tool. */
  datatype Rgba = Rgba(r: real, g: real, b: real, a: real) {
    function ToJson(): Value {
      Obj([("r", Num(r)), ("g", Num(g)), ("b", Num(b)), ("a", Num(a))])
    }
  }

  /** `int(s[i:i+2], 16)`: a Python slice past the end is shorter, not an error. */
  function HexSlice(s: string, i: nat): Result<int> {
    if i + 2 <= |s| then IntBase16Pair(s[i], s[i + 1])
    else if i + 1 == |s| then IntBase16Single(s[i])
    else Err(ValueError)
  }

  /** Three-digit shorthand doubles every digit; other lengths are left alone. */
  function Expand3(s: string): string {
    if |s| == 3 then [s[0], s[0], s[1], s[1], s[2], s[2]] else s
  }

  /** Removing the `#` of a strict hex colour leaves exactly its digits. */
  lemma StripHash(h: string)
    requires StrictHexColor(h)
    ensures LStrip(h, '#') == h[1..]
  {
    var r := LStrip(h, '#');
    assert IsHexDigit(h[1]);
    assert |r| == |h| - 1;
  }

  /** `hex_to_figma_rgba`: strip `#`, expand three-digit shorthand, divide each
      byte by 255; alpha is 1 unless exactly eight digits remain. */
  function HexToFigmaRgba(h: string): (r: Result<Rgba>)
    ensures r.Ok? && |Expand3(LStrip(h, '#'))| != 8 ==> r.value.a == 1.0
  {
    var s := Expand3(LStrip(h, '#'));
    var red :- HexSlice(s, 0);
    var green :- HexSlice(s, 2);
    var blue :- HexSlice(s, 4);
    if |s| == 8 then
      var alpha :- HexSlice(s, 6);
      Ok(Rgba(Scale(red), Scale(green), Scale(blue), Scale(alpha)))
    else
      Ok(Rgba(Scale(red), Scale(green), Scale(blue), 1.0))
  }

  /** The byte written by the hex digits at positions `i` and `i + 1`. */
  function ByteAt(h: string, i: nat): nat
    requires i + 1 < |h| && IsHexDigit(h[i]) && IsHexDigit(h[i + 1])
  {
    PairValue(h[i], h[i + 1])
  }

  /** A strict hex colour always converts, each byte divided by 255, so every
      channel lies within 0-1; six digits are opaque. */
  lemma FigmaRgbaOfStrict(h: string)
    requires StrictHexColor(h)
    ensures HexToFigmaRgba(h) == Ok(Rgba(
      Scale(ByteAt(h, 1)), Scale(ByteAt(h, 3)), Scale(ByteAt(h, 5)),
      if |h| == 9 then Scale(ByteAt(h, 7)) else 1.0))
    ensures var c := HexToFigmaRgba(h).value;
      0.0 <= c.r <= 1.0 && 0.0 <= c.g <= 1.0 && 0.0 <= c.b <= 1.0 && 0.0 <= c.a <= 1.0
  {
    StripHash(h);
    var s := h[1..];
    assert Expand3(LStrip(h, '#')) == s;
  }

  /** Sending a strict hex colour to the design tool and reading it back gives
      the colour in lowercase; an opaque eight-digit colour (alpha byte `ff`)
      comes back with six digits. */
  lemma FigmaRoundTrip(h: string)
    requires StrictHexColor(h)
    ensures HexToFigmaRgba(h).Ok?
    ensures RgbaDictToHex(HexToFigmaRgba(h).value.ToJson()) ==
      Ok(if |h| == 9 && ByteAt(h, 7) == 255 then Lower(h[..7]) else Lower(h))
  {
    FigmaRgbaOfStrict(h);
    var c := HexToFigmaRgba(h).value;
    var p1, p3, p5 := PairText(h, 1), PairText(h, 3), PairText(h, 5);
    assert Hex2(c.r) == p1 && Hex2(c.g) == p3 && Hex2(c.b) == p5 by {
      HexOfByteAt(h, 1);
      HexOfByteAt(h, 3);
      HexOfByteAt(h, 5);
    }
    assert Lower(h[..7]) == "#" + p1 + p3 + p5 by {
      LowerHexColor(h);
    }
    RecordToHex(c);
    ChannelPairs(c.r, c.g, c.b, c.a);
    if |h| == 9 {
      var p7 := PairText(h, 7);
      assert Lower(h) == "#" + p1 + p3 + p5 + p7 by {
        LowerHexColor(h);
      }
      if ByteAt(h, 7) < 255 {
        assert Hex2(c.a) == p7 by {
          HexOfByteAt(h, 7);
        }
      }
    } else {
      assert Lower(h) == Lower(h[..7]) by {
        LowerHexColor(h);
      }
    }
  }

  /** A channel record converts channel by channel. */
  lemma RecordToHex(c: Rgba)
    ensures RgbaDictToHex(c.ToJson()) == Ok(FormatChannels(c.r, c.g, c.b, c.a))
  {
    var fs := c.ToJson().fields;
    assert "r"[0] == 'r' && "g"[0] == 'g' && "b"[0] == 'b' && "a"[0] == 'a';
    GetOfFour(fs, Num(c.r), Num(c.g), Num(c.b), Num(c.a));
    assert ChannelValue(fs, "r", 0.0) == Ok(c.r);
    assert ChannelValue(fs, "g", 0.0) == Ok(c.g);
    assert ChannelValue(fs, "b", 0.0) == Ok(c.b);
    assert ChannelValue(fs, "a", 1.0) == Ok(c.a);
  }

  /** Reading each key of a four-entry record with distinct keys. */
  lemma GetOfFour(fs: Fields, v0: Value, v1: Value, v2: Value, v3: Value)
    requires |fs| == 4 && fs[0].1 == v0 && fs[1].1 == v1 && fs[2].1 == v2 && fs[3].1 == v3
    requires forall i, j :: 0 <= i < j < 4 ==> fs[i].0 != fs[j].0
    ensures Get(fs, fs[0].0) == Some(v0) && Get(fs, fs[1].0) == Some(v1)
    ensures Get(fs, fs[2].0) == Some(v2) && Get(fs, fs[3].0) == Some(v3)
  {
    assert fs[1..][1..] == fs[2..] && fs[2..][1..] == fs[3..];
  }

  /** A strict hex colour in lowercase, pair by pair. */
  lemma LowerHexColor(h: string)
    requires StrictHexColor(h)
    ensures Lower(h[..7]) == "#" + PairText(h, 1) + PairText(h, 3) + PairText(h, 5)
    ensures |h| == 7 ==> Lower(h) == Lower(h[..7])
    ensures |h| == 9 ==> Lower(h) == Lower(h[..7]) + PairText(h, 7)
  {
    LowerPrefix(h);
    if |h| == 9 {
      LowerNine(h);
    } else {
      assert h[..7] == h;
    }
  }

  lemma LowerNine(h: string)
    requires |h| == 9
    ensures Lower(h) == Lower(h[..7]) + PairText(h, 7)
  {
    LowerSplit(h, 7);
    LowerTail(h, 7);
  }

  lemma LowerSplit(h: string, k: nat)
    requires k <= |h|
    ensures Lower(h) == Lower(h[..k]) + Lower(h[k..])
  {
    var a, b := Lower(h), Lower(h[..k]) + Lower(h[k..]);
    forall i | 0 <= i < |h|
      ensures a[i] == b[i]
    {
      if i < k {
        assert b[i] == Lower(h[..k])[i] == LowerChar(h[..k][i]);
      } else {
        assert b[i] == Lower(h[k..])[i - k] == LowerChar(h[k..][i - k]);
      }
    }
  }

  lemma LowerTail(h: string, k: nat)
    requires k + 2 == |h|
    ensures Lower(h[k..]) == PairText(h, k)
  {
    var t := h[k..];
    assert Lower(t)[0] == LowerChar(t[0]) && Lower(t)[1] == LowerChar(t[1]);
  }

  lemma LowerPrefix(h: string)
    requires |h| >= 7 && h[0] == '#'
    ensures Lower(h[..7]) == "#" + PairText(h, 1) + PairText(h, 3) + PairText(h, 5)
  {
    var t := "#" + PairText(h, 1) + PairText(h, 3) + PairText(h, 5);
    assert forall i :: 0 <= i < 7 ==> t[i] == LowerChar(h[i]);
  }

  lemma LowerAppend(a: string, b: string)
    ensures Lower(a + b) == Lower(a) + Lower(b)
  {
    assert forall i :: 0 <= i < |a + b| ==> Lower(a + b)[i] == (Lower(a) + Lower(b))[i];
  }

  /** The two characters at `i`, lowercased. */
  function PairText(h: string, i: nat): string
    requires i + 1 < |h|
  {
    [LowerChar(h[i]), LowerChar(h[i + 1])]
  }

  /** A byte read from two hex digits, scaled to 0-1 and formatted back, is
      those digits in lowercase. */
  lemma HexOfByteAt(h: string, i: nat)
    requires i + 1 < |h| && IsHexDigit(h[i]) && IsHexDigit(h[i + 1])
    ensures Hex2(Scale(ByteAt(h, i))) == PairText(h, i)
  {
    ChannelOfByte(ByteAt(h, i));
    FormatParsedPair(h[i], h[i + 1]);
  }

  // ---------------------------------------------------------------------------
  // Byte tuples and compositing

  /** The first `count` two-character slices of `s`, each read by `int(_, 16)`. */
  function ReadPairs(s: string, count: nat): (r: Result<seq<int>>)
    requires 2 * count <= |s|
    ensures r.Ok? ==> |r.value| == count
    ensures r.Ok? ==> forall i :: 0 <= i < count ==> -15 <= r.value[i] < 256
  {
    if count == 0 then Ok([])
    else
      var front :- ReadPairs(s, count - 1);
      var last :- HexSlice(s, 2 * (count - 1));
      Ok(front + [last])
  }

  /** `hex_to_rgb`: three bytes for six digits, four for eight, and black for
      any other length once the leading `#`s are stripped. */
  function HexToRgb(h: string): (r: Result<seq<int>>)
    ensures var n := |LStrip(h, '#')|;
      && (n != 6 && n != 8 ==> r == Ok([0, 0, 0]))
      && (r.Ok? ==> |r.value| == (if n == 8 then 4 else 3))
  {
    var s := LStrip(h, '#');
    if |s| == 6 then ReadPairs(s, 3)
    else if |s| == 8 then ReadPairs(s, 4)
    else Ok([0, 0, 0])
  }

  /** `rgb_to_hex`: `#` and each value as `format(v, "02x")`. */
  function RgbToHex(red: int, green: int, blue: int): (h: string)
    ensures |h| >= 7 && h[0] == '#'
    ensures 0 <= red < 256 && 0 <= green < 256 && 0 <= blue < 256 ==>
      |h| == 7 && AllLowerHex(h[1..]) && IsHexColor(Str(h))
  {
    var digits := Format02x(red) + Format02x(green) + Format02x(blue);
    ByteTriple(red, green, blue);
    assert ("#" + digits)[1..] == digits;
    "#" + digits
  }

  /** Three bytes format as six lowercase hex digits. */
  lemma ByteTriple(red: int, green: int, blue: int)
    ensures |Format02x(red) + Format02x(green) + Format02x(blue)| >= 6
    ensures 0 <= red < 256 && 0 <= green < 256 && 0 <= blue < 256 ==>
      var s := Format02x(red) + Format02x(green) + Format02x(blue);
      |s| == 6 && AllLowerHex(s) && StrictHexColor("#" + s)
  {
    FormatWidth(red);
    FormatWidth(green);
    FormatWidth(blue);
    if 0 <= red < 256 && 0 <= green < 256 && 0 <= blue < 256 {
      FormatByte(red);
      FormatByte(green);
      FormatByte(blue);
      var s := Format02x(red) + Format02x(green) + Format02x(blue);
      AllLowerHexAppend(Format02x(red), Format02x(green));
      AllLowerHexAppend(Format02x(red) + Format02x(green), Format02x(blue));
      var h := "#" + s;
      forall i | 1 <= i < |h| ensures IsHexDigit(h[i]) {
        assert h[i] == s[i - 1];
      }
    }
  }

  /** Writing three bytes as hex and reading them back gives the same bytes. */
  lemma RgbRoundTrip(red: int, green: int, blue: int)
    requires 0 <= red < 256 && 0 <= green < 256 && 0 <= blue < 256
    ensures |RgbToHex(red, green, blue)| == 7
    ensures HexToRgb(RgbToHex(red, green, blue)) == Ok([red, green, blue])
  {
    var s := Format02x(red) + Format02x(green) + Format02x(blue);
    StripFormatted(red, green, blue);
    FormatByte(red);
    FormatByte(green);
    FormatByte(blue);
    PairAt(s, 0, red);
    PairAt(s, 2, green);
    PairAt(s, 4, blue);
    ReadThree(s, red, green, blue);
  }

  /** The formatted bytes start with a digit, so only the one `#` is stripped. */
  lemma StripFormatted(red: int, green: int, blue: int)
    requires 0 <= red < 256 && 0 <= green < 256 && 0 <= blue < 256
    ensures LStrip(RgbToHex(red, green, blue), '#') == Format02x(red) + Format02x(green) + Format02x(blue)
  {
    FormatByte(red);
    var s := Format02x(red) + Format02x(green) + Format02x(blue);
    var h := RgbToHex(red, green, blue);
    assert h == "#" + s;
    assert h[1..] == s;
    assert s[0] == HexDigitChar(red / 16);
  }

  lemma ReadThree(s: string, x: int, y: int, z: int)
    requires |s| >= 6 && HexSlice(s, 0) == Ok(x) && HexSlice(s, 2) == Ok(y) && HexSlice(s, 4) == Ok(z)
    ensures ReadPairs(s, 3) == Ok([x, y, z])
  {
    assert ReadPairs(s, 0) == Ok([]);
    assert [] + [x] == [x];
    assert ReadPairs(s, 1) == Ok([x]);
    assert [x] + [y] == [x, y];
    assert ReadPairs(s, 2) == Ok([x, y]);
    assert [x, y] + [z] == [x, y, z];
  }

  /** Reading an eight-digit colour gives its four bytes, alpha last. */
  lemma RgbaOfStrict(h: string)
    requires StrictHexColor(h) && |h| == 9
    ensures HexToRgb(h) == Ok([ByteAt(h, 1), ByteAt(h, 3), ByteAt(h, 5), ByteAt(h, 7)])
  {
    StripHash(h);
    var s := h[1..];
    var x, y, z, w := ByteAt(h, 1), ByteAt(h, 3), ByteAt(h, 5), ByteAt(h, 7);
    assert HexSlice(s, 0) == Ok(x);
    assert HexSlice(s, 2) == Ok(y);
    assert HexSlice(s, 4) == Ok(z);
    assert HexSlice(s, 6) == Ok(w);
    ReadThree(s, x, y, z);
    assert [x, y, z] + [w] == [x, y, z, w];
  }

  /** Two digits that spell a byte read back as that byte. */
  lemma PairAt(s: string, i: nat, n: int)
    requires 0 <= n < 256 && i + 1 < |s|
    requires s[i] == HexDigitChar(n / 16) && s[i + 1] == HexDigitChar(n % 16)
    ensures HexSlice(s, i) == Ok(n)
  {
  }

  /** Reading a six-digit colour as bytes and writing it back lowercases it. */
  lemma RgbOfStrict(h: string)
    requires StrictHexColor(h) && |h| == 7
    ensures HexToRgb(h) == Ok([ByteAt(h, 1), ByteAt(h, 3), ByteAt(h, 5)])
    ensures RgbToHex(ByteAt(h, 1), ByteAt(h, 3), ByteAt(h, 5)) == Lower(h)
  {
    StripHash(h);
    var s := h[1..];
    assert HexSlice(s, 0) == Ok(ByteAt(h, 1));
    assert HexSlice(s, 2) == Ok(ByteAt(h, 3));
    assert HexSlice(s, 4) == Ok(ByteAt(h, 5));
    ReadThree(s, ByteAt(h, 1), ByteAt(h, 3), ByteAt(h, 5));
    LowerHexColor(h);
    FormatParsedPair(h[1], h[2]);
    FormatParsedPair(h[3], h[4]);
    FormatParsedPair(h[5], h[6]);
  }

  /** One channel of `overlay_on_white`: `int(c * alpha + 255 * (1 - alpha))`
      with `alpha = a / 255`. */
  function OverlayChannel(c: int, a: int): (out: int)
    ensures a == 255 ==> out == c
    ensures a == 0 ==> out == 255
    ensures 0 <= c <= 255 && 0 <= a <= 255 ==> c <= out <= 255
  {
    var alpha := a as real / 255.0;
    var x := c as real * alpha + 255.0 * (1.0 - alpha);
    if 0 <= c <= 255 && 0 <= a <= 255 then
      BlendBounds(c as real, alpha);
      Trunc(x)
    else Trunc(x)
  }

  /** Blending towards 255 lands between the channel and 255. */
  lemma BlendBounds(c: real, alpha: real)
    requires 0.0 <= c <= 255.0 && 0.0 <= alpha <= 1.0
    ensures c <= c * alpha + 255.0 * (1.0 - alpha) <= 255.0
  {
    var d := 255.0 - c;
    NonNegMul(alpha, d);
    NonNegMul(1.0 - alpha, d);
    assert c * alpha + 255.0 * (1.0 - alpha) == 255.0 - alpha * d;
    assert alpha * d + (1.0 - alpha) * d == d;
  }

  lemma NonNegMul(x: real, y: real)
    requires 0.0 <= x && 0.0 <= y
    ensures 0.0 <= x * y
  {
  }

  /** `overlay_on_white`: the colour seen when a translucent colour lies on white. */
  function OverlayOnWhite(red: int, green: int, blue: int, a: int): (h: string)
    ensures 0 <= red < 256 && 0 <= green < 256 && 0 <= blue < 256 && 0 <= a <= 255 ==>
      && IsHexColor(Str(h)) && |h| == 7
      && HexToRgb(h) == Ok([OverlayChannel(red, a), OverlayChannel(green, a), OverlayChannel(blue, a)])
      && red <= OverlayChannel(red, a) && green <= OverlayChannel(green, a) && blue <= OverlayChannel(blue, a)
  {
    var outRed := OverlayChannel(red, a);
    var outGreen := OverlayChannel(green, a);
    var outBlue := OverlayChannel(blue, a);
    ReadBackInRange(outRed, outGreen, outBlue);
    RgbToHex(outRed, outGreen, outBlue)
  }

  /** `RgbRoundTrip` for any three values, holding when they are bytes. */
  lemma ReadBackInRange(red: int, green: int, blue: int)
    ensures 0 <= red < 256 && 0 <= green < 256 && 0 <= blue < 256 ==>
      HexToRgb(RgbToHex(red, green, blue)) == Ok([red, green, blue])
  {
    if 0 <= red < 256 && 0 <= green < 256 && 0 <= blue < 256 {
      RgbRoundTrip(red, green, blue);
    }
  }

  /** Full opacity shows the colour itself; full transparency shows white. */
  lemma OverlayExtremes(red: int, green: int, blue: int)
    ensures OverlayOnWhite(red, green, blue, 255) == RgbToHex(red, green, blue)
    ensures OverlayOnWhite(red, green, blue, 0) == "#ffffff"
  {
    assert OverlayOnWhite(red, green, blue, 0) == RgbToHex(255, 255, 255);
    WhiteHex();
  }

  lemma WhiteHex()
    ensures RgbToHex(255, 255, 255) == "#ffffff"
  {
    FormatByte(255);
    assert Format02x(255) == "ff";
  }
}

=== FILE: dict.dfy ===
/** Python dicts as insertion-ordered association lists: a lookup takes the
    first entry with the key, and assignment replaces that entry in place or
    appends a new one, exactly like `d[k] = v`. */
module Dict {
  import opened Wrappers

  /** The keys of a dict, in insertion order. */
  function Keys<K, V>(fs: seq<(K, V)>): (ks: seq<K>)
    ensures |ks| == |fs|
    ensures forall i :: 0 <= i < |fs| ==> ks[i] == fs[i].0
  {
    if fs == [] then [] else [fs[0].0] + Keys(fs[1..])
  }

  /** The values of a dict, in insertion order (`d.values()`). */
  function Values<K, V>(fs: seq<(K, V)>): (vs: seq<V>)
    ensures |vs| == |fs|
    ensures forall i :: 0 <= i < |fs| ==> vs[i] == fs[i].1
  {
    if fs == [] then [] else [fs[0].1] + Values(fs[1..])
  }

  /** `dict(zip(ks, vs))` for distinct keys: the keys paired with the values, in order. */
  function Zip<K, V>(ks: seq<K>, vs: seq<V>): (fs: seq<(K, V)>)
    requires |ks| == |vs|
    ensures |fs| == |ks| && forall i :: 0 <= i < |ks| ==> fs[i] == (ks[i], vs[i])
  {
    seq(|ks|, i requires 0 <= i < |ks| => (ks[i], vs[i]))
  }

  /** Pairing a dict's keys with values peels off its first entry. */
  lemma ZipKeysCons<K, V, W>(fs: seq<(K, V)>, ws: seq<W>)
    requires |ws| == |fs| && fs != []
    ensures Zip(Keys(fs), ws) == [(fs[0].0, ws[0])] + Zip(Keys(fs[1..]), ws[1..])
  {
    var a, b := Zip(Keys(fs), ws), [(fs[0].0, ws[0])] + Zip(Keys(fs[1..]), ws[1..]);
    forall i | 0 <= i < |a|
      ensures a[i] == b[i]
    {
      if i > 0 {
        assert fs[1..][i - 1] == fs[i];
      }
    }
  }

  /** A well-formed dict: no key occurs twice. */
  predicate UniqueKeys<K(==, !new), V>(fs: seq<(K, V)>) {
    fs == [] || (fs[0].0 !in Keys(fs[1..]) && UniqueKeys(fs[1..]))
  }

  /** `d.get(k)`, with `None` for a missing key. */
  function Get<K(==, !new), V>(fs: seq<(K, V)>, k: K): (r: Option<V>)
    ensures r.None? <==> k !in Keys(fs)
    ensures r.Some? ==> exists i :: 0 <= i < |fs| && fs[i] == (k, r.value)
  {
    if fs == [] then None
    else if fs[0].0 == k then Some(fs[0].1)
    else Get(fs[1..], k)
  }

  /** A lookup finds the first entry that carries the key. */
  lemma {:induction false} GetFirst<K(!new), V>(fs: seq<(K, V)>, i: nat, k: K)
    requires i < |fs| && fs[i].0 == k
    requires forall j :: 0 <= j < i ==> fs[j].0 != k
    ensures Get(fs, k) == Some(fs[i].1)
  {
    if i > 0 {
      GetFirst(fs[1..], i - 1, k);
    }
  }

  /** `d.get(k, default)`. */
  function GetOr<K(==, !new), V>(fs: seq<(K, V)>, k: K, default: V): V {
    Get(fs, k).GetOr(default)
  }

  /** `d[k] = v`: an existing entry keeps its position, a new key goes last. */
  function Put<K(==, !new), V>(fs: seq<(K, V)>, k: K, v: V): (r: seq<(K, V)>)
    ensures Get(r, k) == Some(v)
    ensures forall k' :: k' != k ==> Get(r, k') == Get(fs, k')
  {
    if fs == [] then [(k, v)]
    else if fs[0].0 == k then [(k, v)] + fs[1..]
    else [fs[0]] + Put(fs[1..], k, v)
  }

  /** The keys of two dicts laid end to end. */
  lemma KeysAppend<K, V>(a: seq<(K, V)>, b: seq<(K, V)>)
    ensures Keys(a + b) == Keys(a) + Keys(b)
  {
  }

  /** Assignment keeps the key order, appending only a key that was missing. */
  lemma {:induction false} PutKeys<K(!new), V>(fs: seq<(K, V)>, k: K, v: V)
    ensures k in Keys(fs) ==> Keys(Put(fs, k, v)) == Keys(fs)
    ensures k !in Keys(fs) ==> Keys(Put(fs, k, v)) == Keys(fs) + [k]
  {
    if fs != [] && fs[0].0 != k {
      PutKeys(fs[1..], k, v);
      assert Keys(fs) == [fs[0].0] + Keys(fs[1..]);
      assert Keys(Put(fs, k, v)) == [fs[0].0] + Keys(Put(fs[1..], k, v));
    }
  }

  /** Assignment never creates a duplicate key. */
  lemma {:induction false} PutUnique<K(!new), V>(fs: seq<(K, V)>, k: K, v: V)
    requires UniqueKeys(fs)
    ensures UniqueKeys(Put(fs, k, v))
  {
    if fs != [] && fs[0].0 != k {
      PutUnique(fs[1..], k, v);
      PutKeys(fs[1..], k, v);
    }
  }

  /** Looking a key up in a dict with unique keys finds the entry at its position. */
  lemma {:induction false} GetAt<K(!new), V>(fs: seq<(K, V)>, i: nat)
    requires UniqueKeys(fs) && i < |fs|
    ensures Get(fs, fs[i].0) == Some(fs[i].1)
  {
    if i > 0 {
      GetAt(fs[1..], i - 1);
      assert fs[i].0 in Keys(fs[1..]);
    }
  }

  /** A fold of dict assignments, first pair first (`for k, v in pairs: d[k] = v`). */
  function PutAll<K(==, !new), V>(fs: seq<(K, V)>, pairs: seq<(K, V)>): seq<(K, V)>
    decreases |pairs|
  {
    if pairs == [] then fs
    else PutAll(Put(fs, pairs[0].0, pairs[0].1), pairs[1..])
  }

  /** The value of the last pair with key `k`, if any: the winner of last-write-wins. */
  function LastFor<K(==), V>(pairs: seq<(K, V)>, k: K): Option<V>
    decreases |pairs|
  {
    if pairs == [] then None
    else if pairs[|pairs| - 1].0 == k then Some(pairs[|pairs| - 1].1)
    else LastFor(pairs[..|pairs| - 1], k)
  }

  /** After a fold of assignments each key holds the value written last, or its old value. */
  lemma {:induction false} GetPutAll<K(!new), V>(fs: seq<(K, V)>, pairs: seq<(K, V)>, k: K)
    ensures Get(PutAll(fs, pairs), k) == if LastFor(pairs, k).Some? then LastFor(pairs, k) else Get(fs, k)
    decreases |pairs|
  {
    if pairs != [] {
      var fs' := Put(fs, pairs[0].0, pairs[0].1);
      GetPutAll(fs', pairs[1..], k);
      LastForCons(pairs, k);
    }
  }

  /** Splitting off the first pair: a later write with the key wins over it. */
  lemma {:induction false} LastForCons<K(!new), V>(pairs: seq<(K, V)>, k: K)
    requires pairs != []
    ensures LastFor(pairs, k) ==
      if LastFor(pairs[1..], k).Some? then LastFor(pairs[1..], k)
      else if pairs[0].0 == k then Some(pairs[0].1) else None
    decreases |pairs|
  {
    if |pairs| > 1 {
      var n := |pairs|;
      assert pairs[1..][..n - 2] == pairs[..n - 1][1..];
      assert pairs[1..][n - 2] == pairs[n - 1];
      if pairs[n - 1].0 != k {
        LastForCons(pairs[..n - 1], k);
      }
    }
  }

  /** Every key written by the fold is present, and no other new key appears. */
  lemma {:induction false} PutAllKeys<K(!new), V>(fs: seq<(K, V)>, pairs: seq<(K, V)>)
    ensures UniqueKeys(fs) ==> UniqueKeys(PutAll(fs, pairs))
    ensures forall k :: k in Keys(PutAll(fs, pairs)) <==> k in Keys(fs) || k in Keys(pairs)
    decreases |pairs|
  {
    if pairs != [] {
      var fs' := Put(fs, pairs[0].0, pairs[0].1);
      PutKeys(fs, pairs[0].0, pairs[0].1);
      if UniqueKeys(fs) {
        PutUnique(fs, pairs[0].0, pairs[0].1);
      }
      PutAllKeys(fs', pairs[1..]);
      assert Keys(pairs) == [pairs[0].0] + Keys(pairs[1..]);
    }
  }

  /** Writes from a later batch win over an earlier batch. */
  lemma {:induction false} LastForAppend<K, V>(a: seq<(K, V)>, b: seq<(K, V)>, k: K)
    ensures LastFor(a + b, k) == if LastFor(b, k).Some? then LastFor(b, k) else LastFor(a, k)
    decreases |b|
  {
    if b != [] {
      assert (a + b)[..|a + b| - 1] == a + b[..|b| - 1];
      LastForAppend(a, b[..|b| - 1], k);
    } else {
      assert a + b == a;
    }
  }
}

=== FILE: json.dfy ===
/** JSON documents as the Python code sees them after `json.load`. An object
    is an insertion-ordered association list from key to value. */
module Json {
  import opened Wrappers
  import opened Dict

  datatype Value =
    | Null
    | Bool(b: bool)
    | Num(n: real)
    | Str(s: string)
    | Arr(items: seq<Value>)
    | Obj(fields: seq<(string, Value)>)

  type Fields = seq<(string, Value)>

  /** `v[k1][k2]...` through nested objects; nothing when a key is missing or
      a step is not an object. */
  function Lookup(v: Value, keys: seq<string>): Option<Value>
    decreases |keys|
  {
    if keys == [] then Some(v)
    else if !v.Obj? then None
    else
      match Get(v.fields, keys[0])
      case Some(child) => Lookup(child, keys[1..])
      case None => None
  }

  /** Python truthiness: `None`, `False`, zero and empty containers are falsy. */
  predicate Truthy(v: Value) {
    match v
    case Null => false
    case Bool(b) => b
    case Num(n) => n != 0.0
    case Str(s) => s != ""
    case Arr(xs) => xs != []
    case Obj(fs) => fs != []
  }

}

=== FILE: normalizer.dfy ===
/** The source normalisers: design-tool payloads of several shapes turned into
    one `{colors, typography, effects}` document. Errors are the Python
    exceptions the code raises on malformed input. */
module Normalizer {
  import opened Wrappers
  import opened Dict
  import opened Json
  import opened Text
  import opened ColorCodec

  /** `infer_color_name`: dots in a variable name become slashes. */
  function InferColorName(name: string): (r: string)
    ensures |r| == |name| && '.' !in r
    ensures forall i :: 0 <= i < |name| && name[i] != '.' ==> r[i] == name[i]
  {
    var r := ReplaceChar(name, '.', '/');
    assert forall i :: 0 <= i < |r| ==> r[i] != '.';
    r
  }

  /** The one shape every source is turned into. */
  function Normalized(colors: Fields): Value {
    Obj([("colors", Obj(colors)), ("typography", Obj([])), ("effects", Obj([]))])
  }

  /** `payload.get("colors")` on a normalised document, `None` elsewhere. */
  function ColorsOf(doc: Value): Value {
    if doc.Obj? then GetOr(doc.fields, "colors", Null) else Null
  }

  // ---------------------------------------------------------------------------
  // The MCP export (`parse_figma_mcp_variables_payload`)

  /** A payload that already carries a `colors` dict is passed through. */
  predicate AlreadyNormalized(fs: Fields) {
    Get(fs, "colors").Some? && Get(fs, "colors").value.Obj?
  }

  /** The entries of a flat `variables` map that hold hex colours, renamed and
      in map order: the assignments the loop performs. */
  function HexVariablePairs(vs: Fields): (ps: Fields)
    ensures |ps| <= |vs|
  {
    if vs == [] then []
    else (if IsHexColor(vs[0].1) then [(InferColorName(vs[0].0), vs[0].1)] else []) + HexVariablePairs(vs[1..])
  }

  /** Every assignment comes from an entry with a hex-colour value. */
  lemma {:induction false} HexPairSound(vs: Fields, j: nat)
    requires j < |HexVariablePairs(vs)|
    ensures var p := HexVariablePairs(vs)[j];
      IsHexColor(p.1) && exists i :: 0 <= i < |vs| && vs[i].1 == p.1 && InferColorName(vs[i].0) == p.0
  {
    var head := if IsHexColor(vs[0].1) then [(InferColorName(vs[0].0), vs[0].1)] else [];
    if j >= |head| {
      HexPairSound(vs[1..], j - |head|);
      var p := HexVariablePairs(vs)[j];
      assert p == HexVariablePairs(vs[1..])[j - |head|];
      var i :| 0 <= i < |vs[1..]| && vs[1..][i].1 == p.1 && InferColorName(vs[1..][i].0) == p.0;
      assert vs[i + 1] == vs[1..][i];
    }
  }

  /** Every entry with a hex-colour value is assigned under its renamed key. */
  lemma {:induction false} HexPairComplete(vs: Fields, i: nat)
    requires i < |vs| && IsHexColor(vs[i].1)
    ensures exists j :: 0 <= j < |HexVariablePairs(vs)| && HexVariablePairs(vs)[j] == (InferColorName(vs[i].0), vs[i].1)
  {
    var head := if IsHexColor(vs[0].1) then [(InferColorName(vs[0].0), vs[0].1)] else [];
    if i == 0 {
      assert HexVariablePairs(vs)[0] == (InferColorName(vs[0].0), vs[0].1);
    } else {
      HexPairComplete(vs[1..], i - 1);
      var j :| 0 <= j < |HexVariablePairs(vs[1..])| && HexVariablePairs(vs[1..])[j] == (InferColorName(vs[i].0), vs[i].1);
      assert HexVariablePairs(vs)[j + |head|] == HexVariablePairs(vs[1..])[j];
    }
  }

  /** What `for var in collection.get("variables", [])` visits. Iterating a dict
      or a string visits keys or characters, whose `.get` then fails, so only
      empty ones get through; other scalars are not iterable. */
  function VariableItems(node: Value): (r: Result<seq<Value>>)
    ensures node.Arr? ==> r == Ok(node.items)
    ensures node.Null? || node.Bool? || node.Num? ==> r == Err(TypeError)
  {
    match node
    case Arr(items) => Ok(items)
    case Obj(fs) => if fs == [] then Ok([]) else Err(AttributeError)
    case Str(s) => if s == "" then Ok([]) else Err(AttributeError)
    case _ => Err(TypeError)
  }

  /** A mode value with all three colour channels. */
  predicate HasChannels(m: Fields) {
    "r" in Keys(m) && "g" in Keys(m) && "b" in Keys(m)
  }

  /** The inline conversion of a mode value: `m["r"]`, `m["g"]`, `m["b"]` and
      `m.get("a", 1.0)`, each through `float`. */
  function ModeHex(m: Fields): (r: Result<string>)
    requires HasChannels(m)
    ensures r.Ok? ==> |r.value| >= 7 && r.value[0] == '#'
  {
    var red :- ToFloat(Get(m, "r").value);
    var green :- ToFloat(Get(m, "g").value);
    var blue :- ToFloat(Get(m, "b").value);
    var alpha :- ToFloat(GetOr(m, "a", Num(1.0)));
    Ok(FormatChannels(red, green, blue, alpha))
  }

  /** The inline conversion agrees with `rgba_dict_to_hex` whenever the three
      channels are present. */
  lemma ModeHexAgrees(m: Fields)
    requires HasChannels(m)
    ensures ModeHex(m) == RgbaDictToHex(Obj(m))
  {
    assert ChannelValue(m, "r", 0.0) == ToFloat(Get(m, "r").value) by {
      assert GetOr(m, "r", Num(0.0)) == Get(m, "r").value;
    }
    assert ChannelValue(m, "g", 0.0) == ToFloat(Get(m, "g").value) by {
      assert GetOr(m, "g", Num(0.0)) == Get(m, "g").value;
    }
    assert ChannelValue(m, "b", 0.0) == ToFloat(Get(m, "b").value) by {
      assert GetOr(m, "b", Num(0.0)) == Get(m, "b").value;
    }
    var red, green, blue := ChannelValue(m, "r", 0.0), ChannelValue(m, "g", 0.0), ChannelValue(m, "b", 0.0);
    var alpha := ChannelValue(m, "a", 1.0);
    if red.Ok? && green.Ok? && blue.Ok? && alpha.Ok? {
      var hex := FormatChannels(red.value, green.value, blue.value, alpha.value);
      assert RgbaDictToHex(Obj(m)) == Ok(hex);
      assert ModeHex(m) == Ok(hex);
    }
  }

  /** An exported variable the conversion applies to: it has a truthy name,
      and the first value of its non-empty mode dict is a dict with channels. */
  predicate FirstModeChannels(v: Fields) {
    var modes := GetOr(v, "valuesByMode", Obj([]));
    && Truthy(GetOr(v, "name", Null)) && modes.Obj? && modes.fields != []
    && modes.fields[0].1.Obj? && HasChannels(modes.fields[0].1.fields)
  }

  /** The colour one exported variable contributes: none when it has no name,
      no non-empty mode dict, or a first mode value without channels; else
      the first mode value's hex under the name with dots made slashes. */
  function ExportedVariableColor(v: Value): (r: Result<Option<(string, Value)>>)
    ensures !v.Obj? ==> r == Err(AttributeError)
    ensures v.Obj? && !FirstModeChannels(v.fields) ==> r == Ok(None)
    ensures v.Obj? && FirstModeChannels(v.fields) ==>
      var name := GetOr(v.fields, "name", Null);
      var first := GetOr(v.fields, "valuesByMode", Obj([])).fields[0].1;
      && (r.Err? <==> RgbaDictToHex(first).Err? || !name.Str?)
      && (r.Ok? ==> r == Ok(Some((InferColorName(name.s), Str(RgbaDictToHex(first).value)))))
    ensures r.Ok? && r.value.Some? ==> v.Obj? && FirstModeChannels(v.fields)
  {
    if !v.Obj? then Err(AttributeError)
    else
      var name := GetOr(v.fields, "name", Null);
      var modes := GetOr(v.fields, "valuesByMode", Obj([]));
      if !Truthy(name) || !modes.Obj? || modes.fields == [] then Ok(None)
      else
        var first := modes.fields[0].1;
        if first.Obj? && HasChannels(first.fields) then
          ModeHexAgrees(first.fields);
          var hex :- ModeHex(first.fields);
          if name.Str? then Ok(Some((InferColorName(name.s), Str(hex)))) else Err(AttributeError)
        else Ok(None)
  }

  /** The assignments made for one collection's variables, in order. */
  function ExportedVariablesPairs(items: seq<Value>): (r: Result<Fields>)
    ensures r.Ok? ==> |r.value| <= |items|
  {
    Collect(ExportedVariableColor, items)
  }

  /** The assignments made for all collections, collection by collection. */
  function CollectionPairs(collections: seq<Value>): Result<Fields> {
    if collections == [] then Ok([])
    else
      var c := collections[0];
      if !c.Obj? then Err(AttributeError)
      else
        var items :- VariableItems(GetOr(c.fields, "variables", Arr([])));
        var here :- ExportedVariablesPairs(items);
        var rest :- CollectionPairs(collections[1..]);
        Ok(here + rest)
  }

  /** The flat-map assignments of a payload (nothing unless `variables` is a dict). */
  function FlatVariablePairs(fs: Fields): Fields {
    match GetOr(fs, "variables", Obj([]))
    case Obj(vs) => HexVariablePairs(vs)
    case _ => []
  }

  /** The collection assignments of a payload (nothing unless `collections` is a dict). */
  function CollectionPairsOf(fs: Fields): Result<Fields> {
    match GetOr(fs, "collections", Obj([]))
    case Obj(cs) => CollectionPairs(Values(cs))
    case _ => Ok([])
  }

  /** `parse_figma_mcp_variables_payload`. A payload with a `colors` dict comes
      back unchanged; otherwise flat-map colours are written first and the
      collections' colours after them, so a collection overwrites a flat entry
      of the same name, and the result is always the normalised shape. */
  function ParseMcpPayload(payload: Value): (r: Result<Value>)
    ensures payload.Obj? && AlreadyNormalized(payload.fields) ==> r == Ok(payload)
    ensures payload.Obj? && !AlreadyNormalized(payload.fields) ==>
      (r.Ok? <==> CollectionPairsOf(payload.fields).Ok?) &&
      (r.Ok? ==> r.value == Normalized(PutAll([], FlatVariablePairs(payload.fields) + CollectionPairsOf(payload.fields).value)))
    ensures !payload.Obj? ==> r.Err?
  {
    match payload
    case Obj(fs) =>
      if AlreadyNormalized(fs) then Ok(payload)
      else
        var extra :- CollectionPairsOf(fs);
        Ok(Normalized(PutAll([], FlatVariablePairs(fs) + extra)))
    case Arr(_) => Err(AttributeError)
    case Str(_) => Err(AttributeError)
    case _ => Err(TypeError)
  }

  /** In the flat-map shape a colour name is present exactly when some entry
      with a hex-colour value is renamed to it. */
  lemma FlatVariablesPresent(vs: Fields, k: string)
    ensures k in Keys(PutAll([], HexVariablePairs(vs))) <==>
      exists i :: 0 <= i < |vs| && IsHexColor(vs[i].1) && InferColorName(vs[i].0) == k
  {
    PutAllKeys([], HexVariablePairs(vs));
    assert k in Keys(PutAll([], HexVariablePairs(vs))) <==> k in Keys(HexVariablePairs(vs));
    if exists i :: 0 <= i < |vs| && IsHexColor(vs[i].1) && InferColorName(vs[i].0) == k {
      var i :| 0 <= i < |vs| && IsHexColor(vs[i].1) && InferColorName(vs[i].0) == k;
      FlatKeyFromEntry(vs, i);
    }
    if k in Keys(HexVariablePairs(vs)) {
      FlatKeyHasEntry(vs, k);
    }
  }

  /** A hex-colour entry's renamed key is among the assignments' keys. */
  lemma FlatKeyFromEntry(vs: Fields, i: nat)
    requires i < |vs| && IsHexColor(vs[i].1)
    ensures InferColorName(vs[i].0) in Keys(HexVariablePairs(vs))
  {
    var ps := HexVariablePairs(vs);
    HexPairComplete(vs, i);
    var j :| 0 <= j < |ps| && ps[j] == (InferColorName(vs[i].0), vs[i].1);
    assert Keys(ps)[j] == ps[j].0;
  }

  /** Every assignment key is the renamed key of a hex-colour entry. */
  lemma {:induction false} FlatKeyHasEntry(vs: Fields, k: string)
    requires k in Keys(HexVariablePairs(vs))
    ensures exists i :: 0 <= i < |vs| && IsHexColor(vs[i].1) && InferColorName(vs[i].0) == k
  {
    var head := if IsHexColor(vs[0].1) then [(InferColorName(vs[0].0), vs[0].1)] else [];
    KeysAppend(head, HexVariablePairs(vs[1..]));
    if k !in Keys(head) {
      FlatKeyHasEntry(vs[1..], k);
      var i :| 0 <= i < |vs[1..]| && IsHexColor(vs[1..][i].1) && InferColorName(vs[1..][i].0) == k;
      assert vs[i + 1] == vs[1..][i];
    }
  }

  /** Every kept value is the hex-colour value of an entry renamed to its key,
      not lowercased. */
  lemma FlatVariablesValue(vs: Fields, k: string)
    requires Get(PutAll([], HexVariablePairs(vs)), k).Some?
    ensures var v := Get(PutAll([], HexVariablePairs(vs)), k).value;
      IsHexColor(v) && exists i :: 0 <= i < |vs| && vs[i].1 == v && InferColorName(vs[i].0) == k
  {
    var ps := HexVariablePairs(vs);
    GetPutAll([], ps, k);
    LastForIn(ps, k);
    var v := LastFor(ps, k).value;
    var j :| 0 <= j < |ps| && ps[j] == (k, v);
    HexPairSound(vs, j);
  }

  /** The winner of last-write-wins is one of the written pairs. */
  lemma {:induction false} LastForIn<K, V>(ps: seq<(K, V)>, k: K)
    ensures LastFor(ps, k).Some? <==> k in Keys(ps)
    ensures LastFor(ps, k).Some? ==> exists j :: 0 <= j < |ps| && ps[j] == (k, LastFor(ps, k).value)
    decreases |ps|
  {
    if ps != [] {
      var n := |ps|;
      LastForIn(ps[..n - 1], k);
      assert Keys(ps) == Keys(ps[..n - 1]) + [ps[n - 1].0];
      if ps[n - 1].0 != k && LastFor(ps, k).Some? {
        var j :| 0 <= j < n - 1 && ps[..n - 1][j] == (k, LastFor(ps, k).value);
        assert ps[j] == ps[..n - 1][j];
      }
    }
  }

  /** Collections are written after the flat map: a name they produce takes
      their last value, any other name keeps the flat map's last value. */
  lemma CollectionsOverwrite(fs: Fields, k: string)
    requires !AlreadyNormalized(fs) && CollectionPairsOf(fs).Ok?
    ensures ParseMcpPayload(Obj(fs)).Ok?
    ensures var extra := CollectionPairsOf(fs).value;
      Get(ColorsOf(ParseMcpPayload(Obj(fs)).value).fields, k) ==
        if LastFor(extra, k).Some? then LastFor(extra, k) else LastFor(FlatVariablePairs(fs), k)
  {
    var extra := CollectionPairsOf(fs).value;
    GetPutAll([], FlatVariablePairs(fs) + extra, k);
    LastForAppend(FlatVariablePairs(fs), extra, k);
  }

  /** A worked flat-map example: the non-colour entry is dropped and the dot
      in the kept name becomes a slash. */
  lemma FlatMapExample()
    ensures ParseMcpPayload(Obj([("variables", Obj([("a.b", Str("#112233")), ("c.d", Str("not-a-color"))]))]))
      == Ok(Normalized([("a/b", Str("#112233"))]))
  {
    var vs := [("a.b", Str("#112233")), ("c.d", Str("not-a-color"))];
    FlatOnly(vs);
    ExamplePairs();
    assert PutAll([], [("a/b", Str("#112233"))]) == [("a/b", Str("#112233"))];
  }

  /** A payload holding only a flat `variables` dict keeps its hex entries. */
  lemma FlatOnly(vs: Fields)
    ensures ParseMcpPayload(Obj([("variables", Obj(vs))])) == Ok(Normalized(PutAll([], HexVariablePairs(vs))))
  {
    var fs := [("variables", Obj(vs))];
    assert !AlreadyNormalized(fs);
    assert CollectionPairsOf(fs) == Ok([]);
    assert FlatVariablePairs(fs) + [] == HexVariablePairs(vs);
  }

  lemma ExamplePairs()
    ensures HexVariablePairs([("a.b", Str("#112233")), ("c.d", Str("not-a-color"))]) == [("a/b", Str("#112233"))]
  {
    var vs := [("a.b", Str("#112233")), ("c.d", Str("not-a-color"))];
    assert StrictHexColor("#112233");
    assert !HexColorText("not-a-color");
    assert InferColorName("a.b") == "a/b";
    assert HexVariablePairs(vs[1..]) == [];
  }

  // ---------------------------------------------------------------------------
  // The REST payload (`parse_figma_rest_variables_payload`)

  /** `to_list_or_values`: a list as is, a dict's values, anything else empty. */
  function ToListOrValues(node: Value): (r: seq<Value>)
    ensures node.Arr? ==> r == node.items
    ensures node.Obj? ==> |r| == |node.fields| && forall i :: 0 <= i < |r| ==> r[i] == node.fields[i].1
    ensures !node.Arr? && !node.Obj? ==> r == []
  {
    match node
    case Arr(items) => items
    case Obj(fs) => Values(fs)
    case _ => []
  }

  /** A JSON value used as a dict key. Python hashes `True` like `1` and `1.0`
      like `1`, so booleans and numbers share one kind of key. */
  datatype Key = NoneKey | NumKey(n: real) | StrKey(s: string)

  /** Hashing a JSON value: lists and dicts are unhashable. */
  function KeyOf(v: Value): (r: Result<Key>)
    ensures r.Err? <==> v.Arr? || v.Obj?
  {
    match v
    case Null => Ok(NoneKey)
    case Bool(b) => Ok(NumKey(if b then 1.0 else 0.0))
    case Num(n) => Ok(NumKey(n))
    case Str(s) => Ok(StrKey(s))
    case _ => Err(TypeError)
  }

  /** The value of `payload["meta"][key]` when `meta` is a dict, listed first,
      then `payload.get(key)`. */
  function MetaThenTop(fs: Fields, key: string): seq<Value> {
    var meta := GetOr(fs, "meta", Null);
    (if meta.Obj? then [GetOr(meta.fields, key, Null)] else []) + [GetOr(fs, key, Null)]
  }

  /** All elements of the listed nodes, node by node. */
  function Elements(nodes: seq<Value>): (r: seq<Value>)
    ensures nodes == [] ==> r == []
  {
    if nodes == [] then [] else ToListOrValues(nodes[0]) + Elements(nodes[1..])
  }

  /** A collection record the index keeps: a dict with a truthy `id` and a
      truthy `defaultModeId`. */
  predicate Recorded(c: Value) {
    c.Obj? && Truthy(GetOr(c.fields, "id", Null)) && Truthy(GetOr(c.fields, "defaultModeId", Null))
  }

  /** The index assignments for a sequence of collection records: each kept
      record maps its hashed `id` to its `defaultModeId`; an unhashable id of a
      kept record raises. */
  function ModeIndexPairs(collections: seq<Value>): (r: Result<seq<(Key, Value)>>)
    ensures r.Ok? <==> forall i :: 0 <= i < |collections| && Recorded(collections[i]) ==>
      KeyOf(GetOr(collections[i].fields, "id", Null)).Ok?
    ensures r.Ok? ==> forall p :: p in r.value <==>
      exists i :: 0 <= i < |collections| && ModeIndexEntry(collections[i]) == Ok(Some(p))
    ensures r.Ok? ==> forall j :: 0 <= j < |r.value| ==> Truthy(r.value[j].1)
  {
    var r := Collect(ModeIndexEntry, collections);
    ModeIndexOk(collections);
    ModeIndexMembers(collections);
    r
  }

  lemma ModeIndexOk(collections: seq<Value>)
    ensures Collect(ModeIndexEntry, collections).Ok? <==> forall i :: 0 <= i < |collections| && Recorded(collections[i]) ==>
      KeyOf(GetOr(collections[i].fields, "id", Null)).Ok?
  {
    forall i | 0 <= i < |collections|
      ensures ModeIndexEntry(collections[i]).Ok? <==>
        (Recorded(collections[i]) ==> KeyOf(GetOr(collections[i].fields, "id", Null)).Ok?)
    {
    }
  }

  lemma ModeIndexMembers(collections: seq<Value>)
    ensures Collect(ModeIndexEntry, collections).Ok? ==> var r := Collect(ModeIndexEntry, collections).value;
      && (forall p :: p in r <==> exists i :: 0 <= i < |collections| && ModeIndexEntry(collections[i]) == Ok(Some(p)))
      && (forall j :: 0 <= j < |r| ==> Truthy(r[j].1))
  {
    if Collect(ModeIndexEntry, collections).Ok? {
      ModeIndexMembersOk(collections);
    }
  }

  lemma ModeIndexMembersOk(collections: seq<Value>)
    requires Collect(ModeIndexEntry, collections).Ok?
    ensures var r := Collect(ModeIndexEntry, collections).value;
      && (forall p :: p in r <==> exists i :: 0 <= i < |collections| && ModeIndexEntry(collections[i]) == Ok(Some(p)))
      && (forall j :: 0 <= j < |r| ==> Truthy(r[j].1))
  {
    var r := Collect(ModeIndexEntry, collections).value;
    forall p | p in r
      ensures exists i :: 0 <= i < |collections| && ModeIndexEntry(collections[i]) == Ok(Some(p))
    {
      CollectMember(ModeIndexEntry, collections, p);
    }
    forall i | 0 <= i < |collections| && ModeIndexEntry(collections[i]).Ok? && ModeIndexEntry(collections[i]).value.Some?
      ensures ModeIndexEntry(collections[i]).value.value in r
    {
      CollectComplete(ModeIndexEntry, collections, i);
    }
    forall j | 0 <= j < |r|
      ensures Truthy(r[j].1)
    {
      CollectMember(ModeIndexEntry, collections, r[j]);
    }
  }

  /** One collection record's assignment: none unless the record is kept;
      then its hashed `id` and its `defaultModeId`, or the hashing error. */
  function ModeIndexEntry(c: Value): (r: Result<Option<(Key, Value)>>)
    ensures !Recorded(c) ==> r == Ok(None)
    ensures Recorded(c) ==> var id := GetOr(c.fields, "id", Null);
      && (r.Err? <==> id.Arr? || id.Obj?)
      && (r.Ok? ==> r == Ok(Some((KeyOf(id).value, GetOr(c.fields, "defaultModeId", Null)))))
    ensures r.Ok? && r.value.Some? ==> Truthy(r.value.value.1)
  {
    if !c.Obj? then Ok(None)
    else
      var id := GetOr(c.fields, "id", Null);
      var mode := GetOr(c.fields, "defaultModeId", Null);
      if Truthy(id) && Truthy(mode) then
        var key :- KeyOf(id);
        Ok(Some((key, mode)))
      else Ok(None)
  }

  /** A single record contributes its own assignment, or nothing; with
      `ModeIndexAppend` this fixes the assignments and their order. */
  lemma ModeIndexOne(c: Value)
    ensures ModeIndexPairs([c]).Ok? <==> ModeIndexEntry(c).Ok?
    ensures ModeIndexEntry(c).Ok? ==>
      ModeIndexPairs([c]).value == (if ModeIndexEntry(c).value.Some? then [ModeIndexEntry(c).value.value] else [])
  {
    CollectOne(ModeIndexEntry, c);
  }

  /** `extract_default_mode_by_collection`: collection id to default mode id,
      from `meta.variableCollections` and then the top-level list. */
  function DefaultModes(fs: Fields): (r: Result<seq<(Key, Value)>>)
    ensures r.Ok? <==> forall c :: c in Elements(MetaThenTop(fs, "variableCollections")) && Recorded(c) ==>
      KeyOf(GetOr(c.fields, "id", Null)).Ok?
  {
    var cs := Elements(MetaThenTop(fs, "variableCollections"));
    var pairs :- ModeIndexPairs(cs);
    Ok(PutAll([], pairs))
  }

  /** Every id in the index maps to the default mode of some recorded
      collection with that id. */
  lemma DefaultModeSound(fs: Fields, k: Key)
    requires DefaultModes(fs).Ok? && Get(DefaultModes(fs).value, k).Some?
    ensures var cs := Elements(MetaThenTop(fs, "variableCollections"));
      exists i :: 0 <= i < |cs| && ModeIndexEntry(cs[i]) == Ok(Some((k, Get(DefaultModes(fs).value, k).value)))
  {
    DefaultModesPairs(fs);
    ModeIndexSound(Elements(MetaThenTop(fs, "variableCollections")), k);
  }

  /** A successful index is the fold of the collections' entries. */
  lemma DefaultModesPairs(fs: Fields)
    requires DefaultModes(fs).Ok?
    ensures var cs := Elements(MetaThenTop(fs, "variableCollections"));
      ModeIndexPairs(cs).Ok? && DefaultModes(fs).value == PutAll([], ModeIndexPairs(cs).value)
  {
  }

  lemma ModeIndexSound(cs: seq<Value>, k: Key)
    requires ModeIndexPairs(cs).Ok? && Get(PutAll([], ModeIndexPairs(cs).value), k).Some?
    ensures exists i :: 0 <= i < |cs| && ModeIndexEntry(cs[i]) == Ok(Some((k, Get(PutAll([], ModeIndexPairs(cs).value), k).value)))
  {
    var pairs := ModeIndexPairs(cs).value;
    GetPutAll([], pairs, k);
    LastForIn(pairs, k);
    var j :| 0 <= j < |pairs| && pairs[j] == (k, LastFor(pairs, k).value);
    CollectMember(ModeIndexEntry, cs, pairs[j]);
  }

  /** Every recorded collection's id is in the index. */
  lemma DefaultModeComplete(fs: Fields, i: nat)
    requires DefaultModes(fs).Ok?
    ensures var cs := Elements(MetaThenTop(fs, "variableCollections"));
      i < |cs| && Recorded(cs[i]) ==>
        Get(DefaultModes(fs).value, KeyOf(GetOr(cs[i].fields, "id", Null)).value).Some?
  {
    var cs := Elements(MetaThenTop(fs, "variableCollections"));
    var pairs := ModeIndexPairs(cs).value;
    if i < |cs| && Recorded(cs[i]) {
      var p := ModeIndexEntry(cs[i]).value.value;
      assert p in pairs;
      var j :| 0 <= j < |pairs| && pairs[j] == p;
      assert Keys(pairs)[j] == p.0;
      LastForIn(pairs, p.0);
      GetPutAll([], pairs, p.0);
    }
  }

  /** `pick_variable_value`: the default mode's value when the variable's
      collection names a default mode present among its modes, else the first
      mode's value; nothing without a non-empty mode dict. */
  function PickVariableValue(v: Fields, index: seq<(Key, Value)>): (r: Result<Option<Value>>)
    ensures var modes := GetOr(v, "valuesByMode", Null);
      && (!modes.Obj? || modes.fields == [] ==> r == Ok(None))
      && (r.Ok? && r.value.Some? ==> modes.Obj? && r.value.value in Values(modes.fields))
    ensures var modes := GetOr(v, "valuesByMode", Null);
      var key := KeyOf(GetOr(v, "variableCollectionId", Null));
      modes.Obj? && modes.fields != [] ==>
        && (key.Err? ==> r == Err(TypeError))
        && (key.Ok? ==> var preferred := Get(index, key.value);
              && (preferred.None? || !Truthy(preferred.value) ==> r == Ok(Some(modes.fields[0].1)))
              && (preferred.Some? && Truthy(preferred.value) ==>
                    && (preferred.value.Arr? || preferred.value.Obj? ==> r == Err(TypeError))
                    && (preferred.value.Str? && preferred.value.s in Keys(modes.fields) ==>
                          r == Ok(Some(Get(modes.fields, preferred.value.s).value)))
                    && (!preferred.value.Arr? && !preferred.value.Obj? &&
                        !(preferred.value.Str? && preferred.value.s in Keys(modes.fields)) ==>
                          r == Ok(Some(modes.fields[0].1)))))
  {
    var modes := GetOr(v, "valuesByMode", Null);
    if !modes.Obj? || modes.fields == [] then Ok(None)
    else
      var first := modes.fields[0].1;
      assert Values(modes.fields)[0] == first;
      var key :- KeyOf(GetOr(v, "variableCollectionId", Null));
      match Get(index, key)
      case Some(preferred) =>
        if !Truthy(preferred) then Ok(Some(first))
        else if preferred.Arr? || preferred.Obj? then Err(TypeError)
        else if preferred.Str? && preferred.s in Keys(modes.fields) then
          var picked := Get(modes.fields, preferred.s).value;
          assert exists i :: 0 <= i < |modes.fields| && modes.fields[i] == (preferred.s, picked);
          Ok(Some(picked))
        else Ok(Some(first))
      case None => Ok(Some(first))
  }

  /** The preferred mode wins when it is present; otherwise the first mode. */
  lemma PickPreferred(v: Fields, index: seq<(Key, Value)>, id: Key, mode: string)
    requires GetOr(v, "valuesByMode", Null).Obj? && GetOr(v, "valuesByMode", Null).fields != []
    requires KeyOf(GetOr(v, "variableCollectionId", Null)) == Ok(id)
    requires Get(index, id) == Some(Str(mode)) && mode != ""
    ensures var modes := GetOr(v, "valuesByMode", Null).fields;
      PickVariableValue(v, index) ==
        Ok(Some(if mode in Keys(modes) then Get(modes, mode).value else modes[0].1))
  {
  }

  /** `str(var.get("resolvedType") or var.get("type") or "").upper() == "COLOR"`.
      Only a string can print as "COLOR" in some case, so the test is on strings. */
  predicate ColorTyped(v: Fields) {
    var t := GetOr(v, "resolvedType", Null);
    var chosen := if Truthy(t) then t else if Truthy(GetOr(v, "type", Null)) then GetOr(v, "type", Null) else Str("");
    chosen.Str? && Upper(chosen.s) == "COLOR"
  }

  /** The colour one REST variable contributes. A colour-typed variable whose
      value is a channel dict is converted; any hex-colour string value is kept
      lowercased. The name is kept verbatim; an unhashable name fails. */
  function RestVariableColor(item: Value, index: seq<(Key, Value)>): (r: Result<Option<(string, Value)>>)
    ensures r.Ok? && r.value.Some? ==>
      item.Obj? && Get(item.fields, "name") == Some(Str(r.value.value.0)) && r.value.value.1.Str?
    ensures !item.Obj? || !Truthy(GetOr(item.fields, "name", Null)) ==> r == Ok(None)
    ensures item.Obj? && Truthy(GetOr(item.fields, "name", Null)) ==>
      var x := PickVariableValue(item.fields, index);
      && (x.Err? ==> r == Err(x.error))
      && (x.Ok? && x.value.Some? && ColorTyped(item.fields) && x.value.value.Obj? ==>
            var hex := RgbaDictToHex(x.value.value);
            && (hex.Err? ==> r == Err(hex.error))
            && (hex.Ok? && GetOr(item.fields, "name", Null).Str? ==>
                  r == Ok(Some((GetOr(item.fields, "name", Null).s, Str(hex.value))))))
      && (x.Ok? && x.value.Some? && !(ColorTyped(item.fields) && x.value.value.Obj?) && IsHexColor(x.value.value) &&
          GetOr(item.fields, "name", Null).Str? ==>
            r == Ok(Some((GetOr(item.fields, "name", Null).s, Str(Lower(x.value.value.s))))))
      && (x.Ok? && (x.value.None? || (!(ColorTyped(item.fields) && x.value.value.Obj?) && !IsHexColor(x.value.value))) ==>
            r == Ok(None))
  {
    if !item.Obj? then Ok(None)
    else
      var name := GetOr(item.fields, "name", Null);
      if !Truthy(name) then Ok(None)
      else
        assert Get(item.fields, "name") == Some(name);
        var value :- PickVariableValue(item.fields, index);
        if ColorTyped(item.fields) && value.Some? && value.value.Obj? then
          var hex :- RgbaDictToHex(value.value);
          Named(name, Str(hex))
        else if value.Some? && IsHexColor(value.value) then
          Named(name, Str(Lower(value.value.s)))
        else Ok(None)
  }

  /** `colors[name] = x`: a string name is stored, a list or dict name is
      unhashable, and a numeric or boolean name has no string key to store under. */
  function Named(name: Value, x: Value): (r: Result<Option<(string, Value)>>)
    ensures name.Str? ==> r == Ok(Some((name.s, x)))
    ensures r.Ok? && r.value.Some? ==> name == Str(r.value.value.0) && r.value.value.1 == x
  {
    match name
    case Str(s) => Ok(Some((s, x)))
    case Arr(_) => Err(TypeError)
    case Obj(_) => Err(TypeError)
    case _ => Ok(None)
  }

  /** The assignments the REST loop performs, in order. */
  function RestPairs(items: seq<Value>, index: seq<(Key, Value)>): (r: Result<Fields>)
    ensures r.Ok? <==> forall i :: 0 <= i < |items| ==> RestVariableColor(items[i], index).Ok?
    ensures r.Ok? ==> |r.value| <= |items|
  {
    Collect(item => RestVariableColor(item, index), items)
  }

  /** Processing two batches one after the other makes the assignments of
      both, in order. */
  lemma RestPairsAppend(a: seq<Value>, b: seq<Value>, index: seq<(Key, Value)>)
    requires RestPairs(a + b, index).Ok?
    ensures RestPairs(a, index).Ok? && RestPairs(b, index).Ok?
    ensures RestPairs(a + b, index).value == RestPairs(a, index).value + RestPairs(b, index).value
  {
    CollectAppend(item => RestVariableColor(item, index), a, b);
  }

  /** `parse_figma_rest_variables_payload`: `meta.variables` then top-level
      `variables`, each variable resolved to one mode value; the last write
      for a name wins. */
  function ParseRestPayload(payload: Value): (r: Result<Value>)
    ensures !payload.Obj? ==> r == Err(AttributeError)
    ensures payload.Obj? ==>
      var index := DefaultModes(payload.fields);
      var items := Elements(MetaThenTop(payload.fields, "variables"));
      r.Ok? <==> index.Ok? && RestPairs(items, index.value).Ok?
    ensures r.Ok? ==> exists colors :: r.value == Normalized(colors)
  {
    if !payload.Obj? then Err(AttributeError)
    else
      var fs := payload.fields;
      var index :- DefaultModes(fs);
      var pairs :- RestPairs(Elements(MetaThenTop(fs, "variables")), index);
      Ok(Normalized(PutAll([], pairs)))
  }

  /** A successful REST parse is the fold of the variables' assignments. */
  lemma RestPayloadPairs(payload: Value)
    requires ParseRestPayload(payload).Ok?
    ensures payload.Obj? && DefaultModes(payload.fields).Ok?
    ensures var items := Elements(MetaThenTop(payload.fields, "variables"));
      var pairs := RestPairs(items, DefaultModes(payload.fields).value);
      pairs.Ok? && ColorsOf(ParseRestPayload(payload).value) == Obj(PutAll([], pairs.value))
  {
  }

  /** Every name the assignments leave holds what some item resolves to. */
  lemma RestPairsSound(items: seq<Value>, index: seq<(Key, Value)>, k: string)
    requires RestPairs(items, index).Ok?
    requires Get(PutAll([], RestPairs(items, index).value), k).Some?
    ensures var v := Get(PutAll([], RestPairs(items, index).value), k).value;
      exists i :: 0 <= i < |items| && RestVariableColor(items[i], index) == Ok(Some((k, v)))
  {
    var pairs := RestPairs(items, index).value;
    GetPutAll([], pairs, k);
    LastForIn(pairs, k);
    var v := LastFor(pairs, k).value;
    var j :| 0 <= j < |pairs| && pairs[j] == (k, v);
    CollectMember(item => RestVariableColor(item, index), items, (k, v));
  }

  /** Every item that resolves to a colour leaves a value under its name. */
  lemma RestPairsComplete(items: seq<Value>, index: seq<(Key, Value)>, i: nat)
    requires RestPairs(items, index).Ok? && i < |items|
    requires RestVariableColor(items[i], index).Ok? && RestVariableColor(items[i], index).value.Some?
    ensures Get(PutAll([], RestPairs(items, index).value), RestVariableColor(items[i], index).value.value.0).Some?
  {
    var pairs := RestPairs(items, index).value;
    var p := RestVariableColor(items[i], index).value.value;
    CollectComplete(item => RestVariableColor(item, index), items, i);
    var j :| 0 <= j < |pairs| && pairs[j] == p;
    assert Keys(pairs)[j] == p.0;
    LastForIn(pairs, p.0);
    GetPutAll([], pairs, p.0);
  }

  /** Every colour of the REST result is what some variable of the payload
      resolves to, under the collections' default modes. */
  lemma RestColorSound(payload: Value, k: string)
    requires ParseRestPayload(payload).Ok?
    requires Get(ColorsOf(ParseRestPayload(payload).value).fields, k).Some?
    ensures payload.Obj? && DefaultModes(payload.fields).Ok?
    ensures var items := Elements(MetaThenTop(payload.fields, "variables"));
      var v := Get(ColorsOf(ParseRestPayload(payload).value).fields, k).value;
      exists i :: 0 <= i < |items| && RestVariableColor(items[i], DefaultModes(payload.fields).value) == Ok(Some((k, v)))
  {
    RestPayloadPairs(payload);
    RestPairsSound(Elements(MetaThenTop(payload.fields, "variables")), DefaultModes(payload.fields).value, k);
  }

  /** Every variable that resolves to a colour leaves a colour under its name. */
  lemma RestColorComplete(payload: Value, i: nat)
    requires ParseRestPayload(payload).Ok?
    ensures payload.Obj? && DefaultModes(payload.fields).Ok?
    ensures var items := Elements(MetaThenTop(payload.fields, "variables"));
      var c := if i < |items| then RestVariableColor(items[i], DefaultModes(payload.fields).value) else Ok(None);
      c.Ok? && c.value.Some? ==> Get(ColorsOf(ParseRestPayload(payload).value).fields, c.value.value.0).Some?
  {
    RestPayloadPairs(payload);
    var items := Elements(MetaThenTop(payload.fields, "variables"));
    var index := DefaultModes(payload.fields).value;
    if i < |items| && RestVariableColor(items[i], index).Ok? && RestVariableColor(items[i], index).value.Some? {
      RestPairsComplete(items, index, i);
    }
  }

  /** With a `meta` dict, its entry's elements come first, the top level's after. */
  lemma MetaElements(fs: Fields, key: string, metaValue: Value)
    requires Get(fs, "meta").Some? && Get(fs, "meta").value.Obj?
    requires GetOr(Get(fs, "meta").value.fields, key, Null) == metaValue
    ensures Elements(MetaThenTop(fs, key)) == ToListOrValues(metaValue) + ToListOrValues(GetOr(fs, key, Null))
  {
    var top := GetOr(fs, key, Null);
    assert MetaThenTop(fs, key) == [metaValue, top];
    assert [metaValue, top][1..] == [top];
    assert Elements([top]) == ToListOrValues(top) + [];
  }

  /** Top-level `variables` overwrite `meta.variables` entries of the same name. */
  lemma TopLevelVariablesWin(fs: Fields, metaVars: Value, k: string)
    requires Get(fs, "meta").Some? && Get(fs, "meta").value.Obj?
    requires GetOr(Get(fs, "meta").value.fields, "variables", Null) == metaVars
    requires ParseRestPayload(Obj(fs)).Ok?
    ensures var index := DefaultModes(fs).value;
      var early := RestPairs(ToListOrValues(metaVars), index);
      var late := RestPairs(ToListOrValues(GetOr(fs, "variables", Null)), index);
      && early.Ok? && late.Ok?
      && Get(ColorsOf(ParseRestPayload(Obj(fs)).value).fields, k) ==
           if LastFor(late.value, k).Some? then LastFor(late.value, k) else LastFor(early.value, k)
  {
    var index := DefaultModes(fs).value;
    var a := ToListOrValues(metaVars);
    var b := ToListOrValues(GetOr(fs, "variables", Null));
    MetaElements(fs, "variables", metaVars);
    RestPairsAppend(a, b, index);
    var pairs := RestPairs(a + b, index).value;
    assert ParseRestPayload(Obj(fs)) == Ok(Normalized(PutAll([], pairs)));
    GetPutAll([], pairs, k);
    LastForAppend(RestPairs(a, index).value, RestPairs(b, index).value, k);
  }

  /** Top-level `variableCollections` override `meta`'s entry for the same id. */
  lemma TopLevelCollectionsWin(fs: Fields, metaCols: Value, id: Key)
    requires Get(fs, "meta").Some? && Get(fs, "meta").value.Obj?
    requires GetOr(Get(fs, "meta").value.fields, "variableCollections", Null) == metaCols
    requires DefaultModes(fs).Ok?
    ensures var early := ModeIndexPairs(ToListOrValues(metaCols));
      var late := ModeIndexPairs(ToListOrValues(GetOr(fs, "variableCollections", Null)));
      && early.Ok? && late.Ok?
      && Get(DefaultModes(fs).value, id) ==
           if LastFor(late.value, id).Some? then LastFor(late.value, id) else LastFor(early.value, id)
  {
    var a := ToListOrValues(metaCols);
    var b := ToListOrValues(GetOr(fs, "variableCollections", Null));
    MetaElements(fs, "variableCollections", metaCols);
    ModeIndexAppend(a, b);
    GetPutAll([], ModeIndexPairs(a + b).value, id);
    LastForAppend(ModeIndexPairs(a).value, ModeIndexPairs(b).value, id);
  }

  lemma ModeIndexAppend(a: seq<Value>, b: seq<Value>)
    requires ModeIndexPairs(a + b).Ok?
    ensures ModeIndexPairs(a).Ok? && ModeIndexPairs(b).Ok?
    ensures ModeIndexPairs(a + b).value == ModeIndexPairs(a).value + ModeIndexPairs(b).value
  {
    CollectAppend(ModeIndexEntry, a, b);
  }

}

=== FILE: pipeline.dfy ===
/** Properties that connect the stages: what the refactor step makes of the
    tree the token builder produces. */
module Pipeline {
  import opened Wrappers
  import opened Dict
  import opened Json
  import opened Text
  import opened TokenBuilder
  import opened Refactor

  // ---------------------------------------------------------------------------
  // Dark mode of the built tree

  /** The numbers the standard step names spell. */
  const StepNumbers := [50, 100, 200, 300, 400, 500, 600, 700, 800, 900]

  /** The ramp position whose light value the dark entry of step `i` takes:
      50 and 900 swap, and every other step keeps its own value (500 because
      it is its own target, the rest because their targets are not steps). */
  function RampSource(i: nat): nat {
    if i == 0 then 9 else if i == 9 then 0 else i
  }

  /** The dark entries of a standard ramp holding `vals`. */
  function DarkRamp(vals: seq<Value>): (ds: seq<Value>)
    requires |vals| == 10
    ensures |ds| == 10
  {
    seq(10, i requires 0 <= i < 10 =>
      Obj([("value", vals[RampSource(i)]),
           ("method", Str("Inverted from light mode " + TargetName(i)))]))
  }

  /** Ten empty dicts: the dark entries of roles without a 500. */
  const Empties: seq<Value> := seq(10, _ => Obj([]))

  lemma LeavesKeys(names: seq<string>, vals: seq<Value>)
    requires |names| == |vals|
    ensures Keys(Leaves(names, vals)) == names
  {
  }

  /** Every step name is a decimal numeral of its step number. */
  lemma StepParse(i: nat)
    requires i < 10
    ensures IsDigits(Steps[i]) && DecimalValue(Steps[i]) == StepNumbers[i]
  {
    var n := StepNumbers[i];
    assert Steps[i] == NatToString(n) by {
      if i == 0 { assert n == 50; }
      else if i == 1 { assert n == 100; }
      else if i == 2 { assert n == 200; }
      else if i == 3 { assert n == 300; }
      else if i == 4 { assert n == 400; }
      else if i == 5 { assert n == 500; }
      else if i == 6 { assert n == 600; }
      else if i == 7 { assert n == 700; }
      else if i == 8 { assert n == 800; }
      else { assert n == 900; }
    }
  }

  /** The name of the inverted step of step `i`: a step of the ramp only
      for 50, 500 and 900. */
  function TargetName(i: nat): string
    requires i < 10
  {
    IntToString(InvertStep(StepNumbers[i]))
  }

  lemma TargetNames(i: nat)
    requires i < 10
    ensures i == 0 ==> TargetName(i) == Steps[9]
    ensures i == 5 ==> TargetName(i) == Steps[5]
    ensures i == 9 ==> TargetName(i) == Steps[0]
    ensures i != 0 && i != 5 && i != 9 ==> TargetName(i) !in Steps
  {
    if i == 0 || i == 5 || i == 9 {
      TargetOnRamp(i);
    } else {
      TargetOffRamp(i);
    }
  }

  /** The ends and the middle of the ramp invert onto ramp steps. */
  lemma TargetOnRamp(i: nat)
    requires i == 0 || i == 5 || i == 9
    ensures TargetName(i) == Steps[RampSource(i)]
  {
    var n := InvertStep(StepNumbers[i]);
    if i == 0 {
      assert n == 900;
      assert IntToString(n) == Steps[9];
    } else if i == 5 {
      assert n == 500;
      assert IntToString(n) == Steps[5];
    } else {
      assert n == 50;
      assert IntToString(n) == Steps[0];
    }
  }

  /** Every other step inverts to a number that names no step. */
  lemma TargetOffRamp(i: nat)
    requires i < 10 && i != 0 && i != 5 && i != 9
    ensures TargetName(i) !in Steps
  {
    var t := TargetName(i);
    var n := InvertStep(StepNumbers[i]);
    assert 50 <= n && IsDigits(t) && DecimalValue(t) == n;
    forall j | 0 <= j < 10
      ensures t != Steps[j]
    {
      StepParse(j);
    }
  }

  /** Looking the inverted step up in a standard ramp. */
  lemma TargetLookup(vals: seq<Value>, i: nat)
    requires |vals| == 10 && i < 10
    ensures Get(Leaves(Steps, vals), TargetName(i)) ==
      if i == 0 || i == 5 || i == 9 then Some(Leaf(vals[RampSource(i)])) else None
  {
    var fs := Leaves(Steps, vals);
    LeavesKeys(Steps, vals);
    NamesDistinct();
    TargetNames(i);
    if i == 0 || i == 5 || i == 9 {
      GetFirst(fs, RampSource(i), TargetName(i));
    }
  }

  /** The dark entry of one step of a standard ramp. */
  lemma RampStep(vals: seq<Value>, i: nat)
    requires |vals| == 10 && i < 10
    ensures DarkStep(Leaves(Steps, vals), Steps[i], Leaf(vals[i])) == Ok(DarkRamp(vals)[i])
  {
    StepParse(i);
    TargetLookup(vals, i);
    var r := DarkStep(Leaves(Steps, vals), Steps[i], Leaf(vals[i]));
    assert r.Ok?;
    var fs := r.value.fields;
    assert fs == [fs[0], fs[1]];
  }

  /** DarkSteps succeeds with the given entries when every single step does. */
  lemma {:induction false} DarkStepsOf(scales: Fields, steps: Fields, ds: seq<Value>)
    requires |ds| == |steps|
    requires forall i :: 0 <= i < |steps| ==> DarkStep(scales, steps[i].0, steps[i].1) == Ok(ds[i])
    ensures DarkSteps(scales, steps) == Ok(Zip(Keys(steps), ds))
  {
    if steps != [] {
      forall i | 0 <= i < |steps[1..]|
        ensures DarkStep(scales, steps[1..][i].0, steps[1..][i].1) == Ok(ds[1..][i])
      {
        assert steps[1..][i] == steps[i + 1];
      }
      DarkStepsOf(scales, steps[1..], ds[1..]);
      ZipKeysCons(steps, ds);
    }
  }

  /** DarkRoles succeeds with the given entries when every single role does. */
  lemma {:induction false} DarkRolesOf(roles: Fields, ds: seq<Value>)
    requires |ds| == |roles|
    requires forall i :: 0 <= i < |roles| ==> DarkRole(roles[i].1) == Ok(ds[i])
    ensures DarkRoles(roles) == Ok(Zip(Keys(roles), ds))
  {
    if roles != [] {
      forall i | 0 <= i < |roles[1..]|
        ensures DarkRole(roles[1..][i].1) == Ok(ds[1..][i])
      {
        assert roles[1..][i] == roles[i + 1];
      }
      DarkRolesOf(roles[1..], ds[1..]);
      ZipKeysCons(roles, ds);
    }
  }

  /** A standard ramp that has a 500 swaps 50 and 900, keeps 500, and keeps
      every other step's own value, naming the inverted step each time. */
  lemma RampInversion(vals: seq<Value>)
    requires |vals| == 10
    ensures DarkRole(Obj(Leaves(Steps, vals))) == Ok(Obj(Zip(Steps, DarkRamp(vals))))
  {
    var fs := Leaves(Steps, vals);
    NamesDistinct();
    LeavesKeys(Steps, vals);
    GetFirst(fs, 5, "500");
    forall i | 0 <= i < 10
      ensures DarkStep(fs, fs[i].0, fs[i].1) == Ok(DarkRamp(vals)[i])
    {
      RampStep(vals, i);
    }
    DarkStepsOf(fs, fs, DarkRamp(vals));
  }

  /** Every step of a ramp, taken as a role, lacks a 500 and becomes `{}`. */
  lemma NeutralRoles(vals: seq<Value>)
    requires |vals| == 10
    ensures DarkRoles(Leaves(Steps, vals)) == Ok(Zip(Steps, Empties))
  {
    var fs := Leaves(Steps, vals);
    LeavesKeys(Steps, vals);
    forall i | 0 <= i < 10
      ensures DarkRole(fs[i].1) == Ok(Empties[i])
    {
      assert Has500(Leaf(vals[i])) == Ok(false);
    }
    DarkRolesOf(fs, Empties);
  }

  /** The `color` section of the built tree. */
  lemma TreeColor(o: Overrides)
    ensures GetOr(Tree(o).fields, "tokens", Obj([])) == Obj(ProposedTokens(o))
    ensures GetOr(ProposedTokens(o), "color", Obj([])) == ColorSection(o.primary)
  {
    GetFirst(ProposedTokens(o), 0, "color");
  }

  lemma OneRole(k: string, v: Value, d: Value)
    requires DarkRole(v) == Ok(d)
    ensures DarkRoles([(k, v)]) == Ok([(k, d)])
  {
    var roles := [(k, v)];
    assert roles[1..] == [];
    assert [(roles[0].0, d)] + [] == [(k, d)];
  }

  lemma ConsCategory(k: string, r: Fields, d: Fields, rest: Fields, drest: Fields)
    requires DarkRoles(r) == Ok(d) && DarkCategories(rest) == Ok(drest)
    ensures DarkCategories([(k, Obj(r))] + rest) == Ok([(k, Obj(d))] + drest)
  {
    var cats := [(k, Obj(r))] + rest;
    assert cats[0] == (k, Obj(r));
    assert cats[1..] == rest;
  }

  /** Two categories whose roles all succeed. */
  lemma TwoCategories(k1: string, r1: Fields, d1: Fields, k2: string, r2: Fields, d2: Fields)
    requires DarkRoles(r1) == Ok(d1) && DarkRoles(r2) == Ok(d2)
    ensures DarkCategories([(k1, Obj(r1)), (k2, Obj(r2))]) == Ok([(k1, Obj(d1)), (k2, Obj(d2))])
  {
    var none: Fields := [];
    ConsCategory(k2, r2, d2, none, none);
    assert [(k2, Obj(r2))] + none == [(k2, Obj(r2))];
    assert [(k2, Obj(d2))] + none == [(k2, Obj(d2))];
    ConsCategory(k1, r1, d1, [(k2, Obj(r2))], [(k2, Obj(d2))]);
    assert [(k1, Obj(r1))] + [(k2, Obj(r2))] == [(k1, Obj(r1)), (k2, Obj(r2))];
    assert [(k1, Obj(d1))] + [(k2, Obj(d2))] == [(k1, Obj(d1)), (k2, Obj(d2))];
  }

  /** The dark categories of a `color` section with a brand ramp `ramp`
      and a neutral ramp `neutral`. */
  lemma ColorDark(ramp: seq<Value>, neutral: seq<Value>)
    requires |ramp| == 10 && |neutral| == 10
    ensures DarkCategories([("brand", Obj([("primary", Obj(Leaves(Steps, ramp)))])),
                            ("neutral", Obj(Leaves(Steps, neutral)))]) ==
      Ok([("brand", Obj([("primary", Obj(Zip(Steps, DarkRamp(ramp))))])),
          ("neutral", Obj(Zip(Steps, Empties)))])
  {
    var light := Obj(Leaves(Steps, ramp));
    var dark := Obj(Zip(Steps, DarkRamp(ramp)));
    RampInversion(ramp);
    OneRole("primary", light, dark);
    NeutralRoles(neutral);
    TwoCategories("brand", [("primary", light)], [("primary", dark)],
                  "neutral", Leaves(Steps, neutral), Zip(Steps, Empties));
  }

  /** The dark categories of the built `color` section. */
  lemma ColorSectionDark(primary: Value)
    ensures DarkCategories(ColorSection(primary).fields) == Ok([
      ("brand", Obj([("primary", Obj(Zip(Steps, DarkRamp(BrandRamp(primary)))))])),
      ("neutral", Obj(Zip(Steps, Empties)))])
  {
    ColorDark(BrandRamp(primary), Strs(NeutralRamp));
  }

  /** The dark palette of the built tree: `brand.primary` is the inverted
      brand ramp, and each step of the neutral ramp, being a role without a
      500, becomes an empty dict. */
  lemma BuilderDarkMode(o: Overrides)
    ensures DarkModeTokens(Tree(o)) == Ok(Obj([("color", Obj([
      ("brand", Obj([("primary", Obj(Zip(Steps, DarkRamp(BrandRamp(o.primary)))))])),
      ("neutral", Obj(Zip(Steps, Empties)))]))]))
  {
    TreeColor(o);
    ColorSectionDark(o.primary);
  }

  // ---------------------------------------------------------------------------
  // Flat tokens of the built tree

  /** The dotted names of a group of leaves under `prefix`. */
  function Dotted(prefix: string, names: seq<string>): (ns: seq<string>)
    ensures |ns| == |names| && forall i :: 0 <= i < |names| ==> ns[i] == DottedKey(prefix, names[i])
  {
    seq(|names|, i requires 0 <= i < |names| => DottedKey(prefix, names[i]))
  }

  /** The flat tokens of a group of leaves under `prefix`. */
  function Group(prefix: string, names: seq<string>, vals: seq<Value>): Fields
    requires |names| == |vals|
  {
    Zip(Dotted(prefix, names), vals)
  }

  /** Concatenation of a list of flat token lists. */
  function Concat(parts: seq<Fields>): Fields {
    if parts == [] then [] else parts[0] + Concat(parts[1..])
  }

  /** A group of leaves flattens to its dotted names and values, in order. */
  lemma {:induction false} FlattenLeaves(names: seq<string>, vals: seq<Value>, p: string)
    requires |names| == |vals|
    ensures FlattenDict(Leaves(names, vals), p) == Group(p, names, vals)
  {
    if names != [] {
      var fs := Leaves(names, vals);
      assert fs[1..] == Leaves(names[1..], vals[1..]);
      FlattenLeaves(names[1..], vals[1..], p);
      assert fs[0].1 == Obj([("value", vals[0])]);
      assert Group(p, names, vals) == [(DottedKey(p, names[0]), vals[0])] + Group(p, names[1..], vals[1..]);
    }
  }

  /** A dict entry without its own `value` flattens to its children under
      the dotted key. */
  lemma FlattenInner(k: string, sub: Fields, p: string)
    requires "value" !in Keys(sub)
    ensures FlattenDict([(k, Obj(sub))], p) == FlattenDict(sub, DottedKey(p, k))
  {
    var d := [(k, Obj(sub))];
    assert d[1..] == [];
  }

  /** A named group of leaves, flattened below a parent. */
  lemma FlattenGroup(k: string, names: seq<string>, vals: seq<Value>, p: string)
    requires |names| == |vals| && "value" !in names
    ensures FlattenDict([(k, Obj(Leaves(names, vals)))], p) == Group(DottedKey(p, k), names, vals)
  {
    LeavesKeys(names, vals);
    FlattenInner(k, Leaves(names, vals), p);
    FlattenLeaves(names, vals, DottedKey(p, k));
  }

  /** A dict flattens entry by entry. */
  lemma {:induction false} FlattenZip(names: seq<string>, vals: seq<Value>, parts: seq<Fields>, p: string)
    requires |names| == |vals| == |parts|
    requires forall i :: 0 <= i < |names| ==> FlattenDict([(names[i], vals[i])], p) == parts[i]
    ensures FlattenDict(Zip(names, vals), p) == Concat(parts)
  {
    if names != [] {
      var d := Zip(names, vals);
      assert d == [d[0]] + Zip(names[1..], vals[1..]);
      FlattenAppend([d[0]], Zip(names[1..], vals[1..]), p);
      FlattenZip(names[1..], vals[1..], parts[1..], p);
    }
  }

  lemma FlattenGroups2(p: string, k1: string, n1: seq<string>, v1: seq<Value>, k2: string, n2: seq<string>, v2: seq<Value>)
    requires |n1| == |v1| && |n2| == |v2| && "value" !in n1 && "value" !in n2
    ensures FlattenDict([(k1, Obj(Leaves(n1, v1))), (k2, Obj(Leaves(n2, v2)))], p) ==
      Group(DottedKey(p, k1), n1, v1) + Group(DottedKey(p, k2), n2, v2)
  {
    FlattenGroup(k1, n1, v1, p);
    FlattenGroup(k2, n2, v2, p);
    var e1, e2 := (k1, Obj(Leaves(n1, v1))), (k2, Obj(Leaves(n2, v2)));
    FlattenAppend([e1], [e2], p);
    assert [e1] + [e2] == [e1, e2];
  }

  lemma FlattenGroups3(p: string, k1: string, n1: seq<string>, v1: seq<Value>, k2: string, n2: seq<string>, v2: seq<Value>,
                       k3: string, n3: seq<string>, v3: seq<Value>)
    requires |n1| == |v1| && |n2| == |v2| && |n3| == |v3| && "value" !in n1 && "value" !in n2 && "value" !in n3
    ensures FlattenDict([(k1, Obj(Leaves(n1, v1))), (k2, Obj(Leaves(n2, v2))), (k3, Obj(Leaves(n3, v3)))], p) ==
      Group(DottedKey(p, k1), n1, v1) + Group(DottedKey(p, k2), n2, v2) + Group(DottedKey(p, k3), n3, v3)
  {
    FlattenGroup(k1, n1, v1, p);
    FlattenGroups2(p, k2, n2, v2, k3, n3, v3);
    var e1, e2, e3 := (k1, Obj(Leaves(n1, v1))), (k2, Obj(Leaves(n2, v2))), (k3, Obj(Leaves(n3, v3)));
    FlattenAppend([e1], [e2, e3], p);
    assert [e1] + [e2, e3] == [e1, e2, e3];
  }

  /** The flat tokens of each top-level section of the built tree. */
  function SectionFlats(o: Overrides): (parts: seq<Fields>)
    ensures |parts| == |SectionNames|
  {
    [Group("color.brand.primary", Steps, BrandRamp(o.primary)) + Group("color.neutral", Steps, Strs(NeutralRamp)),
     Group("background", ["primary", "surface"], [o.background, o.surface]),
     Group("text", ["primary", "secondary", "oncolor"], [o.textPrimary, o.textSecondary, o.onColor]),
     Group("border", ["default"], [o.border]),
     Group("spacing", SpacingNames, Strs(SpacingValues)),
     Group("radius", RadiusNames, Strs(RadiusValues)),
     Group("font.family", ["base"], [o.family]) + Group("font.size", FontSizeNames, Strs(FontSizeValues)) +
       Group("font.weight", FontWeightNames, Strs(FontWeightValues)),
     Group("shadow", ShadowNames, Strs(ShadowValues)),
     Group("z", ZNames, Strs(ZValues)),
     Group("motion.duration", DurationNames, Strs(DurationValues)) +
       Group("motion.easing", ["standard"], [Str("cubic-bezier(0.2, 0, 0, 1)")]),
     Group("icon", ["primary"], [o.icon])]
  }

  /** A dict holding a single group of leaves, flattened below a parent. */
  lemma FlattenNested(p: string, k: string, k2: string, names: seq<string>, vals: seq<Value>)
    requires |names| == |vals| && "value" !in names && k2 != "value"
    ensures FlattenDict([(k, Obj([(k2, Obj(Leaves(names, vals)))]))], p) ==
      Group(DottedKey(DottedKey(p, k), k2), names, vals)
  {
    FlattenInner(k, [(k2, Obj(Leaves(names, vals)))], p);
    FlattenGroup(k2, names, vals, DottedKey(p, k));
  }

  lemma ColorFlat(ramp: seq<Value>, neutral: seq<Value>)
    requires |ramp| == 10 && |neutral| == 10
    ensures FlattenDict([("color", Obj([("brand", Obj([("primary", Obj(Leaves(Steps, ramp)))])),
                                        ("neutral", Obj(Leaves(Steps, neutral)))]))], "") ==
      Group("color.brand.primary", Steps, ramp) + Group("color.neutral", Steps, neutral)
  {
    var e1 := ("brand", Obj([("primary", Obj(Leaves(Steps, ramp)))]));
    var e2 := ("neutral", Obj(Leaves(Steps, neutral)));
    assert "value" !in Steps;
    FlattenInner("color", [e1, e2], "");
    FlattenAppend([e1], [e2], "color");
    assert [e1] + [e2] == [e1, e2];
    FlattenNested("color", "brand", "primary", Steps, ramp);
    FlattenGroup("neutral", Steps, neutral, "color");
    assert DottedKey("", "color") == "color";
    assert DottedKey(DottedKey("color", "brand"), "primary") == "color.brand.primary";
    assert DottedKey("color", "neutral") == "color.neutral";
  }

  /** A top-level section of leaves. */
  lemma TopGroup(k: string, names: seq<string>, vals: seq<Value>)
    requires |names| == |vals| && "value" !in names
    ensures FlattenDict([(k, Obj(Leaves(names, vals)))], "") == Group(k, names, vals)
  {
    FlattenGroup(k, names, vals, "");
  }

  lemma FontFlat(family: Value)
    ensures FlattenDict([("font", FontSection(family))], "") ==
      Group("font.family", ["base"], [family]) + Group("font.size", FontSizeNames, Strs(FontSizeValues)) +
      Group("font.weight", FontWeightNames, Strs(FontWeightValues))
  {
    assert "value" !in FontSizeNames && "value" !in FontWeightNames;
    FlattenInner("font", FontSection(family).fields, "");
    FlattenGroups3("font", "family", ["base"], [family], "size", FontSizeNames, Strs(FontSizeValues),
                   "weight", FontWeightNames, Strs(FontWeightValues));
    assert DottedKey("font", "family") == "font.family";
    assert DottedKey("font", "size") == "font.size";
    assert DottedKey("font", "weight") == "font.weight";
  }

  lemma MotionFlat()
    ensures FlattenDict([("motion", MotionSection())], "") ==
      Group("motion.duration", DurationNames, Strs(DurationValues)) +
      Group("motion.easing", ["standard"], [Str("cubic-bezier(0.2, 0, 0, 1)")])
  {
    assert "value" !in DurationNames;
    FlattenInner("motion", MotionSection().fields, "");
    FlattenGroups2("motion", "duration", DurationNames, Strs(DurationValues),
                   "easing", ["standard"], [Str("cubic-bezier(0.2, 0, 0, 1)")]);
    assert DottedKey("motion", "duration") == "motion.duration";
    assert DottedKey("motion", "easing") == "motion.easing";
  }

  /** Each top-level section flattens to its groups. */
  lemma SectionFlat(o: Overrides, i: nat)
    requires i < |SectionNames|
    ensures FlattenDict([(SectionNames[i], SectionValues(o)[i])], "") == SectionFlats(o)[i]
  {
    var k, v, part := SectionNames[i], SectionValues(o)[i], SectionFlats(o)[i];
    if i == 0 {
      assert k == "color" && v == ColorSection(o.primary);
      ColorFlat(BrandRamp(o.primary), Strs(NeutralRamp));
      assert FlattenDict([(k, v)], "") == part;
    } else if i == 1 {
      assert k == "background" && v == Obj(Leaves(["primary", "surface"], [o.background, o.surface]));
      TopGroup("background", ["primary", "surface"], [o.background, o.surface]);
      assert FlattenDict([(k, v)], "") == part;
    } else if i == 2 {
      assert k == "text" && v == Obj(Leaves(["primary", "secondary", "oncolor"], [o.textPrimary, o.textSecondary, o.onColor]));
      TopGroup("text", ["primary", "secondary", "oncolor"], [o.textPrimary, o.textSecondary, o.onColor]);
      assert FlattenDict([(k, v)], "") == part;
    } else if i == 3 {
      assert k == "border" && v == Obj(Leaves(["default"], [o.border]));
      TopGroup("border", ["default"], [o.border]);
      assert FlattenDict([(k, v)], "") == part;
    } else if i == 4 {
      assert k == "spacing" && v == Obj(Leaves(SpacingNames, Strs(SpacingValues)));
      assert "value" !in SpacingNames;
      TopGroup("spacing", SpacingNames, Strs(SpacingValues));
      assert FlattenDict([(k, v)], "") == part;
    } else if i == 5 {
      assert k == "radius" && v == Obj(Leaves(RadiusNames, Strs(RadiusValues)));
      assert "value" !in RadiusNames;
      TopGroup("radius", RadiusNames, Strs(RadiusValues));
      assert FlattenDict([(k, v)], "") == part;
    } else if i == 6 {
      assert k == "font" && v == FontSection(o.family);
      FontFlat(o.family);
      assert FlattenDict([(k, v)], "") == part;
    } else if i == 7 {
      assert k == "shadow" && v == Obj(Leaves(ShadowNames, Strs(ShadowValues)));
      assert "value" !in ShadowNames;
      TopGroup("shadow", ShadowNames, Strs(ShadowValues));
      assert FlattenDict([(k, v)], "") == part;
    } else if i == 8 {
      assert k == "z" && v == Obj(Leaves(ZNames, Strs(ZValues)));
      assert "value" !in ZNames;
      TopGroup("z", ZNames, Strs(ZValues));
      assert FlattenDict([(k, v)], "") == part;
    } else if i == 9 {
      assert k == "motion" && v == MotionSection();
      MotionFlat();
      assert FlattenDict([(k, v)], "") == part;
    } else {
      assert k == "icon" && v == Obj(Leaves(["primary"], [o.icon]));
      TopGroup("icon", ["primary"], [o.icon]);
      assert FlattenDict([(k, v)], "") == part;
    }
  }

  /** The built `tokens` object flattens to its sections' groups, in
      section order. */
  lemma BuilderFlat(o: Overrides)
    ensures FlattenDict(ProposedTokens(o), "") == Concat(SectionFlats(o))
  {
    forall i | 0 <= i < |SectionNames|
      ensures FlattenDict([(SectionNames[i], SectionValues(o)[i])], "") == SectionFlats(o)[i]
    {
      SectionFlat(o, i);
    }
    FlattenZip(SectionNames, SectionValues(o), SectionFlats(o), "");
  }

  /** Lists of flat token lists whose members pairwise share their names. */
  predicate SameNames(a: seq<Fields>, b: seq<Fields>) {
    |a| == |b| && forall i :: 0 <= i < |a| ==> Keys(a[i]) == Keys(b[i])
  }

  lemma {:induction false} ConcatNames(a: seq<Fields>, b: seq<Fields>)
    requires SameNames(a, b)
    ensures Keys(Concat(a)) == Keys(Concat(b))
    ensures |Concat(a)| == |Concat(b)|
  {
    if a != [] {
      ConcatNames(a[1..], b[1..]);
      KeysAppend(a[0], Concat(a[1..]));
      KeysAppend(b[0], Concat(b[1..]));
    }
  }

  lemma KeysGroup(p: string, names: seq<string>, vals: seq<Value>)
    requires |names| == |vals|
    ensures Keys(Group(p, names, vals)) == Dotted(p, names)
  {
  }

  /** Two groups side by side carry the names of both, in order. */
  lemma KeysGroups2(p1: string, n1: seq<string>, v1: seq<Value>, p2: string, n2: seq<string>, v2: seq<Value>)
    requires |n1| == |v1| && |n2| == |v2|
    ensures Keys(Group(p1, n1, v1) + Group(p2, n2, v2)) == Dotted(p1, n1) + Dotted(p2, n2)
  {
    KeysAppend(Group(p1, n1, v1), Group(p2, n2, v2));
    KeysGroup(p1, n1, v1);
    KeysGroup(p2, n2, v2);
  }

  /** The names of each section's groups do not depend on the build. */
  lemma SectionKeys(o: Overrides, i: nat)
    requires i < |SectionNames|
    ensures Keys(SectionFlats(o)[i]) == SectionFlatNames[i]
  {
    if i == 0 {
      ColorSectionKeys(o);
    } else if i == 6 {
      FontSectionKeys(o);
    } else if i == 9 {
      MotionSectionKeys(o);
    } else {
      PlainSectionKeys(o, i);
    }
  }

  lemma ColorSectionKeys(o: Overrides)
    ensures Keys(SectionFlats(o)[0]) == SectionFlatNames[0]
  {
    KeysGroups2("color.brand.primary", Steps, BrandRamp(o.primary), "color.neutral", Steps, Strs(NeutralRamp));
  }

  lemma FontSectionKeys(o: Overrides)
    ensures Keys(SectionFlats(o)[6]) == SectionFlatNames[6]
  {
    var g1 := Group("font.family", ["base"], [o.family]);
    KeysGroups2("font.size", FontSizeNames, Strs(FontSizeValues), "font.weight", FontWeightNames, Strs(FontWeightValues));
    var g23 := Group("font.size", FontSizeNames, Strs(FontSizeValues)) + Group("font.weight", FontWeightNames, Strs(FontWeightValues));
    assert SectionFlats(o)[6] == g1 + g23;
    KeysAppend(g1, g23);
    KeysGroup("font.family", ["base"], [o.family]);
  }

  lemma MotionSectionKeys(o: Overrides)
    ensures Keys(SectionFlats(o)[9]) == SectionFlatNames[9]
  {
    KeysGroups2("motion.duration", DurationNames, Strs(DurationValues), "motion.easing", ["standard"], [Str("cubic-bezier(0.2, 0, 0, 1)")]);
  }

  /** The sections made of a single group. */
  lemma PlainSectionKeys(o: Overrides, i: nat)
    requires i < |SectionNames| && i != 0 && i != 6 && i != 9
    ensures Keys(SectionFlats(o)[i]) == SectionFlatNames[i]
  {
    if i == 1 || i == 2 || i == 3 || i == 10 {
      RoleSectionKeys(o, i);
    } else {
      ScaleSectionKeys(o, i);
    }
  }

  /** The single-group sections whose leaves come from the colour map. */
  lemma RoleSectionKeys(o: Overrides, i: nat)
    requires i == 1 || i == 2 || i == 3 || i == 10
    ensures Keys(SectionFlats(o)[i]) == SectionFlatNames[i]
  {
    if i == 1 {
      KeysGroup("background", ["primary", "surface"], [o.background, o.surface]);
    } else if i == 2 {
      KeysGroup("text", ["primary", "secondary", "oncolor"], [o.textPrimary, o.textSecondary, o.onColor]);
    } else if i == 3 {
      KeysGroup("border", ["default"], [o.border]);
    } else {
      KeysGroup("icon", ["primary"], [o.icon]);
    }
  }

  /** The single-group sections of fixed scales. */
  lemma ScaleSectionKeys(o: Overrides, i: nat)
    requires i == 4 || i == 5 || i == 7 || i == 8
    ensures Keys(SectionFlats(o)[i]) == SectionFlatNames[i]
  {
    if i == 4 {
      KeysGroup("spacing", SpacingNames, Strs(SpacingValues));
    } else if i == 5 {
      KeysGroup("radius", RadiusNames, Strs(RadiusValues));
    } else if i == 7 {
      KeysGroup("shadow", ShadowNames, Strs(ShadowValues));
    } else {
      KeysGroup("z", ZNames, Strs(ZValues));
    }
  }

  /** The flat names of each section. */
  const SectionFlatNames: seq<seq<string>> := [
    Dotted("color.brand.primary", Steps) + Dotted("color.neutral", Steps),
    Dotted("background", ["primary", "surface"]),
    Dotted("text", ["primary", "secondary", "oncolor"]),
    Dotted("border", ["default"]),
    Dotted("spacing", SpacingNames),
    Dotted("radius", RadiusNames),
    Dotted("font.family", ["base"]) + Dotted("font.size", FontSizeNames) + Dotted("font.weight", FontWeightNames),
    Dotted("shadow", ShadowNames),
    Dotted("z", ZNames),
    Dotted("motion.duration", DurationNames) + Dotted("motion.easing", ["standard"]),
    Dotted("icon", ["primary"])]

  /** The sections of any two builds carry the same names. */
  lemma SectionNamesFixed(o1: Overrides, o2: Overrides)
    ensures SameNames(SectionFlats(o1), SectionFlats(o2))
  {
    forall i | 0 <= i < |SectionNames|
      ensures Keys(SectionFlats(o1)[i]) == Keys(SectionFlats(o2)[i])
    {
      SectionKeys(o1, i);
      SectionKeys(o2, i);
    }
  }

  /** Every build flattens to the same 61 names in the same order; only the
      values differ. */
  lemma FlatShape(o1: Overrides, o2: Overrides)
    ensures |FlattenDict(ProposedTokens(o1), "")| == 61
    ensures Keys(FlattenDict(ProposedTokens(o1), "")) == Keys(FlattenDict(ProposedTokens(o2), ""))
  {
    BuilderFlat(o1);
    BuilderFlat(o2);
    SectionNamesFixed(o1, o2);
    ConcatNames(SectionFlats(o1), SectionFlats(o2));
    var a := SectionFlats(o1);
    forall i | 0 <= i < |a|
      ensures |a[i]| == SectionSizes[i]
    {
      SectionKeys(o1, i);
      SectionSize(i);
    }
    ConcatLen(a);
    SizesOf(a, SectionSizes);
  }

  /** How many tokens each section holds. */
  const SectionSizes: seq<nat> := [20, 2, 3, 1, 10, 6, 8, 2, 4, 4, 1]

  lemma SectionSize(i: nat)
    requires i < |SectionNames|
    ensures |SectionFlatNames[i]| == SectionSizes[i]
  {
  }

  function Sum(ns: seq<nat>): nat {
    if ns == [] then 0 else ns[0] + Sum(ns[1..])
  }

  lemma {:induction false} SizesOf(parts: seq<Fields>, ns: seq<nat>)
    requires |parts| == |ns| && forall i :: 0 <= i < |ns| ==> |parts[i]| == ns[i]
    ensures Sizes(parts) == Sum(ns)
  {
    if parts != [] {
      SizesOf(parts[1..], ns[1..]);
    }
  }

  function Sizes(parts: seq<Fields>): nat {
    if parts == [] then 0 else |parts[0]| + Sizes(parts[1..])
  }

  lemma {:induction false} ConcatLen(parts: seq<Fields>)
    ensures |Concat(parts)| == Sizes(parts)
  {
    if parts != [] {
      ConcatLen(parts[1..]);
    }
  }

  /** The sync token list of the built tree: its flat tokens, tagged. */
  lemma BuilderSyncTokens(o: Overrides)
    ensures FlatSyncTokens(Tree(o)) == Ok(Tagged(Concat(SectionFlats(o))))
  {
    TreeColor(o);
    BuilderFlat(o);
  }

  /** The group prefixes of the built tree and the tag each one earns. */
  const GroupKinds := [
    ("color.brand.primary", "color"), ("color.neutral", "color"),
    ("background", "string"), ("text", "string"), ("border", "string"),
    ("spacing", "number"), ("radius", "number"),
    ("font.family", "typography"), ("font.size", "typography"), ("font.weight", "typography"),
    ("shadow", "number"), ("z", "number"),
    ("motion.duration", "number"), ("motion.easing", "string"),
    ("icon", "string")]

  /** Each group prefix settles the type tag, and earns the listed tag. */
  lemma GroupKind(g: nat)
    requires g < |GroupKinds|
    ensures DecidesTag(GroupKinds[g].0) && TypeTag(GroupKinds[g].0) == GroupKinds[g].1
  {
    var name := GroupKinds[g].0;
    if g == 0 || g == 1 {
      assert name[..5] == "color";
      ColorKind(name);
    } else if g == 2 || g == 3 || g == 4 || g == 14 {
      PlainKind(name);
    } else if g == 13 {
      EasingKind();
    } else if g == 7 || g == 8 || g == 9 {
      assert name[..4] == "font";
      FontKind(name);
    } else if g == 5 || g == 10 {
      SpacingShadowKinds();
    } else {
      RadiusZDurationKinds();
    }
  }

  /** A name under `color` is tagged a colour. */
  lemma ColorKind(name: string)
    requires |name| >= 5 && name[..5] == "color"
    ensures DecidesTag(name) && TypeTag(name) == "color"
  {
    assert name[0] == 'c';
    DiffersAt(name, "font", 0);
    DiffersAt(name, "spacing", 0);
    DiffersAt(name, "radius", 0);
    DiffersAt(name, "z", 0);
    DiffersAt(name, "shadow", 0);
    DiffersAt(name, "motion.duration", 0);
  }

  /** A name under `font` is tagged typography. */
  lemma FontKind(name: string)
    requires |name| >= 4 && name[..4] == "font"
    ensures DecidesTag(name) && TypeTag(name) == "typography"
  {
    assert name[0] == 'f';
    DiffersAt(name, "color", 0);
    DiffersAt(name, "spacing", 0);
    DiffersAt(name, "radius", 0);
    DiffersAt(name, "z", 0);
    DiffersAt(name, "shadow", 0);
    DiffersAt(name, "motion.duration", 0);
  }

  /** A name whose first letter starts none of the tested prefixes is a plain string. */
  lemma PlainKind(name: string)
    requires name != [] && name[0] !in "fcsrzm"
    ensures DecidesTag(name) && TypeTag(name) == "string"
  {
    DiffersAt(name, "font", 0);
    DiffersAt(name, "color", 0);
    DiffersAt(name, "spacing", 0);
    DiffersAt(name, "radius", 0);
    DiffersAt(name, "z", 0);
    DiffersAt(name, "shadow", 0);
    DiffersAt(name, "motion.duration", 0);
  }

  /** `motion.easing` shares `motion.` with `motion.duration` but is a plain string. */
  lemma EasingKind()
    ensures DecidesTag("motion.easing") && TypeTag("motion.easing") == "string"
  {
    DiffersAt("motion.easing", "font", 0);
    DiffersAt("motion.easing", "color", 0);
    DiffersAt("motion.easing", "spacing", 0);
    DiffersAt("motion.easing", "radius", 0);
    DiffersAt("motion.easing", "z", 0);
    DiffersAt("motion.easing", "shadow", 0);
    DiffersAt("motion.easing", "motion.duration", 7);
  }

  /** `spacing` and `shadow`, which share their first letter, are numbers. */
  lemma SpacingShadowKinds()
    ensures DecidesTag("spacing") && TypeTag("spacing") == "number"
    ensures DecidesTag("shadow") && TypeTag("shadow") == "number"
  {
    DiffersAt("spacing", "font", 0);
    DiffersAt("spacing", "color", 0);
    assert "spacing"[..7] == "spacing";
    DiffersAt("spacing", "radius", 0);
    DiffersAt("spacing", "z", 0);
    DiffersAt("spacing", "shadow", 1);
    DiffersAt("spacing", "motion.duration", 0);
    DiffersAt("shadow", "font", 0);
    DiffersAt("shadow", "color", 0);
    DiffersAt("shadow", "radius", 0);
    DiffersAt("shadow", "z", 0);
    assert "shadow"[..6] == "shadow";
    DiffersAt("shadow", "motion.duration", 0);
  }

  /** `radius`, `z` and `motion.duration` are numbers. */
  lemma RadiusZDurationKinds()
    ensures DecidesTag("radius") && TypeTag("radius") == "number"
    ensures DecidesTag("z") && TypeTag("z") == "number"
    ensures DecidesTag("motion.duration") && TypeTag("motion.duration") == "number"
  {
    DiffersAt("radius", "font", 0);
    DiffersAt("radius", "color", 0);
    DiffersAt("radius", "spacing", 0);
    assert "radius"[..6] == "radius";
    DiffersAt("radius", "z", 0);
    DiffersAt("radius", "shadow", 0);
    DiffersAt("radius", "motion.duration", 0);
    DiffersAt("z", "font", 0);
    DiffersAt("z", "color", 0);
    DiffersAt("z", "spacing", 0);
    DiffersAt("z", "radius", 0);
    assert "z"[..1] == "z";
    DiffersAt("z", "shadow", 0);
    DiffersAt("z", "motion.duration", 0);
    DiffersAt("motion.duration", "font", 0);
    DiffersAt("motion.duration", "color", 0);
    DiffersAt("motion.duration", "spacing", 0);
    DiffersAt("motion.duration", "radius", 0);
    DiffersAt("motion.duration", "z", 0);
    DiffersAt("motion.duration", "shadow", 0);
    assert "motion.duration"[..15] == "motion.duration";
  }

  /** Every token of a group of the built tree carries its group's tag:
      `shadow` counts as a number, `motion.easing` and the background, text,
      border and icon colours as plain strings. */
  lemma GroupTags(g: nat, names: seq<string>, vals: seq<Value>)
    requires g < |GroupKinds| && |names| == |vals|
    ensures forall j :: 0 <= j < |names| ==> TypeTag(Group(GroupKinds[g].0, names, vals)[j].0) == GroupKinds[g].1
  {
    var p := GroupKinds[g].0;
    GroupKind(g);
    forall j | 0 <= j < |names|
      ensures TypeTag(Group(p, names, vals)[j].0) == GroupKinds[g].1
    {
      TypeTagOfPrefix(p, "." + names[j]);
      assert DottedKey(p, names[j]) == p + ("." + names[j]);
    }
  }
}

=== FILE: refactor.dfy ===
/** The refactor step: accessibility fixes for translucent colours, a dark
    palette obtained by inverting the light ramps, and the flat token list
    with its type tags. */
module Refactor {
  import opened Wrappers
  import opened Dict
  import opened Json
  import opened Text
  import opened ColorCodec

  // ---------------------------------------------------------------------------
  // Accessibility fixes

  /** One fix: the legacy colour and the solid colour it looks like on white. */
  datatype Fix = Fix(legacyName: string, legacyValue: string, solidHex: string)

  const FixAction := "Converted opacity hex to solid hex based on white background"

  /** `len(v)`: strings, lists and dicts have one; anything else raises. */
  function Len(v: Value): (r: Result<nat>)
    ensures r.Err? <==> !(v.Str? || v.Arr? || v.Obj?)
  {
    match v
    case Str(s) => Ok(|s|)
    case Arr(xs) => Ok(|xs|)
    case Obj(fs) => Ok(|fs|)
    case _ => Err(TypeError)
  }

  /** The values the loop fixes: nine-character strings starting with `#`. */
  predicate Translucent(v: Value) {
    v.Str? && |v.s| == 9 && v.s[0] == '#'
  }

  /** The loop body for one colour. A nine-element list or dict has no
      `startswith`; a value that does not split into four bytes fails on
      `rgba[3]` or inside `int(_, 16)`. */
  function FixFor(k: string, v: Value): (r: Result<Option<Fix>>)
    ensures r.Ok? && r.value.Some? <==> Translucent(v) && HexToRgb(v.s).Ok? && |HexToRgb(v.s).value| == 4
    ensures r.Ok? && r.value.Some? ==> r.value.value.legacyName == k && r.value.value.legacyValue == v.s
    ensures v.Str? && !Translucent(v) ==> r == Ok(None)
    ensures Translucent(v) && r.Ok? ==> r.value.Some?
  {
    var n :- Len(v);
    if n != 9 then Ok(None)
    else if !v.Str? then Err(AttributeError)
    else if v.s[0] != '#' then Ok(None)
    else
      var rgba :- HexToRgb(v.s);
      if |rgba| < 4 then Err(IndexError)
      else Ok(Some(Fix(k, v.s, OverlayOnWhite(rgba[0], rgba[1], rgba[2], rgba[3]))))
  }

  /** The translucent colours, in map order. */
  function TranslucentEntries(colors: Fields): (es: Fields)
    ensures forall j :: 0 <= j < |es| ==> Translucent(es[j].1)
  {
    if colors == [] then []
    else (if Translucent(colors[0].1) then [colors[0]] else []) + TranslucentEntries(colors[1..])
  }

  /** The fix loop over a colour map: one fix per translucent colour, in map
      order, each the loop body's fix for that colour; the first failing
      colour's exception escapes. */
  function FixesFor(colors: Fields): (r: Result<seq<Fix>>)
    ensures r.Ok? <==> forall i :: 0 <= i < |colors| ==> FixFor(colors[i].0, colors[i].1).Ok?
    ensures r.Ok? ==> |r.value| == |TranslucentEntries(colors)|
    ensures r.Ok? ==> forall j :: 0 <= j < |r.value| ==>
      FixFor(TranslucentEntries(colors)[j].0, TranslucentEntries(colors)[j].1) == Ok(Some(r.value[j]))
  {
    if colors == [] then Ok([])
    else
      var first :- FixFor(colors[0].0, colors[0].1);
      var rest :- FixesFor(colors[1..]);
      assert forall i :: 1 <= i < |colors| ==> colors[1..][i - 1] == colors[i];
      FixesStep(colors, first, rest);
      Ok((if first.Some? then [first.value] else []) + rest)
  }

  /** One step of the fix loop: the first colour's fix, if any, goes before
      the fixes of the rest, matching the translucent entries in order. */
  lemma FixesStep(colors: Fields, first: Option<Fix>, rest: seq<Fix>)
    requires colors != [] && FixFor(colors[0].0, colors[0].1) == Ok(first)
    requires |rest| == |TranslucentEntries(colors[1..])|
    requires forall j :: 0 <= j < |rest| ==>
      FixFor(TranslucentEntries(colors[1..])[j].0, TranslucentEntries(colors[1..])[j].1) == Ok(Some(rest[j]))
    ensures var fixes := (if first.Some? then [first.value] else []) + rest;
      && |fixes| == |TranslucentEntries(colors)|
      && forall j :: 0 <= j < |fixes| ==>
        FixFor(TranslucentEntries(colors)[j].0, TranslucentEntries(colors)[j].1) == Ok(Some(fixes[j]))
  {
    if first.Some? {
      FixesCons(colors, first.value, rest);
    } else {
      assert TranslucentEntries(colors) == TranslucentEntries(colors[1..]);
      assert [] + rest == rest;
    }
  }

  lemma FixesCons(colors: Fields, fix: Fix, rest: seq<Fix>)
    requires colors != [] && FixFor(colors[0].0, colors[0].1) == Ok(Some(fix))
    requires |rest| == |TranslucentEntries(colors[1..])|
    requires forall j :: 0 <= j < |rest| ==>
      FixFor(TranslucentEntries(colors[1..])[j].0, TranslucentEntries(colors[1..])[j].1) == Ok(Some(rest[j]))
    ensures |[fix] + rest| == |TranslucentEntries(colors)|
    ensures forall j :: 0 <= j < |[fix] + rest| ==>
      FixFor(TranslucentEntries(colors)[j].0, TranslucentEntries(colors)[j].1) == Ok(Some(([fix] + rest)[j]))
  {
    var te := TranslucentEntries(colors[1..]);
    var es := TranslucentEntries(colors);
    var fixes := [fix] + rest;
    assert es == [colors[0]] + te;
    forall j | 0 <= j < |fixes|
      ensures FixFor(es[j].0, es[j].1) == Ok(Some(fixes[j]))
    {
      if j > 0 {
        assert fixes[j] == rest[j - 1] && es[j] == te[j - 1];
      }
    }
  }

  /** `accessibility_fixes` for the design tokens document: the fixes of its
      `colors` dict (an absent one is empty); a non-dict document or a
      non-dict `colors` has no `.get`/`.items`. */
  function AccessibilityFixes(designTokens: Value): (r: Result<seq<Fix>>)
    ensures !designTokens.Obj? ==> r == Err(AttributeError)
    ensures designTokens.Obj? && !GetOr(designTokens.fields, "colors", Obj([])).Obj? ==> r == Err(AttributeError)
    ensures r.Ok? ==> var colors := GetOr(designTokens.fields, "colors", Obj([])).fields;
      && |r.value| == |TranslucentEntries(colors)|
      && forall j :: 0 <= j < |r.value| ==>
        FixFor(TranslucentEntries(colors)[j].0, TranslucentEntries(colors)[j].1) == Ok(Some(r.value[j]))
  {
    if !designTokens.Obj? then Err(AttributeError)
    else
      var colors := GetOr(designTokens.fields, "colors", Obj([]));
      if !colors.Obj? then Err(AttributeError) else FixesFor(colors.fields)
  }

  /** Colour maps of plain strings whose translucent entries are well-formed
      eight-digit colours never fail. */
  lemma {:induction false} FixesSucceed(colors: Fields)
    requires forall i :: 0 <= i < |colors| ==> colors[i].1.Str?
    requires forall i :: 0 <= i < |colors| && Translucent(colors[i].1) ==> StrictHexColor(colors[i].1.s)
    ensures FixesFor(colors).Ok?
  {
    if colors != [] {
      var v := colors[0].1;
      if Translucent(v) {
        RgbaOfStrict(v.s);
      }
      FixesSucceed(colors[1..]);
    }
  }

  /** The solid colour of a well-formed eight-digit colour blends each colour
      byte with white by the alpha byte: opaque gives the colour itself in
      lowercase, fully transparent gives white. */
  lemma FixOfStrict(k: string, h: string)
    requires StrictHexColor(h) && |h| == 9
    ensures FixFor(k, Str(h)).Ok? && FixFor(k, Str(h)).value.Some?
    ensures var fix := FixFor(k, Str(h)).value.value;
      && fix.solidHex == RgbToHex(OverlayChannel(ByteAt(h, 1), ByteAt(h, 7)), OverlayChannel(ByteAt(h, 3), ByteAt(h, 7)), OverlayChannel(ByteAt(h, 5), ByteAt(h, 7)))
      && (ByteAt(h, 7) == 255 ==> fix.solidHex == Lower(h[..7]))
      && (ByteAt(h, 7) == 0 ==> fix.solidHex == "#ffffff")
  {
    RgbaOfStrict(h);
    var x, y, z, w := ByteAt(h, 1), ByteAt(h, 3), ByteAt(h, 5), ByteAt(h, 7);
    var fix := FixFor(k, Str(h)).value.value;
    assert fix.solidHex == OverlayOnWhite(x, y, z, w);
    OverlayExtremes(x, y, z);
    if w == 255 {
      assert fix.solidHex == Lower(h[..7]) by {
        OpaquePrefix(h);
      }
    }
  }

  /** The first seven characters of an eight-digit colour, read and written
      back, are the six-digit colour in lowercase. */
  lemma OpaquePrefix(h: string)
    requires StrictHexColor(h) && |h| == 9
    ensures RgbToHex(ByteAt(h, 1), ByteAt(h, 3), ByteAt(h, 5)) == Lower(h[..7])
  {
    var h7 := h[..7];
    assert StrictHexColor(h7);
    assert ByteAt(h7, 1) == ByteAt(h, 1) && ByteAt(h7, 3) == ByteAt(h, 3) && ByteAt(h7, 5) == ByteAt(h, 5);
    RgbOfStrict(h7);
  }

  // ---------------------------------------------------------------------------
  // Dark mode

  /** The step a numeric step takes its dark value from: `950 - n`, except
      that 50 maps to 900 and a computed 450 becomes 500. */
  function InvertStep(n: int): (m: int)
    ensures n == 50 ==> m == 900
    ensures n == 500 ==> m == 500
    ensures n != 50 && n != 500 ==> m == 950 - n
  {
    var m := if n != 50 then 950 - n else 900;
    if m == 450 then 500 else m
  }

  /** Inverting twice comes back, except for 450, which lands on 500. */
  lemma InvertInvolution(n: int)
    ensures n != 450 ==> InvertStep(InvertStep(n)) == n
    ensures InvertStep(InvertStep(450)) == 500
  {
  }

  const PassthroughMethod := "Direct passthrough for non-numeric scales (requires manual tuning)"

  /** `"500" in scales`: a key of a dict, a substring of a string, an element
      of a list; other values are not iterable. */
  function Has500(scales: Value): (r: Result<bool>)
    ensures scales.Obj? ==> r == Ok("500" in Keys(scales.fields))
    ensures scales.Null? || scales.Bool? || scales.Num? ==> r == Err(TypeError)
  {
    match scales
    case Obj(fs) => Ok(Get(fs, "500").Some?)
    case Str(s) => Ok(Contains(s, "500"))
    case Arr(xs) => Ok(Str("500") in xs)
    case _ => Err(TypeError)
  }

  /** `x["value"]`: a dict without the key raises `KeyError`, a non-dict `TypeError`. */
  function ValueOf(x: Value): (r: Result<Value>)
    ensures x.Obj? && Get(x.fields, "value").Some? ==> r == Ok(Get(x.fields, "value").value)
    ensures x.Obj? && Get(x.fields, "value").None? ==> r == Err(KeyError)
    ensures !x.Obj? ==> r == Err(TypeError)
  {
    if !x.Obj? then Err(TypeError)
    else match Get(x.fields, "value")
      case Some(v) => Ok(v)
      case None => Err(KeyError)
  }

  /** The dark entry of one step of a ramp that has a 500. A numeric step
      takes the value of its inverted step when the ramp has it, else its own;
      the method names the inverted step either way. */
  function DarkStep(scales: Fields, step: string, data: Value): (r: Result<Value>)
    ensures r.Ok? ==> r.value.Obj? && Keys(r.value.fields) == ["value", "method"]
    ensures r.Ok? && IsDigits(step) ==>
      r.value.fields[1].1 == Str("Inverted from light mode " + IntToString(InvertStep(DecimalValue(step))))
    ensures r.Ok? && !IsDigits(step) ==> r.value.fields[1].1 == Str(PassthroughMethod)
    ensures IsDigits(step) ==> var t := Get(scales, IntToString(InvertStep(DecimalValue(step))));
      (t.Some? ==> r.Ok? == ValueOf(t.value).Ok? && (r.Ok? ==> r.value.fields[0].1 == ValueOf(t.value).value)) &&
      (t.None? ==> r.Ok? == ValueOf(data).Ok? && (r.Ok? ==> r.value.fields[0].1 == ValueOf(data).value))
    ensures !IsDigits(step) ==> r.Ok? == ValueOf(data).Ok? && (r.Ok? ==> r.value.fields[0].1 == ValueOf(data).value)
  {
    if IsDigits(step) then
      var target := InvertStep(DecimalValue(step));
      var v :- ValueOf(GetOr(scales, IntToString(target), data));
      Ok(Obj([("value", v), ("method", Str("Inverted from light mode " + IntToString(target)))]))
    else
      var v :- ValueOf(data);
      Ok(Obj([("value", v), ("method", Str(PassthroughMethod))]))
  }

  /** The dark entries of every step of `steps`, a suffix of `scales`. */
  function DarkSteps(scales: Fields, steps: Fields): (r: Result<Fields>)
    ensures r.Ok? ==> Keys(r.value) == Keys(steps)
    ensures r.Ok? ==> forall i :: 0 <= i < |steps| ==> DarkStep(scales, steps[i].0, steps[i].1) == Ok(r.value[i].1)
  {
    if steps == [] then Ok([])
    else
      var first :- DarkStep(scales, steps[0].0, steps[0].1);
      var rest :- DarkSteps(scales, steps[1..]);
      Ok([(steps[0].0, first)] + rest)
  }

  /** One role: its steps inverted when it has a 500, else an empty dict. */
  function DarkRole(scales: Value): (r: Result<Value>)
    ensures Has500(scales).Err? ==> r == Err(Has500(scales).error)
    ensures Has500(scales) == Ok(false) ==> r == Ok(Obj([]))
    ensures Has500(scales) == Ok(true) && !scales.Obj? ==> r == Err(AttributeError)
    ensures Has500(scales) == Ok(true) && scales.Obj? ==>
      (r.Ok? <==> DarkSteps(scales.fields, scales.fields).Ok?) &&
      (r.Ok? ==> r.value == Obj(DarkSteps(scales.fields, scales.fields).value) && Keys(r.value.fields) == Keys(scales.fields))
  {
    var has :- Has500(scales);
    if !has then Ok(Obj([]))
    else if !scales.Obj? then Err(AttributeError)
    else
      var steps :- DarkSteps(scales.fields, scales.fields);
      Ok(Obj(steps))
  }

  /** The roles of one category. */
  function DarkRoles(roles: Fields): (r: Result<Fields>)
    ensures r.Ok? ==> Keys(r.value) == Keys(roles)
    ensures r.Ok? ==> forall i :: 0 <= i < |roles| ==> DarkRole(roles[i].1) == Ok(r.value[i].1)
  {
    if roles == [] then Ok([])
    else
      var first :- DarkRole(roles[0].1);
      var rest :- DarkRoles(roles[1..]);
      Ok([(roles[0].0, first)] + rest)
  }

  /** Every category, each a dict of roles. */
  function DarkCategories(categories: Fields): (r: Result<Fields>)
    ensures r.Ok? ==> Keys(r.value) == Keys(categories)
    ensures r.Ok? ==> forall i :: 0 <= i < |categories| ==>
      categories[i].1.Obj? && r.value[i].1.Obj? && DarkRoles(categories[i].1.fields) == Ok(r.value[i].1.fields)
  {
    if categories == [] then Ok([])
    else
      var roles := categories[0].1;
      if !roles.Obj? then Err(AttributeError)
      else
        var first :- DarkRoles(roles.fields);
        var rest :- DarkCategories(categories[1..]);
        Ok([(categories[0].0, Obj(first))] + rest)
  }

  /** `dark-mode-tokens.json` from the proposed tokens document: `{"color": ...}`
      with every category and role of `tokens.color`. */
  function DarkModeTokens(proposedData: Value): (r: Result<Value>)
    ensures !proposedData.Obj? ==> r == Err(AttributeError)
    ensures proposedData.Obj? ==> var tokens := GetOr(proposedData.fields, "tokens", Obj([]));
      && (!tokens.Obj? ==> r == Err(AttributeError))
      && (tokens.Obj? ==> var color := GetOr(tokens.fields, "color", Obj([]));
            && (!color.Obj? ==> r == Err(AttributeError))
            && (color.Obj? ==> (r.Ok? <==> DarkCategories(color.fields).Ok?) &&
                               (r.Ok? ==> r.value == Obj([("color", Obj(DarkCategories(color.fields).value))]))))
    ensures r.Ok? ==> r.value.Obj? && Keys(r.value.fields) == ["color"] && r.value.fields[0].1.Obj?
  {
    if !proposedData.Obj? then Err(AttributeError)
    else
      var tokens := GetOr(proposedData.fields, "tokens", Obj([]));
      if !tokens.Obj? then Err(AttributeError)
      else
        var color := GetOr(tokens.fields, "color", Obj([]));
        if !color.Obj? then Err(AttributeError)
        else
          var dark :- DarkCategories(color.fields);
          Ok(Obj([("color", Obj(dark))]))
  }

  // ---------------------------------------------------------------------------
  // Flattening and type tags

  /** `f"{parent}.{k}" if parent else k`. */
  function DottedKey(parent: string, k: string): string {
    if parent != "" then parent + "." + k else k
  }

  /** `flatten_dict(d, parent)`: a `(dotted name, value)` pair for every dict
      that carries `"value"`, depth first in insertion order; a dict without
      `"value"` is descended into, and every other value contributes nothing. */
  function FlattenDict(d: Fields, parent: string): (r: Fields)
    decreases d
  {
    if d == [] then []
    else
      var k := d[0].0;
      var v := d[0].1;
      assert v < d[0] by { assert d[0] == (k, v); }
      var here := if !v.Obj? then []
                  else match Get(v.fields, "value")
                    case Some(x) => [(DottedKey(parent, k), x)]
                    case None => FlattenDict(v.fields, DottedKey(parent, k));
      here + FlattenDict(d[1..], parent)
  }

  /** `flat_sync_tokens`' type tag, by string prefix of the dotted name. */
  function TypeTag(name: string): (t: string)
    ensures t == "typography" || t == "color" || t == "number" || t == "string"
    ensures t == "typography" <==> StartsWith(name, "font")
    ensures t == "color" <==> !StartsWith(name, "font") && StartsWith(name, "color")
    ensures t == "number" <==>
      (!StartsWith(name, "font") && !StartsWith(name, "color") &&
       (StartsWith(name, "spacing") || StartsWith(name, "radius") || StartsWith(name, "z") ||
        StartsWith(name, "shadow") || StartsWith(name, "motion.duration")))
  {
    if StartsWith(name, "font") then "typography"
    else if StartsWith(name, "color") then "color"
    else if StartsWith(name, "spacing") || StartsWith(name, "radius") || StartsWith(name, "z") ||
            StartsWith(name, "shadow") || StartsWith(name, "motion.duration") then "number"
    else "string"
  }

  /** A flat token as the sync step reads it; an empty `kind` stands for a
      missing or empty `type`. */
  datatype FlatToken = FlatToken(name: string, value: Value, kind: string)

  /** The flat tokens of a flattened dict, each tagged by its name. */
  function Tagged(flat: Fields): (ts: seq<FlatToken>)
    ensures |ts| == |flat|
    ensures forall i :: 0 <= i < |flat| ==> ts[i] == FlatToken(flat[i].0, flat[i].1, TypeTag(flat[i].0))
  {
    if flat == [] then [] else [FlatToken(flat[0].0, flat[0].1, TypeTag(flat[0].0))] + Tagged(flat[1..])
  }

  /** `figma-sync-tokens.json`'s token list from the proposed tokens document. */
  function FlatSyncTokens(proposedData: Value): (r: Result<seq<FlatToken>>)
    ensures !proposedData.Obj? ==> r == Err(AttributeError)
    ensures proposedData.Obj? && GetOr(proposedData.fields, "tokens", Obj([])).Obj? ==>
      r == Ok(Tagged(FlattenDict(GetOr(proposedData.fields, "tokens", Obj([])).fields, "")))
  {
    if !proposedData.Obj? then Err(AttributeError)
    else
      var tokens := GetOr(proposedData.fields, "tokens", Obj([]));
      if !tokens.Obj? then Err(AttributeError) else Ok(Tagged(FlattenDict(tokens.fields, "")))
  }

  /** Flattening distributes over concatenation: the entries of `a` come
      first, then those of `b`. */
  lemma {:induction false} FlattenAppend(a: Fields, b: Fields, p: string)
    ensures FlattenDict(a + b, p) == FlattenDict(a, p) + FlattenDict(b, p)
  {
    if a == [] {
      assert a + b == b;
    } else {
      var ab := a + b;
      assert ab[0] == a[0] && ab[1..] == a[1..] + b;
      FlattenAppend(a[1..], b, p);
      FlattenCons(ab, p);
      FlattenCons(a, p);
    }
  }

  /** The first entry flattens on its own, ahead of the rest. */
  lemma FlattenCons(d: Fields, p: string)
    requires d != []
    ensures FlattenDict(d, p) == FlattenDict([d[0]], p) + FlattenDict(d[1..], p)
  {
    var one := [d[0]];
    assert one[0] == d[0] && one[1..] == [];
  }

  /** Below a non-empty parent every flat name is `parent.` followed by the
      rest of its path. */
  lemma {:induction false} FlattenUnder(d: Fields, p: string)
    requires p != ""
    ensures forall i :: 0 <= i < |FlattenDict(d, p)| ==> StartsWith(FlattenDict(d, p)[i].0, p + ".")
  {
    if d != [] {
      var k := d[0].0;
      var v := d[0].1;
      assert v < d[0] by { assert d[0] == (k, v); }
      FlattenUnder(d[1..], p);
      assert DottedKey(p, k)[..|p + "."|] == p + ".";
      if v.Obj? && Get(v.fields, "value").None? {
        var q := DottedKey(p, k);
        FlattenUnder(v.fields, q);
        forall i | 0 <= i < |FlattenDict(v.fields, q)|
          ensures StartsWith(FlattenDict(v.fields, q)[i].0, p + ".")
        {
          var n := FlattenDict(v.fields, q)[i].0;
          assert n[..|p + "."|] == (q + ".")[..|p + "."|] == p + ".";
        }
      }
    }
  }

  /** A dict with no `value` entry anywhere below it flattens to nothing, and
      so does every non-dict value. */
  lemma FlattenSkips(k: string, v: Value, p: string)
    requires !v.Obj? || v.fields == []
    ensures FlattenDict([(k, v)], p) == []
  {
  }

  /** `p` settles every prefix test of the type tag: each tested prefix is
      no longer than `p` or does not start with `p`. */
  predicate DecidesTag(p: string) {
    Decides(p, "font") && Decides(p, "color") && Decides(p, "spacing") && Decides(p, "radius") &&
    Decides(p, "z") && Decides(p, "shadow") && Decides(p, "motion.duration")
  }

  predicate Decides(p: string, q: string) {
    |q| <= |p| || !StartsWith(q, p)
  }

  /** When the dotted name extends a prefix that settles every test, the
      tag is the tag of the prefix. */
  lemma TypeTagOfPrefix(p: string, t: string)
    requires DecidesTag(p)
    ensures TypeTag(p + t) == TypeTag(p)
  {
    StartsWithExtend(p, t, "font");
    StartsWithExtend(p, t, "color");
    StartsWithExtend(p, t, "spacing");
    StartsWithExtend(p, t, "radius");
    StartsWithExtend(p, t, "z");
    StartsWithExtend(p, t, "shadow");
    StartsWithExtend(p, t, "motion.duration");
  }
}

=== FILE: resolver.dfy ===
/** Source resolution: which design-tool export wins, and the provenance tag
    it is recorded under. Files, environment variables and HTTP are inputs:
    `read` gives the parsed JSON at a path (nothing when the path is missing or
    does not hold JSON), `fetch` the parsed JSON of a GET (nothing on HTTP,
    transport, timeout or JSON-decoding failure). */
module Resolver {
  import opened Wrappers
  import opened Dict
  import opened Json
  import opened Text
  import opened Normalizer

  // ---------------------------------------------------------------------------
  // `extract_figma_parts`

  /** The first `/` at or after `k`, or the end of the text. */
  function NextSlash(url: string, k: nat): (j: nat)
    requires k <= |url|
    ensures k <= j <= |url|
    ensures j < |url| ==> url[j] == '/'
    ensures forall m :: k <= m < j ==> url[m] != '/'
    decreases |url| - k
  {
    if k == |url| || url[k] == '/' then k else NextSlash(url, k + 1)
  }

  /** `/design/([^/]+)/` matches at `i`: the literal, then a non-empty run of
      non-slash characters, then a slash. A greedy run that reaches the end
      of the text cannot be followed by the slash, so no shorter run helps. */
  predicate MatchAt(url: string, i: nat) {
    i + 8 <= |url| && url[i..i + 8] == "/design/" && i + 8 < NextSlash(url, i + 8) < |url|
  }

  /** The captured segment of a match at `i`. */
  function Group(url: string, i: nat): (g: string)
    requires MatchAt(url, i)
    ensures g != [] && '/' !in g
  {
    var g := url[i + 8..NextSlash(url, i + 8)];
    assert forall m :: 0 <= m < |g| ==> g[m] == url[i + 8 + m];
    g
  }

  /** `re.search`: the leftmost match position at or after `from`. */
  function FindDesign(url: string, from: nat): (r: Option<nat>)
    requires from <= |url|
    ensures r.Some? ==> from <= r.value < |url| && MatchAt(url, r.value)
    ensures r.Some? ==> forall i :: from <= i < r.value ==> !MatchAt(url, i)
    ensures r.None? ==> forall i :: from <= i ==> !MatchAt(url, i)
    decreases |url| - from
  {
    if MatchAt(url, from) then Some(from)
    else if from == |url| then None
    else FindDesign(url, from + 1)
  }

  /** The file id of a design URL: the segment of the leftmost
      `/design/<segment>/`, else "unknown-file". */
  function ExtractFileId(url: string): (r: string)
    ensures (forall i: nat :: !MatchAt(url, i)) ==> r == "unknown-file"
    ensures forall i: nat :: MatchAt(url, i) && (forall i': nat :: i' < i ==> !MatchAt(url, i')) ==>
      r == Group(url, i)
  {
    match FindDesign(url, 0)
    case Some(i) => Group(url, i)
    case None => "unknown-file"
  }

  /** Any match makes the id the non-empty, slash-free segment of the leftmost
      match, which lies no further right. */
  lemma FileIdOfMatch(url: string, i: nat)
    requires MatchAt(url, i)
    ensures FindDesign(url, 0).Some? && FindDesign(url, 0).value <= i
    ensures ExtractFileId(url) == Group(url, FindDesign(url, 0).value)
    ensures ExtractFileId(url) != [] && '/' !in ExtractFileId(url)
  {
  }

  /** A URL that starts with `/design/<id>/` has `<id>` as its file id. */
  lemma DesignUrlId(id: string, rest: string)
    requires id != [] && '/' !in id
    ensures ExtractFileId("/design/" + id + "/" + rest) == id
  {
    var url := "/design/" + id + "/" + rest;
    var j := NextSlash(url, 8);
    assert url[8 + |id|] == '/';
    assert forall m :: 8 <= m < 8 + |id| ==> url[m] == id[m - 8];
    assert j == 8 + |id|;
    assert url[0..8] == "/design/";
    FileIdOfMatch(url, 0);
    assert url[8..j] == id;
  }

  /** A file URL instead of a design URL has no id. */
  lemma FileIdFallbackExample()
    ensures ExtractFileId("/file/AbC123/Title") == "unknown-file"
  {
    var w := "/file/AbC123/Title";
    assert forall k :: 0 <= k < |w| ==> w[k] != 'd';
    NoMatchWithoutD(w);
  }

  /** A URL without the letter `d` cannot contain `/design/`. */
  lemma NoMatchWithoutD(url: string)
    requires forall k :: 0 <= k < |url| ==> url[k] != 'd'
    ensures ExtractFileId(url) == "unknown-file"
  {
    forall i: nat
      ensures !MatchAt(url, i)
    {
      MatchHasD(url, i);
    }
  }

  /** The second character of a match is the `d` of `/design/`. */
  lemma MatchHasD(url: string, i: nat)
    ensures MatchAt(url, i) ==> i + 1 < |url| && url[i + 1] == 'd'
  {
    if MatchAt(url, i) {
      var w := url[i..i + 8];
      assert w == "/design/";
      assert w[1] == url[i + 1];
    }
  }

  /** `extract_figma_parts`: the file id, and the first `node-id` query value
      or "" without one. The query comes already decoded, as `parse_qs` gives it. */
  function ExtractFigmaParts(url: string, query: seq<(string, seq<string>)>): (r: Result<(string, string)>)
    ensures Get(query, "node-id").None? ==> r == Ok((ExtractFileId(url), ""))
    ensures r.Ok? ==> r.value.0 == ExtractFileId(url)
  {
    match Get(query, "node-id")
    case None => Ok((ExtractFileId(url), ""))
    case Some(values) => if values == [] then Err(IndexError) else Ok((ExtractFileId(url), values[0]))
  }

  // ---------------------------------------------------------------------------
  // Attempts in priority order

  /** The first attempt that produced something, with its position. */
  function FirstSome<T>(outcomes: seq<Option<T>>): (r: Option<(T, nat)>)
    ensures r.Some? ==> r.value.1 < |outcomes| && outcomes[r.value.1] == Some(r.value.0)
    ensures r.Some? ==> forall i :: 0 <= i < r.value.1 ==> outcomes[i].None?
    ensures r.None? <==> forall i :: 0 <= i < |outcomes| ==> outcomes[i].None?
  {
    if outcomes == [] then None
    else if outcomes[0].Some? then Some((outcomes[0].value, 0))
    else
      match FirstSome(outcomes[1..])
      case Some((v, i)) => Some((v, i + 1))
      case None => None
  }

  /** The MCP export files, in priority order: an explicit path, the path in
      the environment, then three files under `2_figma-mcp-snapshot`. An empty
      string stands for a missing path. */
  function McpCandidates(base: string, fileId: string, nodeId: string, explicit: string, env: string): (paths: seq<string>)
    ensures |paths| == 3 + (if explicit != "" then 1 else 0) + (if env != "" then 1 else 0)
    ensures paths[|paths| - 1] == base + "/2_figma-mcp-snapshot/latest.json"
    ensures explicit != "" ==> paths[0] == explicit
    ensures env != "" ==> paths[if explicit != "" then 1 else 0] == env
    ensures paths[|paths| - 3] == base + "/2_figma-mcp-snapshot/" + fileId + "__" + ReplaceChar(nodeId, ':', '-') + ".json"
    ensures paths[|paths| - 2] == base + "/2_figma-mcp-snapshot/" + fileId + "__" + nodeId + ".json"
  {
    var dir := base + "/2_figma-mcp-snapshot/";
    (if explicit != "" then [explicit] else []) + (if env != "" then [env] else []) +
    [ dir + fileId + "__" + ReplaceChar(nodeId, ':', '-') + ".json",
      dir + fileId + "__" + nodeId + ".json",
      dir + "latest.json" ]
  }

  /** One MCP attempt: the file's payload normalised, kept only when it has a
      non-empty `colors`; every exception while parsing is swallowed. */
  function McpAttempt(content: Option<Value>): (r: Option<Value>)
    ensures r.Some? ==> content.Some? && ParseMcpPayload(content.value) == Ok(r.value) && Truthy(ColorsOf(r.value))
    ensures content.Some? && ParseMcpPayload(content.value).Ok? && Truthy(ColorsOf(ParseMcpPayload(content.value).value)) ==> r.Some?
  {
    match content
    case None => None
    case Some(payload) =>
      match ParseMcpPayload(payload)
      case Ok(doc) => if Truthy(ColorsOf(doc)) then Some(doc) else None
      case Err(_) => None
  }

  function McpOutcomes(paths: seq<string>, read: string -> Option<Value>): (r: seq<Option<Value>>)
    ensures |r| == |paths| && forall i :: 0 <= i < |paths| ==> r[i] == McpAttempt(read(paths[i]))
  {
    if paths == [] then [] else [McpAttempt(read(paths[0]))] + McpOutcomes(paths[1..], read)
  }

  /** Candidate `i` gives `doc`, and every earlier candidate gives nothing. */
  predicate WinsAt(paths: seq<string>, read: string -> Option<Value>, i: int, doc: Value) {
    0 <= i < |paths| && McpAttempt(read(paths[i])) == Some(doc) &&
    forall i' :: 0 <= i' < i ==> McpAttempt(read(paths[i'])).None?
  }

  /** `load_figma_mcp_tokens`: the first candidate that exists, parses and has
      colours, with its path. */
  function LoadMcpTokens(paths: seq<string>, read: string -> Option<Value>): (r: Option<(Value, string)>)
    ensures r.Some? ==> exists i :: WinsAt(paths, read, i, r.value.0) && r.value.1 == paths[i]
    ensures r.None? <==> forall i :: 0 <= i < |paths| ==> McpAttempt(read(paths[i])).None?
  {
    var outcomes := McpOutcomes(paths, read);
    match FirstSome(outcomes)
    case Some((doc, i)) => Some((doc, paths[i]))
    case None => None
  }

  /** The two REST endpoints, local variables first. */
  function RestEndpoints(fileId: string): seq<string> {
    ["/files/" + fileId + "/variables/local", "/files/" + fileId + "/variables/published"]
  }

  /** The address of an endpoint under the API base, trailing slashes dropped. */
  function EndpointUrl(apiBase: string, endpoint: string): string {
    RStrip(apiBase, '/') + endpoint
  }

  /** The endpoint answers with a payload whose normalised form has colours. */
  predicate RestGives(apiBase: string, fetch: string -> Option<Value>, endpoint: string, doc: Value) {
    var answer := fetch(EndpointUrl(apiBase, endpoint));
    answer.Some? && ParseRestPayload(answer.value) == Ok(doc) && Truthy(ColorsOf(doc))
  }

  /** The endpoint is passed over: the request fails, or its payload
      normalises to no colours. */
  predicate RestSkips(apiBase: string, fetch: string -> Option<Value>, endpoint: string) {
    var answer := fetch(EndpointUrl(apiBase, endpoint));
    answer.None? || (ParseRestPayload(answer.value).Ok? && !Truthy(ColorsOf(ParseRestPayload(answer.value).value)))
  }

  /** Every endpoint before position `i` is passed over. */
  predicate SkippedBefore(endpoints: seq<string>, apiBase: string, fetch: string -> Option<Value>, i: int)
    requires i <= |endpoints|
  {
    forall j :: 0 <= j < i ==> RestSkips(apiBase, fetch, endpoints[j])
  }

  /** A result comes from the first endpoint that gives one, tagged with it. */
  predicate GivenByFirst(endpoints: seq<string>, apiBase: string, fetch: string -> Option<Value>,
                         r: Result<Option<(Value, string)>>)
  {
    r.Ok? && r.value.Some? ==>
      exists i :: 0 <= i < |endpoints| &&
        RestGives(apiBase, fetch, endpoints[i], r.value.value.0) && r.value.value.1 == "figma-rest-api:" + endpoints[i] &&
        SkippedBefore(endpoints, apiBase, fetch, i)
  }

  /** Nothing comes back exactly when every endpoint is passed over. */
  predicate NoneWhenAllSkip(endpoints: seq<string>, apiBase: string, fetch: string -> Option<Value>,
                            r: Result<Option<(Value, string)>>)
  {
    r == Ok(None) <==> SkippedBefore(endpoints, apiBase, fetch, |endpoints|)
  }

  /** An exception is the one the first endpoint not passed over raised. */
  predicate RaisedByFirst(endpoints: seq<string>, apiBase: string, fetch: string -> Option<Value>,
                          r: Result<Option<(Value, string)>>)
  {
    r.Err? ==>
      exists i :: 0 <= i < |endpoints| &&
        fetch(EndpointUrl(apiBase, endpoints[i])).Some? &&
        ParseRestPayload(fetch(EndpointUrl(apiBase, endpoints[i])).value) == Err(r.error) &&
        SkippedBefore(endpoints, apiBase, fetch, i)
  }

  /** What the loop over `endpoints` promises of its outcome `r`. */
  predicate FirstUsable(endpoints: seq<string>, apiBase: string, fetch: string -> Option<Value>,
                        r: Result<Option<(Value, string)>>)
  {
    && GivenByFirst(endpoints, apiBase, fetch, r)
    && NoneWhenAllSkip(endpoints, apiBase, fetch, r)
    && RaisedByFirst(endpoints, apiBase, fetch, r)
  }

  /** `fetch_figma_variables_via_rest` from the given endpoints on: a fetch
      that fails is skipped, but an exception while normalising the payload
      escapes. */
  function FetchRest(endpoints: seq<string>, apiBase: string, fetch: string -> Option<Value>): (r: Result<Option<(Value, string)>>)
    ensures r.Ok? && r.value.Some? ==> Truthy(ColorsOf(r.value.value.0))
    ensures FirstUsable(endpoints, apiBase, fetch, r)
  {
    if endpoints == [] then Ok(None)
    else
      match fetch(EndpointUrl(apiBase, endpoints[0]))
      case None =>
        var r := FetchRest(endpoints[1..], apiBase, fetch);
        SkipFirst(endpoints, apiBase, fetch, r);
        r
      case Some(payload) =>
        var doc :- ParseRestPayload(payload);
        if Truthy(ColorsOf(doc)) then Ok(Some((doc, "figma-rest-api:" + endpoints[0])))
        else
          var r := FetchRest(endpoints[1..], apiBase, fetch);
          SkipFirst(endpoints, apiBase, fetch, r);
          r
  }

  /** Passing over the first endpoint keeps the promise, one position later. */
  lemma SkipFirst(endpoints: seq<string>, apiBase: string, fetch: string -> Option<Value>,
                  r: Result<Option<(Value, string)>>)
    requires endpoints != [] && RestSkips(apiBase, fetch, endpoints[0])
    requires FirstUsable(endpoints[1..], apiBase, fetch, r)
    ensures FirstUsable(endpoints, apiBase, fetch, r)
  {
    SkippedShift(endpoints, apiBase, fetch, |endpoints| - 1);
    GivenShift(endpoints, apiBase, fetch, r);
    RaisedShift(endpoints, apiBase, fetch, r);
  }

  /** With the first endpoint passed over, skipping the rest up to `i` is
      skipping up to `i + 1`. */
  lemma SkippedShift(endpoints: seq<string>, apiBase: string, fetch: string -> Option<Value>, i: nat)
    requires endpoints != [] && RestSkips(apiBase, fetch, endpoints[0]) && i < |endpoints|
    ensures SkippedBefore(endpoints[1..], apiBase, fetch, i) <==> SkippedBefore(endpoints, apiBase, fetch, i + 1)
  {
    var skips := e => RestSkips(apiBase, fetch, e);
    PrefixShift(endpoints, skips, i);
    assert SkippedBefore(endpoints[1..], apiBase, fetch, i) <==> forall j :: 0 <= j < i ==> skips(endpoints[1..][j]);
    assert SkippedBefore(endpoints, apiBase, fetch, i + 1) <==> forall j :: 0 <= j < i + 1 ==> skips(endpoints[j]);
  }

  /** A property of every element before `i + 1` is the property of the first
      and of every element of the rest before `i`. */
  lemma PrefixShift<T>(xs: seq<T>, p: T -> bool, i: nat)
    requires xs != [] && p(xs[0]) && i < |xs|
    ensures (forall j :: 0 <= j < i ==> p(xs[1..][j])) <==> (forall j :: 0 <= j < i + 1 ==> p(xs[j]))
  {
    assert forall j :: 0 <= j < i ==> xs[1..][j] == xs[j + 1];
    if forall j :: 0 <= j < i ==> p(xs[1..][j]) {
      forall j | 0 <= j < i + 1 ensures p(xs[j]) {
        if j > 0 { assert xs[j] == xs[1..][j - 1]; }
      }
    }
  }

  lemma GivenShift(endpoints: seq<string>, apiBase: string, fetch: string -> Option<Value>,
                   r: Result<Option<(Value, string)>>)
    requires endpoints != [] && RestSkips(apiBase, fetch, endpoints[0])
    requires GivenByFirst(endpoints[1..], apiBase, fetch, r)
    ensures GivenByFirst(endpoints, apiBase, fetch, r)
  {
    var tail := endpoints[1..];
    if r.Ok? && r.value.Some? {
      var i :| 0 <= i < |tail| && RestGives(apiBase, fetch, tail[i], r.value.value.0) &&
        r.value.value.1 == "figma-rest-api:" + tail[i] && SkippedBefore(tail, apiBase, fetch, i);
      SkippedShift(endpoints, apiBase, fetch, i);
      assert tail[i] == endpoints[i + 1];
    }
  }

  lemma RaisedShift(endpoints: seq<string>, apiBase: string, fetch: string -> Option<Value>,
                    r: Result<Option<(Value, string)>>)
    requires endpoints != [] && RestSkips(apiBase, fetch, endpoints[0])
    requires RaisedByFirst(endpoints[1..], apiBase, fetch, r)
    ensures RaisedByFirst(endpoints, apiBase, fetch, r)
  {
    var tail := endpoints[1..];
    if r.Err? {
      var i :| 0 <= i < |tail| && fetch(EndpointUrl(apiBase, tail[i])).Some? &&
        ParseRestPayload(fetch(EndpointUrl(apiBase, tail[i])).value) == Err(r.error) &&
        SkippedBefore(tail, apiBase, fetch, i);
      SkippedShift(endpoints, apiBase, fetch, i);
      assert tail[i] == endpoints[i + 1];
    }
  }

  /** Where the design tokens came from. */
  datatype Provenance = Provenance(tokens: Value, source: string, sourcePath: string)

  /** The inputs of one resolution run. */
  datatype Request = Request(
    base: string, url: string, query: seq<(string, seq<string>)>,
    explicit: string, env: string, token: string, apiBase: string)

  /** `run_phase1`'s source choice. The snapshot is loaded before anything
      else, so a missing or broken snapshot aborts even when a better source
      exists; then MCP files, then REST (only with a token), then the snapshot. */
  function ResolveSource(req: Request, snapshot: Result<Value>, read: string -> Option<Value>, fetch: string -> Option<Value>): (r: Result<Provenance>)
    ensures snapshot.Err? ==> r == Err(snapshot.error)
    ensures r.Ok? ==> (r.value.source == "figma-mcp-variables" || r.value.source == "design-tokens.json snapshot" ||
      (req.token != "" && exists i :: 0 <= i < 2 && r.value.source == "figma-rest-api:" + RestEndpoints(ExtractFileId(req.url))[i]))
  {
    var fallback :- snapshot;
    var parts :- ExtractFigmaParts(req.url, req.query);
    var (fileId, nodeId) := parts;
    match LoadMcpTokens(McpCandidates(req.base, fileId, nodeId, req.explicit, req.env), read)
    case Some((doc, path)) => Ok(Provenance(doc, "figma-mcp-variables", path))
    case None =>
      var rest :- if req.token != "" then FetchRest(RestEndpoints(fileId), req.apiBase, fetch) else Ok(None);
      match rest
      case Some((doc, tag)) => Ok(Provenance(doc, tag, req.apiBase))
      case None => Ok(Provenance(fallback, "design-tokens.json snapshot", req.base + "/design-tokens.json"))
  }

  /** A usable MCP file wins over everything else, whatever the API would say:
      the first usable candidate's document and path are the result. */
  lemma McpWins(req: Request, snapshot: Result<Value>, read: string -> Option<Value>, fetch: string -> Option<Value>)
    requires snapshot.Ok? && ExtractFigmaParts(req.url, req.query).Ok?
    requires var (fileId, nodeId) := ExtractFigmaParts(req.url, req.query).value;
      LoadMcpTokens(McpCandidates(req.base, fileId, nodeId, req.explicit, req.env), read).Some?
    ensures ResolveSource(req, snapshot, read, fetch).Ok?
    ensures ResolveSource(req, snapshot, read, fetch).value.source == "figma-mcp-variables"
    ensures Truthy(ColorsOf(ResolveSource(req, snapshot, read, fetch).value.tokens))
    ensures var (fileId, nodeId) := ExtractFigmaParts(req.url, req.query).value;
      var m := LoadMcpTokens(McpCandidates(req.base, fileId, nodeId, req.explicit, req.env), read).value;
      ResolveSource(req, snapshot, read, fetch) == Ok(Provenance(m.0, "figma-mcp-variables", m.1))
  {
  }

  /** Without a token the API is never asked: the result does not depend on `fetch`. */
  lemma NoTokenNoFetch(req: Request, snapshot: Result<Value>, read: string -> Option<Value>, f1: string -> Option<Value>, f2: string -> Option<Value>)
    requires req.token == ""
    ensures ResolveSource(req, snapshot, read, f1) == ResolveSource(req, snapshot, read, f2)
  {
  }

  /** Without a usable MCP file, a token and an endpoint that gives colours
      make the API's document the result, tagged with that endpoint. */
  lemma RestWins(req: Request, snap: Value, read: string -> Option<Value>, fetch: string -> Option<Value>,
                 doc: Value, tag: string)
    requires req.token != "" && ExtractFigmaParts(req.url, req.query).Ok?
    requires var (fileId, nodeId) := ExtractFigmaParts(req.url, req.query).value;
      && LoadMcpTokens(McpCandidates(req.base, fileId, nodeId, req.explicit, req.env), read).None?
      && FetchRest(RestEndpoints(fileId), req.apiBase, fetch) == Ok(Some((doc, tag)))
    ensures ResolveSource(req, Ok(snap), read, fetch) == Ok(Provenance(doc, tag, req.apiBase))
    ensures Truthy(ColorsOf(doc))
  {
  }

  /** Without a usable MCP file, and with no token or a REST loop that gives
      nothing, the snapshot is used. */
  lemma SnapshotWhenNoMcpNoRest(req: Request, snap: Value, read: string -> Option<Value>, fetch: string -> Option<Value>)
    requires ExtractFigmaParts(req.url, req.query).Ok?
    requires var (fileId, nodeId) := ExtractFigmaParts(req.url, req.query).value;
      && LoadMcpTokens(McpCandidates(req.base, fileId, nodeId, req.explicit, req.env), read).None?
      && (req.token == "" || FetchRest(RestEndpoints(fileId), req.apiBase, fetch) == Ok(None))
    ensures ResolveSource(req, Ok(snap), read, fetch) ==
      Ok(Provenance(snap, "design-tokens.json snapshot", req.base + "/design-tokens.json"))
  {
  }

  /** Without a usable MCP file, an exception while normalising a REST
      payload aborts the run even though a snapshot is loaded. */
  lemma RestErrorAborts(req: Request, snap: Value, read: string -> Option<Value>, fetch: string -> Option<Value>)
    requires req.token != "" && ExtractFigmaParts(req.url, req.query).Ok?
    requires var (fileId, nodeId) := ExtractFigmaParts(req.url, req.query).value;
      && LoadMcpTokens(McpCandidates(req.base, fileId, nodeId, req.explicit, req.env), read).None?
      && FetchRest(RestEndpoints(fileId), req.apiBase, fetch).Err?
    ensures ResolveSource(req, Ok(snap), read, fetch) ==
      Err(FetchRest(RestEndpoints(ExtractFileId(req.url)), req.apiBase, fetch).error)
  {
  }

  /** When every MCP file and every API call fails, the snapshot is used and
      the run still succeeds. */
  lemma SnapshotFallback(req: Request, snap: Value, read: string -> Option<Value>, fetch: string -> Option<Value>)
    requires ExtractFigmaParts(req.url, req.query).Ok?
    requires forall p :: read(p).None?
    requires forall u :: fetch(u).None?
    ensures ResolveSource(req, Ok(snap), read, fetch) ==
      Ok(Provenance(snap, "design-tokens.json snapshot", req.base + "/design-tokens.json"))
  {
    var (fileId, nodeId) := ExtractFigmaParts(req.url, req.query).value;
    NoFilesNoMcp(McpCandidates(req.base, fileId, nodeId, req.explicit, req.env), read);
    NoAnswersNoRest(RestEndpoints(fileId), req.apiBase, fetch);
    SnapshotWhenNoMcpNoRest(req, snap, read, fetch);
  }

  /** Without any readable file, no MCP candidate is used. */
  lemma NoFilesNoMcp(paths: seq<string>, read: string -> Option<Value>)
    requires forall p :: read(p).None?
    ensures LoadMcpTokens(paths, read).None?
  {
    assert forall i :: 0 <= i < |paths| ==> McpAttempt(read(paths[i])).None?;
  }

  /** Without any answer from the API, the REST loop gives nothing. */
  lemma NoAnswersNoRest(endpoints: seq<string>, apiBase: string, fetch: string -> Option<Value>)
    requires forall u :: fetch(u).None?
    ensures FetchRest(endpoints, apiBase, fetch) == Ok(None)
  {
    assert SkippedBefore(endpoints, apiBase, fetch, |endpoints|);
  }
}

=== FILE: text.dfy ===
/** The small part of Python's string behaviour the pipeline relies on:
    ASCII case mapping, hex and decimal digits, `format(n, "02x")`, `str(int)`,
    `split`, `replace`, `lstrip`/`rstrip` and a subset of `float(str)`. */
module Text {
  import opened Wrappers

  predicate IsHexDigit(c: char) {
    '0' <= c <= '9' || 'a' <= c <= 'f' || 'A' <= c <= 'F'
  }

  predicate IsLowerHexDigit(c: char) {
    '0' <= c <= '9' || 'a' <= c <= 'f'
  }

  predicate AllHex(s: string) {
    forall i :: 0 <= i < |s| ==> IsHexDigit(s[i])
  }

  predicate AllLowerHex(s: string) {
    forall i :: 0 <= i < |s| ==> IsLowerHexDigit(s[i])
  }

  lemma AllLowerHexAppend(a: string, b: string)
    ensures AllLowerHex(a + b) <==> AllLowerHex(a) && AllLowerHex(b)
  {
    if AllLowerHex(a) && AllLowerHex(b) {
      forall i | 0 <= i < |a + b|
        ensures IsLowerHexDigit((a + b)[i])
      {
        if i >= |a| {
          assert (a + b)[i] == b[i - |a|];
        }
      }
    }
    if AllLowerHex(a + b) {
      forall i | 0 <= i < |a|
        ensures IsLowerHexDigit(a[i])
      {
        assert (a + b)[i] == a[i];
      }
      forall i | 0 <= i < |b|
        ensures IsLowerHexDigit(b[i])
      {
        assert (a + b)[|a| + i] == b[i];
      }
    }
  }

  predicate IsDigit(c: char) {
    '0' <= c <= '9'
  }

  /** `s.isdigit()` restricted to ASCII: non-empty and all decimal digits. */
  predicate IsDigits(s: string) {
    s != [] && forall i :: 0 <= i < |s| ==> IsDigit(s[i])
  }

  /** Python's whitespace for `int()` and `float()`, restricted to ASCII. */
  predicate IsSpace(c: char) {
    c == ' ' || c == '\t' || c == '\n' || c == '\r' || c == '\U{000B}' || c == '\U{000C}'
  }

  function HexValue(c: char): (n: nat)
    requires IsHexDigit(c)
    ensures n < 16
  {
    if '0' <= c <= '9' then (c as int - '0' as int)
    else if 'a' <= c <= 'f' then (c as int - 'a' as int) + 10
    else (c as int - 'A' as int) + 10
  }

  /** The lowercase hex digit for a value below 16. */
  function HexDigitChar(n: nat): (c: char)
    requires n < 16
    ensures IsLowerHexDigit(c) && IsHexDigit(c) && HexValue(c) == n
  {
    if n < 10 then ('0' as int + n) as char else ('a' as int + n - 10) as char
  }

  /** ASCII `lower()`; every other character is left alone. */
  function LowerChar(c: char): char {
    if 'A' <= c <= 'Z' then (c as int + 32) as char else c
  }

  function Lower(s: string): (r: string)
    ensures |r| == |s|
    ensures forall i :: 0 <= i < |s| ==> r[i] == LowerChar(s[i])
  {
    seq(|s|, i requires 0 <= i < |s| => LowerChar(s[i]))
  }

  /** ASCII `upper()`. */
  function UpperChar(c: char): char {
    if 'a' <= c <= 'z' then (c as int - 32) as char else c
  }

  function Upper(s: string): (r: string)
    ensures |r| == |s|
    ensures forall i :: 0 <= i < |s| ==> r[i] == UpperChar(s[i])
  {
    seq(|s|, i requires 0 <= i < |s| => UpperChar(s[i]))
  }

  /** Two hex digits read as high and low nibble (`int("ab", 16)`). */
  function PairValue(hi: char, lo: char): (n: nat)
    requires IsHexDigit(hi) && IsHexDigit(lo)
    ensures n < 256
  {
    HexValue(hi) * 16 + HexValue(lo)
  }

  /** `format(n, "x")` for a natural number: lowercase, no leading zeros. */
  function HexNat(n: nat): (s: string)
    ensures s != [] && AllLowerHex(s)
  {
    if n < 16 then [HexDigitChar(n)] else HexNat(n / 16) + [HexDigitChar(n % 16)]
  }

  /** `format(n, "02x")`: zero-padded to two characters; a negative number
      keeps its minus sign, which already fills the width. */
  function Format02x(n: int): string {
    if n < 0 then "-" + HexNat(-n)
    else if n < 16 then "0" + HexNat(n)
    else HexNat(n)
  }

  /** Every formatted number takes at least the two-character width. */
  lemma FormatWidth(n: int)
    ensures |Format02x(n)| >= 2
  {
  }

  /** A byte formats as its two nibbles, as lowercase hex digits. */
  lemma FormatByte(n: int)
    requires 0 <= n < 256
    ensures Format02x(n) == [HexDigitChar(n / 16), HexDigitChar(n % 16)]
    ensures |Format02x(n)| == 2 && AllLowerHex(Format02x(n))
  {
    if n >= 16 {
      assert HexNat(n) == HexNat(n / 16) + [HexDigitChar(n % 16)];
    }
  }

  /** Reading two hex digits and formatting them back yields them in lowercase. */
  lemma FormatParsedPair(hi: char, lo: char)
    requires IsHexDigit(hi) && IsHexDigit(lo)
    ensures Format02x(PairValue(hi, lo)) == [LowerChar(hi), LowerChar(lo)]
  {
    var n := PairValue(hi, lo);
    FormatByte(n);
    assert n / 16 == HexValue(hi) && n % 16 == HexValue(lo);
    DigitRoundTrip(hi);
    DigitRoundTrip(lo);
  }

  /** A hex digit's value, written back as a digit, is the digit in lowercase. */
  lemma DigitRoundTrip(c: char)
    requires IsHexDigit(c)
    ensures HexDigitChar(HexValue(c)) == LowerChar(c)
  {
  }

  /** The value of a decimal digit string. */
  function DecimalValue(s: string): nat
    requires forall i :: 0 <= i < |s| ==> IsDigit(s[i])
    decreases |s|
  {
    if s == [] then 0 else DecimalValue(s[..|s| - 1]) * 10 + DigitValue(s[|s| - 1])
  }

  function DigitValue(c: char): (n: nat)
    requires IsDigit(c)
    ensures n < 10
  {
    c as int - '0' as int
  }

  /** `str(n)` for a natural number. */
  function NatToString(n: nat): (s: string)
    ensures IsDigits(s) && DecimalValue(s) == n
  {
    if n < 10 then [('0' as int + n) as char]
    else
      var s := NatToString(n / 10) + [('0' as int + n % 10) as char];
      assert s[..|s| - 1] == NatToString(n / 10);
      s
  }

  /** `str(i)` for any integer. */
  function IntToString(i: int): string {
    if i < 0 then "-" + NatToString(-i) else NatToString(i)
  }

  /** `s.startswith(p)`. */
  predicate StartsWith(s: string, p: string) {
    |p| <= |s| && s[..|p|] == p
  }

  /** Extending `p` does not change whether it starts with `q`, provided `q`
      is no longer than `p` or does not itself start with `p`. */
  lemma StartsWithExtend(p: string, t: string, q: string)
    requires |q| <= |p| || !StartsWith(q, p)
    ensures StartsWith(p + t, q) <==> StartsWith(p, q)
  {
    if |q| <= |p| {
      assert (p + t)[..|q|] == p[..|q|];
    }
  }

  /** Two strings that differ at position `j` do not start with one another. */
  lemma DiffersAt(s: string, q: string, j: nat)
    requires j < |s| && j < |q| && s[j] != q[j]
    ensures !StartsWith(s, q) && !StartsWith(q, s)
  {
    if |q| <= |s| {
      assert s[..|q|][j] == s[j];
    }
    if |s| <= |q| {
      assert q[..|s|][j] == q[j];
    }
  }

  /** `t in s` for strings: `t` occurs in `s` at some position. */
  predicate Contains(s: string, t: string)
    decreases |s|
  {
    StartsWith(s, t) || (s != [] && Contains(s[1..], t))
  }

  /** `s.replace(a, b)` for single characters. */
  function ReplaceChar(s: string, a: char, b: char): (r: string)
    ensures |r| == |s|
    ensures forall i :: 0 <= i < |s| ==> r[i] == (if s[i] == a then b else s[i])
  {
    seq(|s|, i requires 0 <= i < |s| => if s[i] == a then b else s[i])
  }

  /** `s.split(sep)` for a single-character separator: never empty, and no part contains `sep`. */
  function Split(s: string, sep: char): (parts: seq<string>)
    ensures |parts| >= 1
    ensures forall i :: 0 <= i < |parts| ==> sep !in parts[i]
  {
    if s == [] then [""]
    else
      var rest := Split(s[1..], sep);
      if s[0] == sep then [""] + rest else [[s[0]] + rest[0]] + rest[1..]
  }

  /** `sep.join(parts)`. */
  function Join(parts: seq<string>, sep: char): string {
    if parts == [] then ""
    else if |parts| == 1 then parts[0]
    else parts[0] + [sep] + Join(parts[1..], sep)
  }

  /** Splitting and joining on the same separator gives back the original string. */
  lemma {:induction false} JoinSplit(s: string, sep: char)
    ensures Join(Split(s, sep), sep) == s
  {
    if s != [] {
      JoinSplit(s[1..], sep);
      var rest := Split(s[1..], sep);
      if s[0] != sep && |rest| > 1 {
        assert Join(rest, sep) == rest[0] + [sep] + Join(rest[1..], sep);
      }
    }
  }

  /** `s.lstrip(c)`: drops every leading copy of `c`. */
  function LStrip(s: string, c: char): (r: string)
    ensures |r| <= |s| && r == s[|s| - |r|..]
    ensures r == [] || r[0] != c
    ensures forall i :: 0 <= i < |s| - |r| ==> s[i] == c
  {
    if s != [] && s[0] == c then LStrip(s[1..], c) else s
  }

  /** `s.rstrip(c)`: drops every trailing copy of `c`. */
  function RStrip(s: string, c: char): (r: string)
    ensures |r| <= |s| && r == s[..|r|]
    ensures r == [] || r[|r| - 1] != c
    ensures forall i :: |r| <= i < |s| ==> s[i] == c
  {
    if s != [] && s[|s| - 1] == c then RStrip(s[..|s| - 1], c) else s
  }

  /** `s.replace("px", "")`: removes non-overlapping occurrences from left to right. */
  function RemovePx(s: string): (r: string)
    ensures |r| <= |s|
  {
    if |s| >= 2 && s[0] == 'p' && s[1] == 'x' then RemovePx(s[2..])
    else if s == [] then []
    else [s[0]] + RemovePx(s[1..])
  }

  /** `float(s)` on plain decimal text: an optional sign, digits, and an optional
      fraction, with at least one digit in all. */
  function ParseFloat(s: string): (r: Option<real>)
    ensures IsDigits(s) ==> r == Some(DecimalValue(s) as real)
  {
    if s != [] && (s[0] == '+' || s[0] == '-') then
      match ParseUnsigned(s[1..])
      case Some(x) => Some(if s[0] == '-' then -x else x)
      case None => None
    else ParseUnsigned(s)
  }

  function ParseUnsigned(s: string): (r: Option<real>)
    ensures IsDigits(s) ==> r == Some(DecimalValue(s) as real)
  {
    var k := DigitRun(s);
    var whole := s[..k];
    if k == |s| then (assert whole == s; if k == 0 then None else Some(DecimalValue(whole) as real))
    else if s[k] != '.' then None
    else
      var frac := s[k + 1..];
      var m := DigitRun(frac);
      if m != |frac| || (k == 0 && m == 0) then None
      else Some(DecimalValue(whole) as real + DecimalValue(frac) as real / Pow10(m) as real)
  }

  /** The length of the leading run of decimal digits. */
  function DigitRun(s: string): (k: nat)
    ensures k <= |s|
    ensures forall i :: 0 <= i < k ==> IsDigit(s[i])
    ensures k < |s| ==> !IsDigit(s[k])
  {
    if s == [] || !IsDigit(s[0]) then 0 else 1 + DigitRun(s[1..])
  }

  function Pow10(n: nat): (p: nat)
    ensures p >= 1
  {
    if n == 0 then 1 else 10 * Pow10(n - 1)
  }

  /** `int(t, 16)` for a two-character text: two hex digits, or one digit with
      a sign or with whitespace on either side. */
  function IntBase16Pair(x: char, y: char): (r: Result<int>)
    ensures IsHexDigit(x) && IsHexDigit(y) ==> r == Ok(PairValue(x, y))
    ensures r.Ok? ==> -15 <= r.value < 256
  {
    if IsHexDigit(x) && IsHexDigit(y) then Ok(PairValue(x, y))
    else if x == '+' && IsHexDigit(y) then Ok(HexValue(y))
    else if x == '-' && IsHexDigit(y) then Ok(-(HexValue(y) as int))
    else if IsSpace(x) && IsHexDigit(y) then Ok(HexValue(y))
    else if IsHexDigit(x) && IsSpace(y) then Ok(HexValue(x))
    else Err(ValueError)
  }

  /** `int(t, 16)` for a one-character text. */
  function IntBase16Single(x: char): (r: Result<int>)
    ensures r.Ok? ==> 0 <= r.value < 16
  {
    if IsHexDigit(x) then Ok(HexValue(x)) else Err(ValueError)
  }
}

=== FILE: token_builder.dfy ===
/** `build_proposed_tokens`: the proposed token tree. Its shape is fixed; the
    primary brand colour, the background, text, border and icon colours and
    the base font family are taken from the design tokens, everything else
    is scaffolding. */
module TokenBuilder {
  import opened Wrappers
  import opened Dict
  import opened Json
  import opened Text
  import opened ColorCodec

  /** `first_hex`'s fallback. */
  const DefaultPrimary := "#007fff"

  const DefaultFamily := "SF Pro"

  /** A string matching `^#[0-9a-fA-F]{6}$` (eight-digit colours do not). */
  predicate Hex6Value(v: Value) {
    v.Str? && Hex6Text(v.s)
  }

  /** `first_hex(colors)`: the first six-digit hex value in map order,
      lowercased, else the fallback. */
  function FirstHex(colors: Fields): (r: string)
    ensures (forall i :: 0 <= i < |colors| ==> !Hex6Value(colors[i].1)) ==> r == DefaultPrimary
    ensures forall i :: 0 <= i < |colors| && Hex6Value(colors[i].1) && (forall j :: 0 <= j < i ==> !Hex6Value(colors[j].1)) ==>
      r == Lower(colors[i].1.s)
  {
    if colors == [] then DefaultPrimary
    else if Hex6Value(colors[0].1) then Lower(colors[0].1.s)
    else
      var r := FirstHex(colors[1..]);
      assert forall i :: 1 <= i < |colors| ==> colors[i] == colors[1..][i - 1];
      r
  }

  /** The primary colour is never empty: an empty `Primary` falls through. */
  lemma {:induction false} FirstHexNonEmpty(colors: Fields)
    ensures |FirstHex(colors)| >= 7 && FirstHex(colors)[0] == '#'
  {
    if colors != [] && !Hex6Value(colors[0].1) {
      FirstHexNonEmpty(colors[1..]);
    }
  }

  // ---------------------------------------------------------------------------
  // The tree

  /** The input-dependent leaves. */
  datatype Overrides = Overrides(
    primary: Value, background: Value, surface: Value,
    textPrimary: Value, textSecondary: Value, onColor: Value,
    border: Value, icon: Value, family: Value)

  /** A token: `{"value": v}`. */
  function Leaf(v: Value): Value {
    Obj([("value", v)])
  }

  /** A group of tokens named `names`, holding `vals`. */
  function Leaves(names: seq<string>, vals: seq<Value>): (fs: Fields)
    requires |names| == |vals|
  {
    seq(|names|, i requires 0 <= i < |names| => (names[i], Leaf(vals[i])))
  }

  function Strs(ss: seq<string>): (vs: seq<Value>)
    ensures |vs| == |ss| && forall i :: 0 <= i < |ss| ==> vs[i] == Str(ss[i])
  {
    seq(|ss|, i requires 0 <= i < |ss| => Str(ss[i]))
  }

  const Steps := ["50", "100", "200", "300", "400", "500", "600", "700", "800", "900"]

  function BrandRamp(primary: Value): seq<Value> {
    [Str("#eff6ff"), Str("#dbeafe"), Str("#bfdbfe"), Str("#93c5fd"), Str("#60a5fa"),
     primary, Str("#2563eb"), Str("#1d4ed8"), Str("#1e40af"), Str("#1e3a8a")]
  }

  const NeutralRamp := ["#f8fafc", "#f1f5f9", "#e2e8f0", "#cbd5e1", "#94a3b8",
                        "#64748b", "#475569", "#334155", "#1e293b", "#0f172a"]
  const SpacingNames := ["0", "1", "2", "3", "4", "5", "6", "8", "10", "12"]
  const SpacingValues := ["0px", "4px", "8px", "12px", "16px", "20px", "24px", "32px", "40px", "48px"]
  const RadiusNames := ["none", "sm", "md", "lg", "xl", "full"]
  const RadiusValues := ["0px", "4px", "8px", "12px", "16px", "9999px"]
  const FontSizeNames := ["sm", "base", "lg", "xl"]
  const FontSizeValues := ["14px", "16px", "18px", "20px"]
  const FontWeightNames := ["regular", "medium", "bold"]
  const FontWeightValues := ["400", "500", "700"]
  const ShadowNames := ["sm", "md"]
  const ShadowValues := ["0 1px 2px rgba(0,0,0,0.08)", "0 4px 8px rgba(0,0,0,0.12)"]
  const ZNames := ["base", "dropdown", "modal", "tooltip"]
  const ZValues := ["0", "1000", "1300", "1500"]
  const DurationNames := ["fast", "normal", "slow"]
  const DurationValues := ["120ms", "200ms", "320ms"]

  function ColorSection(primary: Value): Value {
    Obj([("brand", Obj([("primary", Obj(Leaves(Steps, BrandRamp(primary))))])),
         ("neutral", Obj(Leaves(Steps, Strs(NeutralRamp))))])
  }

  function FontSection(family: Value): Value {
    Obj([("family", Obj(Leaves(["base"], [family]))),
         ("size", Obj(Leaves(FontSizeNames, Strs(FontSizeValues)))),
         ("weight", Obj(Leaves(FontWeightNames, Strs(FontWeightValues))))])
  }

  function MotionSection(): Value {
    Obj([("duration", Obj(Leaves(DurationNames, Strs(DurationValues)))),
         ("easing", Obj(Leaves(["standard"], [Str("cubic-bezier(0.2, 0, 0, 1)")])))])
  }

  /** The top-level sections, in the order the source writes them. */
  const SectionNames := ["color", "background", "text", "border", "spacing", "radius", "font", "shadow", "z", "motion", "icon"]

  function SectionValues(o: Overrides): (vs: seq<Value>)
    ensures |vs| == |SectionNames|
  {
    [ColorSection(o.primary),
     Obj(Leaves(["primary", "surface"], [o.background, o.surface])),
     Obj(Leaves(["primary", "secondary", "oncolor"], [o.textPrimary, o.textSecondary, o.onColor])),
     Obj(Leaves(["default"], [o.border])),
     Obj(Leaves(SpacingNames, Strs(SpacingValues))),
     Obj(Leaves(RadiusNames, Strs(RadiusValues))),
     FontSection(o.family),
     Obj(Leaves(ShadowNames, Strs(ShadowValues))),
     Obj(Leaves(ZNames, Strs(ZValues))),
     MotionSection(),
     Obj(Leaves(["primary"], [o.icon]))]
  }

  /** The `tokens` object. */
  function ProposedTokens(o: Overrides): Fields {
    Zip(SectionNames, SectionValues(o))
  }

  // ---------------------------------------------------------------------------
  // Reading the input

  /** `design_tokens.get("colors", {})`. */
  function ColorsField(dt: Fields): Value {
    GetOr(dt, "colors", Obj([]))
  }

  /** `design_tokens.get("typography", {})`. */
  function TypographyField(dt: Fields): Value {
    GetOr(dt, "typography", Obj([]))
  }

  /** The `or` chain: `Primary`, then `Action/01Primary`, when truthy; then `first_hex`. */
  function PrimaryOf(colors: Fields): Value {
    var p := GetOr(colors, "Primary", Null);
    var a := GetOr(colors, "Action/01Primary", Null);
    if Truthy(p) then p else if Truthy(a) then a else Str(FirstHex(colors))
  }

  /** A colour key read with `colors.get(key, default)`, the token
      `section.name` its value lands in, and its default. */
  datatype ColorOverride = ColorOverride(key: string, section: string, name: string, default: string) {
    function Path(): seq<string> {
      ["tokens", section, name, "value"]
    }
  }


  const ColorOverrides: seq<ColorOverride> := [
    ColorOverride("Background/General", "background", "primary", "#ffffff"),
    ColorOverride("Background/Card", "background", "surface", "#ffffff"),
    ColorOverride("Text/Primary", "text", "primary", "#111d4a"),
    ColorOverride("Text/Secondary", "text", "secondary", "#64748b"),
    ColorOverride("Text On Color", "text", "oncolor", "#ffffff"),
    ColorOverride("Dividers & borders", "border", "default", "#e2e8f0"),
    ColorOverride("Stoke/Icon stroke", "icon", "primary", "#111d4a")]

  function OverrideValue(colors: Fields, i: nat): Value
    requires i < |ColorOverrides|
  {
    GetOr(colors, ColorOverrides[i].key, Str(ColorOverrides[i].default))
  }

  /** The font family: the first typography entry's `family`, else "SF Pro";
      a truthy typography that is not a dict, or whose first entry is not,
      raises. */
  function FamilyOf(typo: Value): (r: Result<Value>)
    ensures !Truthy(typo) ==> r == Ok(Str(DefaultFamily))
    ensures r.Err? <==> Truthy(typo) && (!typo.Obj? || !typo.fields[0].1.Obj?)
  {
    if !Truthy(typo) then Ok(Str(DefaultFamily))
    else if !typo.Obj? then Err(AttributeError)
    else
      var first := typo.fields[0].1;
      if !first.Obj? then Err(AttributeError) else Ok(GetOr(first.fields, "family", Str(DefaultFamily)))
  }

  /** The conditions under which `build_proposed_tokens` returns. */
  predicate Accepted(designTokens: Value) {
    designTokens.Obj? && ColorsField(designTokens.fields).Obj? && FamilyOf(TypographyField(designTokens.fields)).Ok?
  }

  /** The input-dependent leaves for a colour map and a family. */
  function OverridesOf(cs: Fields, family: Value): Overrides {
    Overrides(PrimaryOf(cs), OverrideValue(cs, 0), OverrideValue(cs, 1), OverrideValue(cs, 2),
              OverrideValue(cs, 3), OverrideValue(cs, 4), OverrideValue(cs, 5), OverrideValue(cs, 6), family)
  }

  /** The document `build_proposed_tokens` returns. */
  function Tree(o: Overrides): Value {
    Obj([("tokens", Obj(ProposedTokens(o)))])
  }

  /** `build_proposed_tokens(design_tokens)`. */
  function BuildProposedTokens(designTokens: Value): (r: Result<Value>)
    ensures r.Ok? <==> Accepted(designTokens)
    ensures r.Err? ==> r.error == AttributeError
    ensures r.Ok? ==> r.value.Obj? && Keys(r.value.fields) == ["tokens"]
  {
    if !designTokens.Obj? then Err(AttributeError)
    else
      var colors := ColorsField(designTokens.fields);
      var typo := TypographyField(designTokens.fields);
      if !colors.Obj? then Err(AttributeError)
      else
        var family :- FamilyOf(typo);
        Ok(Tree(OverridesOf(colors.fields, family)))
  }

  /** Never fails on a dict whose `colors` is a dict (or missing) and whose
      `typography` is missing or a dict of dicts. */
  lemma BuildNeverFails(dt: Fields)
    requires ColorsField(dt).Obj?
    requires TypographyField(dt).Obj?
    requires forall i :: 0 <= i < |TypographyField(dt).fields| ==> TypographyField(dt).fields[i].1.Obj?
    ensures BuildProposedTokens(Obj(dt)).Ok?
  {
    var typo := TypographyField(dt);
    assert FamilyOf(typo).Ok? by {
      if Truthy(typo) {
        assert typo.fields[0].1.Obj?;
      }
    }
    assert Accepted(Obj(dt));
  }

  // ---------------------------------------------------------------------------
  // Properties of the built tree

  /** One step of a lookup: the key at position `n` of the path selects entry `i`,
      the first with that key. */
  lemma LookupAt(v: Value, keys: seq<string>, n: nat, i: nat)
    requires n < |keys| && v.Obj? && i < |v.fields| && v.fields[i].0 == keys[n]
    requires forall j :: 0 <= j < i ==> v.fields[j].0 != keys[n]
    ensures Lookup(v, keys[n..]) == Lookup(v.fields[i].1, keys[n + 1..])
  {
    GetFirst(v.fields, i, keys[n]);
    assert keys[n..][1..] == keys[n + 1..];
  }

  /** No name occurs twice. */
  predicate Distinct(names: seq<string>) {
    forall i, j :: 0 <= i < j < |names| ==> names[i] != names[j]
  }

  lemma NamesDistinct()
    ensures Distinct(SectionNames) && Distinct(Steps)
  {
  }

  /** A path into the `tokens` object descends into one section. */
  lemma LookupTokens(o: Overrides, si: nat, keys: seq<string>)
    requires si < |SectionNames| && |keys| >= 2 && keys[0] == "tokens" && keys[1] == SectionNames[si]
    ensures Lookup(Tree(o), keys) == Lookup(SectionValues(o)[si], keys[2..])
  {
    NamesDistinct();
    LookupNamed(SectionNames, SectionValues(o), si, keys);
  }

  /** A path into `{"tokens": {names[0]: values[0], ...}}` with distinct names. */
  lemma LookupNamed(names: seq<string>, values: seq<Value>, si: nat, keys: seq<string>)
    requires Distinct(names) && |names| == |values|
    requires si < |names| && |keys| >= 2 && keys[0] == "tokens" && keys[1] == names[si]
    ensures Lookup(Obj([("tokens", Obj(Zip(names, values)))]), keys) == Lookup(values[si], keys[2..])
  {
    var fs := Zip(names, values);
    forall j | 0 <= j < si
      ensures fs[j].0 != keys[1]
    {
      assert fs[j].0 == names[j];
    }
    assert keys[0..] == keys;
    LookupAt(Obj([("tokens", Obj(fs))]), keys, 0, 0);
    LookupAt(Obj(fs), keys, 1, si);
  }

  /** A token of a flat section of the `tokens` object. */
  lemma LookupSection(o: Overrides, section: string, si: nat, names: seq<string>, vals: seq<Value>, ni: nat)
    requires si < |SectionNames| && SectionNames[si] == section
    requires |names| == |vals| && SectionValues(o)[si] == Obj(Leaves(names, vals))
    requires ni < |names| && forall j :: 0 <= j < ni ==> names[j] != names[ni]
    ensures Lookup(Tree(o), ["tokens", section, names[ni], "value"]) == Some(vals[ni])
  {
    var p := ["tokens", section, names[ni], "value"];
    LookupTokens(o, si, p);
    LookupLeaf(names, vals, ni, p, 2);
  }

  /** The last two keys of a path name a token of a group and its `value`. */
  lemma LookupLeaf(names: seq<string>, vals: seq<Value>, ni: nat, keys: seq<string>, n: nat)
    requires |names| == |vals| && ni < |names| && forall j :: 0 <= j < ni ==> names[j] != names[ni]
    requires |keys| == n + 2 && keys[n] == names[ni] && keys[n + 1] == "value"
    ensures Lookup(Obj(Leaves(names, vals)), keys[n..]) == Some(vals[ni])
  {
    LookupAt(Obj(Leaves(names, vals)), keys, n, ni);
    LookupAt(Leaf(vals[ni]), keys, n + 1, 0);
    assert keys[n + 2..] == [];
  }

  /** The record field the `i`th colour override fills. */
  function OverrideField(o: Overrides, i: nat): Value
    requires i < |ColorOverrides|
  {
    [o.background, o.surface, o.textPrimary, o.textSecondary, o.onColor, o.border, o.icon][i]
  }

  /** The `i`th colour override's leaf holds its field. */
  lemma OverrideLeafOf(o: Overrides, i: nat)
    requires i < |ColorOverrides|
    ensures Lookup(Tree(o), ColorOverrides[i].Path()) == Some(OverrideField(o, i))
  {
    if i < 2 {
      BackgroundLeaf(o, i);
    } else if i < 5 {
      TextLeaf(o, i);
    } else {
      SingleLeaf(o, i);
    }
  }

  lemma BackgroundLeaf(o: Overrides, i: nat)
    requires i < 2
    ensures Lookup(Tree(o), ColorOverrides[i].Path()) == Some(OverrideField(o, i))
  {
    var names := ["primary", "surface"];
    assert ColorOverrides[i].section == "background" && ColorOverrides[i].name == names[i];
    LookupSection(o, "background", 1, names, [o.background, o.surface], i);
  }

  lemma TextLeaf(o: Overrides, i: nat)
    requires 2 <= i < 5
    ensures Lookup(Tree(o), ColorOverrides[i].Path()) == Some(OverrideField(o, i))
  {
    var names := ["primary", "secondary", "oncolor"];
    assert ColorOverrides[i].section == "text" && ColorOverrides[i].name == names[i - 2];
    LookupSection(o, "text", 2, names, [o.textPrimary, o.textSecondary, o.onColor], i - 2);
  }

  lemma SingleLeaf(o: Overrides, i: nat)
    requires 5 <= i < 7
    ensures Lookup(Tree(o), ColorOverrides[i].Path()) == Some(OverrideField(o, i))
  {
    if i == 5 {
      assert ColorOverrides[i].Path() == ["tokens", "border", ["default"][0], "value"];
      LookupSection(o, "border", 3, ["default"], [o.border], 0);
    } else {
      assert ColorOverrides[i].Path() == ["tokens", "icon", ["primary"][0], "value"];
      LookupSection(o, "icon", 10, ["primary"], [o.icon], 0);
    }
  }

  /** The 500 step of the brand ramp. */
  lemma PrimaryLeafOf(o: Overrides)
    ensures Lookup(Tree(o), ["tokens", "color", "brand", "primary", "500", "value"]) == Some(o.primary)
  {
    var p := ["tokens", "color", "brand", "primary", "500", "value"];
    LookupTokens(o, 0, p);
    BrandLeaf(o.primary, p);
  }

  /** The 500 step of the brand ramp, within the `color` section. */
  lemma BrandLeaf(primary: Value, keys: seq<string>)
    requires keys == ["tokens", "color", "brand", "primary", "500", "value"]
    ensures Lookup(ColorSection(primary), keys[2..]) == Some(primary)
  {
    var ramp := Obj(Leaves(Steps, BrandRamp(primary)));
    LookupAt(ColorSection(primary), keys, 2, 0);
    LookupAt(Obj([("primary", ramp)]), keys, 3, 0);
    RampLeaf(BrandRamp(primary), keys, 4);
  }

  /** The `500` token of a ramp. */
  lemma RampLeaf(vals: seq<Value>, keys: seq<string>, n: nat)
    requires |vals| == |Steps| && |keys| == n + 2 && keys[n] == "500" && keys[n + 1] == "value"
    ensures Lookup(Obj(Leaves(Steps, vals)), keys[n..]) == Some(vals[5])
  {
    NamesDistinct();
    LookupLeaf(Steps, vals, 5, keys, n);
  }

  /** The base font family. */
  lemma FamilyLeafOf(o: Overrides)
    ensures Lookup(Tree(o), ["tokens", "font", "family", "base", "value"]) == Some(o.family)
  {
    var p := ["tokens", "font", "family", "base", "value"];
    LookupTokens(o, 6, p);
    LookupAt(FontSection(o.family), p, 2, 0);
    LookupLeaf(["base"], [o.family], 0, p, 3);
  }

  /** Each colour override is `colors.get(key, default)`: the value stored
      under the key whenever the key is present, the default otherwise. */
  lemma OverrideLeaf(dt: Value, i: nat)
    requires BuildProposedTokens(dt).Ok? && i < |ColorOverrides|
    ensures Lookup(BuildProposedTokens(dt).value, ColorOverrides[i].Path()) ==
      Some(GetOr(ColorsField(dt.fields).fields, ColorOverrides[i].key, Str(ColorOverrides[i].default)))
  {
    var cs := ColorsField(dt.fields).fields;
    var o := OverridesOf(cs, FamilyOf(TypographyField(dt.fields)).value);
    assert BuildProposedTokens(dt).value == Tree(o);
    OverrideLeafOf(o, i);
    assert OverrideField(o, i) == OverrideValue(cs, i) by {
      if i == 0 {} else if i == 1 {} else if i == 2 {} else if i == 3 {} else if i == 4 {} else if i == 5 {} else {}
    }
  }

  /** The 500 step of the brand ramp holds the primary colour: `Primary` or
      `Action/01Primary` when truthy, else the first six-digit hex colour,
      else "#007fff". */
  lemma PrimaryLeaf(dt: Value)
    requires BuildProposedTokens(dt).Ok?
    ensures var cs := ColorsField(dt.fields).fields;
      var leaf := Lookup(BuildProposedTokens(dt).value, ["tokens", "color", "brand", "primary", "500", "value"]);
      var p := GetOr(cs, "Primary", Null);
      var a := GetOr(cs, "Action/01Primary", Null);
      (Truthy(p) ==> leaf == Some(p)) &&
      (!Truthy(p) && Truthy(a) ==> leaf == Some(a)) &&
      (!Truthy(p) && !Truthy(a) ==> leaf == Some(Str(FirstHex(cs))))
  {
    PrimaryLeafOf(OverridesOf(ColorsField(dt.fields).fields, FamilyOf(TypographyField(dt.fields)).value));
  }

  /** The base font family is the first typography entry's `family`, else "SF Pro". */
  lemma FamilyLeaf(dt: Value)
    requires BuildProposedTokens(dt).Ok?
    ensures var typo := TypographyField(dt.fields);
      var leaf := Lookup(BuildProposedTokens(dt).value, ["tokens", "font", "family", "base", "value"]);
      (!Truthy(typo) ==> leaf == Some(Str("SF Pro"))) &&
      (Truthy(typo) ==> leaf == Some(GetOr(typo.fields[0].1.fields, "family", Str("SF Pro"))))
  {
    FamilyLeafOf(OverridesOf(ColorsField(dt.fields).fields, FamilyOf(TypographyField(dt.fields)).value));
  }

  /** A present key wins even when its value is empty: `get` with a default
      does not test truthiness. */
  lemma PresentEmptyWins(dt: Value, i: nat)
    requires BuildProposedTokens(dt).Ok? && i < |ColorOverrides|
    requires Get(ColorsField(dt.fields).fields, ColorOverrides[i].key) == Some(Str(""))
    ensures Lookup(BuildProposedTokens(dt).value, ColorOverrides[i].Path()) == Some(Str(""))
  {
    OverrideLeaf(dt, i);
  }

  /** The primary colour, by contrast, skips an empty `Primary`. */
  lemma PrimaryEmptySkipped(dt: Value)
    requires BuildProposedTokens(dt).Ok?
    requires Get(ColorsField(dt.fields).fields, "Primary") == Some(Str(""))
    requires Get(ColorsField(dt.fields).fields, "Action/01Primary").None?
    ensures Lookup(BuildProposedTokens(dt).value, ["tokens", "color", "brand", "primary", "500", "value"]) != Some(Str(""))
  {
    var cs := ColorsField(dt.fields).fields;
    var o := OverridesOf(cs, FamilyOf(TypographyField(dt.fields)).value);
    assert BuildProposedTokens(dt).value == Tree(o);
    PrimaryLeafOf(o);
    PrimaryOfEmpty(cs);
  }

  /** An empty `Primary` and no `Action/01Primary` leave the pick to `first_hex`. */
  lemma PrimaryOfEmpty(cs: Fields)
    requires Get(cs, "Primary") == Some(Str("")) && Get(cs, "Action/01Primary").None?
    ensures PrimaryOf(cs) == Str(FirstHex(cs)) && FirstHex(cs) != ""
  {
    FirstHexNonEmpty(cs);
  }

  /** An empty document yields only defaults. */
  lemma EmptyInputDefaults()
    ensures BuildProposedTokens(Obj([])).Ok?
    ensures Lookup(BuildProposedTokens(Obj([])).value, ["tokens", "color", "brand", "primary", "500", "value"]) == Some(Str("#007fff"))
    ensures Lookup(BuildProposedTokens(Obj([])).value, ["tokens", "font", "family", "base", "value"]) == Some(Str("SF Pro"))
    ensures forall i :: 0 <= i < |ColorOverrides| ==>
      Lookup(BuildProposedTokens(Obj([])).value, ColorOverrides[i].Path()) == Some(Str(ColorOverrides[i].default))
  {
    PrimaryLeaf(Obj([]));
    FamilyLeaf(Obj([]));
    forall i | 0 <= i < |ColorOverrides|
      ensures Lookup(BuildProposedTokens(Obj([])).value, ColorOverrides[i].Path()) == Some(Str(ColorOverrides[i].default))
    {
      OverrideLeaf(Obj([]), i);
    }
  }

  /** Eight-digit colours are skipped and the pick is lowercased. */
  lemma FirstHexExample()
    ensures FirstHex([("Overlay", Str("#11223344")), ("Brand", Str("#AABBCC"))]) == "#aabbcc"
    ensures FirstHex([("Overlay", Str("#11223344"))]) == DefaultPrimary
  {
    var cs := [("Overlay", Str("#11223344")), ("Brand", Str("#AABBCC"))];
    assert !Hex6Value(cs[0].1);
    assert Hex6Value(cs[1].1) by {
      assert AllHex("#AABBCC"[1..7]);
    }
  }
}

=== FILE: wrappers.dfy ===
/** Optional values and Python-exception-carrying results used across the pipeline model. */
module Wrappers {

  datatype Option<+T> = None | Some(value: T) {
    function GetOr(default: T): T {
      match this
      case Some(v) => v
      case None => default
    }
  }

  /** The Python exception classes the modelled code can raise. */
  datatype Exception =
    | AttributeError | TypeError | ValueError | KeyError | IndexError | FileNotFoundError

  /** The outcome of a Python computation: a value, or the exception it raised.
      Failure-compatible, so `:-` propagates the exception like Python does. */
  datatype Result<+T> = Ok(value: T) | Err(error: Exception) {
    predicate IsFailure() {
      Err?
    }

    function PropagateFailure<U>(): Result<U>
      requires Err?
    {
      Err(error)
    }

    function Extract(): T
      requires Ok?
    {
      value
    }
  }

  /** A loop that takes `f` of every item in turn, each raising, skipping the
      item or contributing one value: the first exception stops it, otherwise
      the contributions in order. */
  function Collect<A, T>(f: A -> Result<Option<T>>, xs: seq<A>): (r: Result<seq<T>>)
    ensures r.Ok? <==> forall i :: 0 <= i < |xs| ==> f(xs[i]).Ok?
    ensures r.Ok? ==> |r.value| <= |xs|
  {
    if xs == [] then Ok([])
    else
      var here :- f(xs[0]);
      var rest :- Collect(f, xs[1..]);
      Ok((if here.Some? then [here.value] else []) + rest)
  }

  /** A function that maps the empty sequence to nothing and every non-empty
      one to its head's part followed by the tail's result distributes over
      concatenation. */
  lemma {:induction false} ConsAppend<A, B>(f: seq<A> -> seq<B>, part: A -> seq<B>, a: seq<A>, b: seq<A>)
    requires f([]) == []
    requires forall xs :: xs != [] ==> f(xs) == part(xs[0]) + f(xs[1..])
    ensures f(a + b) == f(a) + f(b)
    decreases |a|
  {
    if a == [] {
      assert a + b == b;
    } else {
      assert (a + b)[0] == a[0] && (a + b)[1..] == a[1..] + b;
      ConsAppend(f, part, a[1..], b);
    }
  }

  /** Every contribution is the value of some item's step. */
  lemma {:induction false} CollectMember<A, T>(f: A -> Result<Option<T>>, xs: seq<A>, x: T)
    requires Collect(f, xs).Ok? && x in Collect(f, xs).value
    ensures exists i :: 0 <= i < |xs| && f(xs[i]) == Ok(Some(x))
  {
    var here := f(xs[0]).value;
    var rest := Collect(f, xs[1..]).value;
    if !(here.Some? && x == here.value) {
      CollectMember(f, xs[1..], x);
      var i :| 0 <= i < |xs[1..]| && f(xs[1..][i]) == Ok(Some(x));
      assert xs[i + 1] == xs[1..][i];
    }
  }

  /** Running the loop over two batches one after the other contributes the
      values of both, in order. */
  lemma {:induction false} CollectAppend<A, T>(f: A -> Result<Option<T>>, a: seq<A>, b: seq<A>)
    requires Collect(f, a + b).Ok?
    ensures Collect(f, a).Ok? && Collect(f, b).Ok?
    ensures Collect(f, a + b).value == Collect(f, a).value + Collect(f, b).value
  {
    if a == [] {
      assert a + b == b;
    } else {
      var ab := a + b;
      assert ab[0] == a[0] && ab[1..] == a[1..] + b;
      CollectAppend(f, a[1..], b);
      var here := f(a[0]).value;
      var hs := if here.Some? then [here.value] else [];
      assert Collect(f, ab).value == hs + Collect(f, a[1..] + b).value;
      assert Collect(f, a).value == hs + Collect(f, a[1..]).value;
    }
  }

  /** Every item's contribution is among the contributions. */
  lemma {:induction false} CollectComplete<A, T>(f: A -> Result<Option<T>>, xs: seq<A>, i: nat)
    requires Collect(f, xs).Ok? && i < |xs| && f(xs[i]).Ok? && f(xs[i]).value.Some?
    ensures f(xs[i]).value.value in Collect(f, xs).value
  {
    if i > 0 {
      assert xs[1..][i - 1] == xs[i];
      CollectComplete(f, xs[1..], i - 1);
    }
  }

  /** A single item contributes its own step's value, or nothing. */
  lemma CollectOne<A, T>(f: A -> Result<Option<T>>, x: A)
    ensures Collect(f, [x]).Ok? <==> f(x).Ok?
    ensures f(x).Ok? ==> Collect(f, [x]).value == (if f(x).value.Some? then [f(x).value.value] else [])
  {
    assert [x][1..] == [];
  }
}
